=== FILE: README.md ===
# LearnHub content and progress rules, in Dafny

This project models the rules of a small learning-content application. Users search for books, articles, videos and courses. They save items and record how far they have got in each. Search results are enriched with books from the OpenLibrary search service, which are stored locally under their OpenLibrary key.

The database is an immutable `Store` value: users, content rows, saved rows and progress rows, plus an id counter and a clock. Every storage call and every HTTP handler is a pure function from the store (and the request) to a result and the store afterwards. The client-side rules are pure functions too: the progress widget, the content card, the search state with its filters, and the pagination of the home page.

Modules, in dependency order:

- `Wrappers`: `Option` and `Result`.
- `Text`: ASCII case folding, substring search, `join`, decimal rendering, JavaScript `parseInt` in base 10, and code-point ordering.
- `Schema`: the three database enums with their labels, the table rows, the content insert shape and `ContentWithProgress`.
- `Sorting`: insertion sort under a "may come before" relation, proved to be an ordered permutation.
- `Store`: `searchContent`, `getContentByExternalId`, `createContent`, `saveContent`, `unsaveContent`, `isContentSaved`, `getSavedContent`, `updateProgress` and `getUserProgress`, with the store's validity invariant.
- `OpenLibrary`: cover URLs, the subject classifier and the mapping of a search document to a content row.
- `Routes`: the demo-user session, search with ingestion, saved listing, save, unsave, progress read and update, and statistics.
- `ProgressControls`, `ContentCard`, `SearchHook`, `FilterPanel` and `HomePage`: the client rules.

Conventions used throughout:

- A rating is a `decimal(3,2)` held as whole hundredths.
- A JavaScript `NaN` from `parseInt` is `None`.
- An HTTP reply is `Ok(body)` or `Error(code, message)`.

## Model

| member | source | states |
|---|---|---|
| Schema.LabelsRoundTrip | shared/schema.ts:6-8 | every enum value's label parses back to that value, so the labels are distinct and each parser accepts exactly its enum's labels |
| Schema.EnumListsComplete | shared/schema.ts:6-8 | the value lists hold each of the 4 content types, 9 categories and 3 statuses exactly once |
| Schema.ParseCategory | shared/schema.ts:7 | a text is accepted as a category only when it is that category's label |
| Schema.ParseContentType | shared/schema.ts:6 | a text is accepted as a content type only when it is that type's label |
| Schema.ParseStatus | shared/schema.ts:8 | a text is accepted as a status only when it is that status's label |
| Schema.Materialise | shared/schema.ts:53-56 | the stored row is the insert shape, every column copied (title, description, URL, image, source, external key, type, category, rating, author), plus the id and creation time the store assigns |
| Sorting.Sort | server/storage.ts:114-126 | an ORDER BY returns a permutation of its input |
| Sorting.SortIsOrdered | server/storage.ts:114-126 | under a total, transitive order every row may come before every later row |
| Text.ParseIntRoundTrip | server/routes.ts:41-42 | `parseInt` of an integer's decimal text gives that integer back |
| Text.ParseIntNaN | server/routes.ts:41-42 | a text without a leading digit (after blanks and a sign) parses to NaN |
| Text.ParseIntNumberIff | server/routes.ts:41-42 | `parseInt` gives a number exactly when, after leading blanks and at most one sign, a digit follows; with Text.ParseIntRoundTrip this is what `Text.ParseInt` promises |
| Text.JoinEmptyIff | server/services/openLibraryService.ts:63 | a join is empty exactly when every part is empty and there is at most one part |
| Text.ToLowerNormalises | server/services/openLibraryService.ts:78 | lower-casing twice is lower-casing once |
| Store.GetUserByEmail | server/storage.ts:68-71 | the user found has the email; none is found exactly when no user has it |
| Store.CreateUser | server/storage.ts:73-76 | the insert fails exactly when the email is taken; otherwise one user with a fresh id is appended and validity is kept |
| Store.GetContent | server/storage.ts:78-81 | the item found has the id; none is found exactly when no item has it |
| Store.GetContentByExternalId | server/storage.ts:146-151 | the item found has the key and source; none is found exactly when no stored item has both |
| Store.CreateContent | server/storage.ts:141-144 | the insert succeeds exactly when a title is present and the rating fits `decimal(3,2)`; it appends one row and changes no other table |
| Store.Matching | server/storage.ts:87-111 | the items kept are exactly those matching the text condition and every supplied filter, each as many times as it is stored, in stored order |
| Store.TextMatchesBounds | server/storage.ts:87-95 | an empty query applies no text condition; a title containing the query, in any letter case, is a hit; a hit for a non-empty query needs a title, description or author at least as long as the query, a NULL column giving none |
| Store.MatchesFilters | server/storage.ts:87-111 | a matching row passes the text condition; with no category or type supplied that condition is all; a supplied category or type keeps only rows whose column is the value that label names, so an unknown label keeps none |
| Store.MatchingOnce | server/storage.ts:87-111 | over rows with increasing ids, every stored matching row is kept exactly once and nothing else is kept |
| Store.OrderingFor | server/storage.ts:114-126 | 'rating' and 'title' select their orders; every other key, or none, sorts newest first |
| Store.PrecedesIsPreorder | server/storage.ts:114-126 | each of the three orders is total and transitive, NULL ratings first in the descending rating order |
| Store.PrecedesOrders | server/storage.ts:114-126 | the chosen order puts strictly newer rows first; or NULL ratings ahead of all and strictly higher ratings first; or equal titles either way round |
| Store.Paginate | server/storage.ts:129-135 | `offset` rows are skipped and at most `limit` kept, a 0 meaning the clause is absent |
| Store.SearchOrder | server/storage.ts:83-126 | the ordered rows are a permutation of the matching rows, sorted by the chosen order |
| Store.SearchContent | server/storage.ts:83-139 | the search fails exactly for a label outside its enum or a negative limit or offset; otherwise the results are the window of the ordered matching rows that starts at `offset` and holds `limit` rows (all the rest for a missing or zero limit), each unsaved and without progress |
| Store.AllUnsaved | server/storage.ts:138 | each result row is the stored row, in the same place, marked unsaved and without progress |
| Store.SearchPageSound | server/storage.ts:83-135 | a page holds only stored rows that match, sorted by the chosen order, and no more rows than a positive limit |
| Store.UnpaginatedIsOrder | server/storage.ts:83-139 | without limit and offset the search succeeds and lists the whole sorted sequence of matching rows |
| Store.SearchWithoutPaginationIsComplete | server/storage.ts:83-139 | without limit and offset the search succeeds and returns the matching rows as a multiset; in a valid store each stored matching row exactly once |
| Store.SaveContent | server/storage.ts:153-156 | the insert fails exactly when a reference does not resolve; otherwise one row for the pair is appended and the pair is saved |
| Store.RemovePair | server/storage.ts:158-161 | the rows kept are exactly those not holding the pair |
| Store.RemovePairKeepsOrder | server/storage.ts:158-161 | deleting the pair's rows keeps the rows chronological and the pairs distinct |
| Store.UnsaveContent | server/storage.ts:158-161 | afterwards the pair is not saved, other rows are untouched, and validity and pair uniqueness are kept |
| Store.ProgressFromColumns | server/storage.ts:210-219 | no progress without a progress id; otherwise the row, with NULL status read as not started and NULL percentage as 0 |
| Store.JoinedRowRoundTrip | server/storage.ts:179-219 | a progress row read through the left join comes back unchanged |
| Store.SavedNewestFirst | server/storage.ts:193-194 | exactly the user's saved rows, each as often as it is stored, most recently saved first |
| Store.ItemsForSavedRow | server/storage.ts:184-219 | a saved row gives items of stored content only, each saved and carrying only the user's progress on it; nothing when the content is gone; with progress rows, one item per row, in their order |
| Store.GetSavedContent | server/storage.ts:163-221 | every listed item is stored content the user saved, marked saved, with only the user's progress on it |
| Store.SavedListingComplete | server/storage.ts:184-221 | every saved row whose content exists is listed: without progress when the user has no row for the item, and with each of the user's progress rows on it otherwise |
| Store.SavedListingOnce | server/storage.ts:184-194 | when saved pairs and progress pairs are unique, the listing has one item per saved row of the user and no item twice |
| Store.ProgressRowsForAtMostOne | server/storage.ts:186-192 | with unique progress pairs, the left join finds at most one progress row for a saved row |
| Store.ItemsOnePerRow | server/storage.ts:184-219 | with unique progress pairs, the join of saved rows whose content exists gives one item per row, for that row's content, in row order |
| Store.NewestRowsOnce | server/storage.ts:193-194 | in a valid store no saved row appears twice among the user's rows |
| Store.DifferentSavedRowsDifferentItems | server/storage.ts:184-194 | with unique saved pairs, two different saved rows of one user are for different items |
| Store.SavedRowsDistinctItems | server/storage.ts:184-194 | with unique saved pairs, the user's saved rows newest first name each item at most once |
| Store.ItemsForSavedRowComplete | server/storage.ts:184-219 | the left join of one saved row yields the bare item when the user has no progress on it, and the item with each of the user's progress rows otherwise; so exactly one item without progress and one per progress row with it, all then carrying progress |
| Store.SavedListingNewestFirst | server/storage.ts:193-194 | every listed item comes no earlier than a later one: some save of the first is at least as recent as some save of the second |
| Store.SavedIffListed | server/storage.ts:163-228 | an item listed for the user is saved for them; in a valid store every saved item is listed, so `isContentSaved` and the listing agree |
| Store.SavedAmongUserRows | server/storage.ts:223-228 | `isContentSaved` holds exactly when one of the user's saved rows is for the item; Store.SavedIffListed, Store.SaveContent and Store.UnsaveContent then tie it to the listing and to save and unsave |
| Store.UpdateProgress | server/storage.ts:230-247 | an upsert: without a row for the pair exactly one is inserted, failing only when a reference does not resolve; otherwise the pair's rows are overwritten; the returned row carries the given values, other pairs are untouched, and one-row-per-pair is kept |
| Store.OverwriteOutcome | server/storage.ts:235-240 | the update branch rewrites the pair's rows with the new status and percentage, keeps every other row and the row count, and keeps validity and one-row-per-pair |
| Store.OverwritePair | server/storage.ts:236-239 | every row of the pair gets the new status, percentage and update time and keeps its id, user and item; every other row is unchanged |
| Store.InsertOutcome | server/storage.ts:241-245 | the insert branch appends the row and keeps every earlier row, validity and one-row-per-pair |
| Store.GetUserProgress | server/storage.ts:249-253 | exactly the user's progress rows, each as often as it is stored, most recently updated first |
| OpenLibrary.CoverUrl | server/services/openLibraryService.ts:56-58 | the URL starts with the covers prefix |
| OpenLibrary.CoverUrlRoundTrip | server/services/openLibraryService.ts:56-58 | the image id and the size letter can be read back from the URL |
| OpenLibrary.ClassifierIgnoresCase | server/services/openLibraryService.ts:78 | the classification does not depend on letter case |
| OpenLibrary.ClassifierOrder | server/services/openLibraryService.ts:75-91 | the whole decision: a missing or empty subject is programming; otherwise the first keyword group with a hit in the lower-cased subject decides, in the order programming, design, business, science, and no hit is programming |
| OpenLibrary.MapSubjectToCategory | server/services/openLibraryService.ts:75-91 | a missing or empty subject is programming; otherwise, in the lower-cased subject, a programming keyword gives programming, else a design keyword design, else a business keyword business, else a science keyword science, else programming |
| OpenLibrary.ClassifierDataScience | server/services/openLibraryService.ts:86 | "Data Science" is science |
| OpenLibrary.ClassifierBuilding | server/services/openLibraryService.ts:82 | "Building" is design, because it contains "ui" |
| OpenLibrary.ClassifierFirstGroupWins | server/services/openLibraryService.ts:80 | "Python for Data Analysis" is programming, although "data" occurs too |
| OpenLibrary.ClassifierFallback | server/services/openLibraryService.ts:88-90 | every subject containing no keyword of the four groups is programming |
| OpenLibrary.ClassifierHistory | server/services/openLibraryService.ts:88-90 | "History", which holds no keyword, is programming |
| OpenLibrary.FirstThree | server/services/openLibraryService.ts:63 | at most three subjects, a prefix of the list, and all of them when there are fewer |
| OpenLibrary.DescriptionFor | server/services/openLibraryService.ts:63 | the description is never empty |
| OpenLibrary.DescriptionFallback | server/services/openLibraryService.ts:63 | the fixed text is used exactly when there is no subject text; otherwise the first three subjects joined with ", " |
| OpenLibrary.AuthorFor | server/services/openLibraryService.ts:71 | the first author when there is a non-empty one, else "Unknown Author"; any other result is the first author; "Unknown Author" exactly when there is no first author or it is empty (or is that very text) |
| OpenLibrary.RatingFor | server/services/openLibraryService.ts:70 | no rating for a missing or zero average; otherwise a multiple of a tenth within half a tenth of the average |
| OpenLibrary.ImageFor | server/services/openLibraryService.ts:65 | no image exactly for a missing or zero cover id; otherwise the medium cover URL |
| OpenLibrary.MapToContent | server/services/openLibraryService.ts:60-73 | source, external key, type book, site URL and title from the document; the category the classifier gives the first subject; the description from the first three subjects; the first author or "Unknown Author"; the rating rounded to a tenth; the medium cover image |
| OpenLibrary.MappedInsertable | server/services/openLibraryService.ts:62-70 | a mapped document is accepted by the database exactly when it has a title and its rounded rating is below 10 |
| Routes.FindAppendedUser | server/routes.ts:13-18 | after an insert with a free email, the lookup by that email finds the new user |
| Routes.CreateDefaultUser | server/routes.ts:11-25 | get-or-create by the demo email: an existing user is returned with the store unchanged; otherwise exactly the demo user is appended to the users and nothing else changes |
| Routes.SessionStable | server/routes.ts:11-20 | once created, later requests find the same user and write nothing |
| Routes.Session | server/routes.ts:11-25 | the session user has the demo email and is found by it afterwards; an existing demo user is returned with the store unchanged; only the user table can change, and validity is kept |
| Routes.SaveKeepsSession | server/routes.ts:100-125 | a save does not change which user the next request acts for |
| Routes.UnsaveDropsAppended | server/routes.ts:128-143 | unsaving a pair right after its row was appended leaves exactly the earlier saves that are not for the pair |
| Routes.CapLimit | server/routes.ts:41 | `Math.min(limit, 50)`, NaN staying NaN |
| Routes.RequestedLimit | server/routes.ts:30-41 | a missing limit is 20; the decimal text of any integer is read as that integer; an empty text is NaN |
| Routes.RequestedOffset | server/routes.ts:30-42 | a missing offset is 0; the decimal text of any integer is read as that integer; an empty text is NaN |
| Routes.LocalFilters | server/routes.ts:36-43 | category, type and sort key passed through; the limit is 20 when missing, the written integer capped at 50, and never above 50; the offset is 0 when missing, otherwise the written integer |
| Routes.Ingest | server/routes.ts:51-67 | at most one row per document; only content grows; stored keys stay unique and the store stays valid |
| Routes.IngestListsDocuments | server/routes.ts:51-67 | every row listed carries a document's key and is either a row stored before or the document mapped and inserted; every document stored before, or accepted by the database, is listed under its key |
| Routes.FreshExternalKeepsUnique | server/routes.ts:53-56 | inserting a row for a key not yet stored keeps keys unique |
| Routes.IngestCovers | server/routes.ts:51-67 | after ingestion every accepted document's key is stored |
| Routes.IngestNoop | server/routes.ts:51-67 | ingestion writes nothing when every accepted document's key is already stored |
| Routes.IngestIdempotent | server/routes.ts:51-67 | ingesting the same answer twice stores nothing new the second time |
| Routes.Combine | server/routes.ts:69-76 | local items then external rows; `total` is the combined length; `hasMore` compares it with the requested limit |
| Routes.SearchRoute | server/routes.ts:28-81 | 400 without a query; 500 exactly when the local search fails, before any write; otherwise the local page first, entry for entry, then only fetched rows, with `total` and `hasMore` as combined; a failed fetch writes nothing; validity and key uniqueness are kept |
| Routes.SearchListsFetchedBooks | server/routes.ts:51-76 | after the local page every entry is a fetched row under a document's key, and every document stored before or accepted by the database is among them |
| Routes.SearchResultsSound | server/routes.ts:36-76 | every local entry is a stored matching item and every fetched entry is a stored OpenLibrary row |
| Routes.FailedFetchListsLocalOnly | server/routes.ts:64-76 | when the fetch fails the answer is the local page alone |
| Routes.SearchIdempotent | server/routes.ts:51-67 | repeating a search with the same OpenLibrary answer stores nothing new |
| Routes.HasMoreWithZeroLimit | server/routes.ts:41-75 | a limit text parsing to 0 is not applied, and `hasMore` is then always true |
| Routes.HasMoreWithUnparsableLimit | server/routes.ts:41-75 | an unparsable limit is not applied, and `hasMore` is then always false |
| Routes.LimitTextExamples | server/routes.ts:41-42 | "0" parses to 0 and "many" to NaN |
| Routes.GetSavedRoute | server/routes.ts:84-97 | the demo user's saved items, each stored, saved and marked so; in a valid store every saved item is listed; the items come newest save first; when saved and progress pairs are unique, one item per saved row and no item twice |
| Routes.FreshSaveKeepsUnique | server/routes.ts:114-119 | appending a pair that is not saved keeps pairs unique |
| Routes.SaveRoute | server/routes.ts:100-125 | 404 exactly for a missing item, 400 exactly when already saved, otherwise one new row for the pair; errors write nothing beyond the session; no pair is ever duplicated |
| Routes.UnsaveRoute | server/routes.ts:128-143 | always the success message; afterwards the pair is not saved and other saves are kept |
| Routes.RemovePairIdempotent | server/routes.ts:137 | deleting the pair's rows twice is deleting them once |
| Routes.UnsaveIdempotent | server/routes.ts:128-143 | unsaving twice leaves the store as unsaving once |
| Routes.SaveThenUnsave | server/routes.ts:100-143 | save then unsave leaves the saves as before, minus the pair |
| Routes.ValidateProgress | server/routes.ts:165-170 | accepted exactly when the status is an enum label and the percentage a number in 0..100, read back unchanged |
| Routes.ValidateProgressRoundTrip | server/routes.ts:165-170 | a body built from a status and a percentage in range is accepted, and one out of range rejected |
| Routes.UpdateProgressRoute | server/routes.ts:162-188 | an invalid body is a 500 with nothing written; a missing item a 404; otherwise the upserted row with the sent values; one row per pair and percentages in 0..100 are kept |
| Routes.UpsertKeepsRange | server/routes.ts:167-182 | an upsert with a percentage in range keeps every stored percentage in range |
| Routes.UpdateProgressRepeat | server/routes.ts:162-188 | a repeated valid update succeeds and adds no row |
| Routes.GetProgressRoute | server/routes.ts:146-159 | exactly the demo user's stored progress rows, each as often as stored, latest first |
| Routes.CountStatus | server/routes.ts:201-202 | a count never exceeds the number of rows |
| Routes.CountStatusCounts | server/routes.ts:201-202 | the count is the number of rows with that status |
| Routes.CountsPartition | server/routes.ts:201-202 | the three status counts add up to the number of rows |
| Routes.SumBounds | server/routes.ts:203-205 | percentages in 0..100 sum to between 0 and 100 per row |
| Routes.RoundedMean | server/routes.ts:203-205 | `Math.round(sum / n)`: within half a unit of the mean, halves up; 0 for no rows |
| Routes.RoundedMeanUnique | server/routes.ts:203-205 | only one integer is within half a unit of the mean in that sense |
| Routes.RoundedMeanInRange | server/routes.ts:203-205 | the rounded mean of percentages in range lies in 0..100 |
| Routes.StatsRoute | server/routes.ts:191-217 | completed and in-progress counts equal to the number of the user's stored rows with that status, the rounded mean of the user's stored percentages (0 without rows), in 0..100 when they are; the saved count equals the user's saved rows when saved and progress pairs are unique |
| Routes.SumOfPermutation | server/routes.ts:198-205 | a sum over rows does not depend on their order, so the order of the progress listing does not change the statistics |
| Routes.UserProgressSum | server/routes.ts:198-205 | summing over the user's progress listing equals summing over all stored rows with the other users' rows counted as zero |
| Routes.StatsFromStoredRows | server/routes.ts:198-210 | after the user lookup, the counts, the percentage total and the number of rows are those of the user's stored rows, and the saved count is the number of saved rows when saved and progress pairs are unique |
| Routes.StatsInRange | server/routes.ts:198-205 | the mean over the user's rows stays in 0..100 when every stored percentage does |
| ProgressControls.InitialWidget | client/src/components/progress/progress-controls.tsx:25-31 | the dialog starts closed, with a field that reads back as the shown percentage |
| ProgressControls.StatusFor | client/src/components/progress/progress-controls.tsx:35 | completed exactly from 100 up, otherwise in progress; never not started |
| ProgressControls.HandleProgressUpdate | client/src/components/progress/progress-controls.tsx:34-45 | sends the percentage with its status; closes the dialog exactly when reaching 100 |
| ProgressControls.SubmittedPercentage | client/src/components/progress/progress-controls.tsx:48 | the parsed field clamped to 0..100, NaN counting as 0 |
| ProgressControls.HandleCustomSubmit | client/src/components/progress/progress-controls.tsx:47-51 | sends the clamped value with its status and always closes the dialog |
| ProgressControls.PickPreset | client/src/components/progress/progress-controls.tsx:111 | a quick option fills the field with text that reads back as the option |
| ProgressControls.PickThenSubmit | client/src/components/progress/progress-controls.tsx:47-51 | submitting a filled-in percentage in 0..100 sends exactly it, completed only at 100 |
| ProgressControls.PresetThenSubmit | client/src/components/progress/progress-controls.tsx:53 | each of 25, 50, 75, 100 is sent as is, and only 100 completes |
| ProgressControls.SubmitUntouchedKeepsProgress | client/src/components/progress/progress-controls.tsx:26-51 | submitting without typing re-sends the current percentage |
| ProgressControls.CustomSubmitValidates | client/src/components/progress/progress-controls.tsx:34-51 | every custom submission passes the server's request schema unchanged |
| ProgressControls.PresetUpdateValidates | client/src/components/progress/progress-controls.tsx:53-63 | every quick update passes the server's request schema unchanged |
| ProgressControls.HighlightedPrefix | client/src/components/progress/progress-controls.tsx:61 | the highlighted presets form a prefix of the list |
| ContentCard.BookmarkToggle | client/src/components/content/content-card.tsx:19-28 | exactly one request: unsave for a saved item, save otherwise |
| ContentCard.BookmarkFlipsSaved | client/src/components/content/content-card.tsx:19-28 | on a card that agrees with the store, the bookmark flips whether the item is saved |
| ContentCard.Dispatch | client/src/components/content/content-card.tsx:23-37 | no request changes the content table; a save leaves an existing item saved for the session user and an unsave leaves it unsaved, both without touching progress; an update touches no saved row; validity is kept |
| ContentCard.ActionFor | client/src/components/content/content-card.tsx:118-138 | disabled for completed items, "Continue" exactly while in progress, "Start Learning" otherwise |
| ContentCard.HandleStartLearning | client/src/components/content/content-card.tsx:30-40 | sends (in progress, 5) exactly when there is no progress or it is completed |
| ContentCard.StartButtonSendsOnlyWithoutProgress | client/src/components/content/content-card.tsx:30-40 | behind the "Start Learning" button, the update is sent exactly when there is no progress row |
| ContentCard.StartLearningValidates | client/src/components/content/content-card.tsx:32-37 | the first-click update passes the server's request schema |
| ContentCard.PanelFor | client/src/components/content/content-card.tsx:184-194 | no controls exactly for unsaved items; compact ones only while in progress |
| ContentCard.CompactIffContinue | client/src/components/content/content-card.tsx:184-194 | on a saved item the compact panel and the "Continue" button go together |
| ContentCard.StatusIndicator | client/src/components/content/content-card.tsx:93-116 | a line exactly for completed and in-progress items; the completed line exactly for completed ones; the in-progress line carries the stored percentage |
| ContentCard.JsRemainder | client/src/components/content/content-card.tsx:50 | JavaScript `%`: quotient rounded toward zero, remainder with the dividend's sign |
| ContentCard.FullStars | client/src/components/content/content-card.tsx:49 | `Math.floor` of the rating, in hundredths |
| ContentCard.RatingStars | client/src/components/content/content-card.tsx:46-70 | no stars exactly without a rating, otherwise five, star i filled exactly when the rating is at least i + 0.5 |
| ContentCard.StarFilledIffReached | client/src/components/content/content-card.tsx:55-63 | whole stars plus a half star for a fraction of at least one half fill star i exactly when the rating reaches i + 0.5, negative ratings included |
| ContentCard.StarsCount | client/src/components/content/content-card.tsx:55-63 | the number filled is the whole stars plus the half star, clamped to 0..5 |
| ContentCard.StarsFilledFirst | client/src/components/content/content-card.tsx:60 | the filled stars come first |
| ContentCard.RatingExamples | client/src/components/content/content-card.tsx:46-63 | 4.50 fills five stars, 3.49 three, -1.50 and 0.00 none |
| ContentCard.FooterFor | client/src/components/content/content-card.tsx:199 | the status line when there is one, with that very indicator; else the stars of the rating when rated; else nothing |
| SearchHook.Offset | client/src/hooks/use-search.ts:9-18 | on a valid page the offset is a non-negative multiple of 12 |
| SearchHook.UpdateFilterAsWritten | client/src/hooks/use-search.ts:20-26 | the key is always present afterwards, `undefined` exactly for the empty string; other keys kept; page 1 |
| SearchHook.UpdateFilter | client/src/hooks/use-search.ts:20-26 | the key is present exactly for a non-empty value and then holds it; other keys kept; page 1 |
| SearchHook.ClearFilters | client/src/hooks/use-search.ts:28-31 | no filters, page 1, same query |
| SearchHook.Request | client/src/lib/api.ts:5-11 | a request exactly for a non-blank query, whose limit parses to 12, offset to the page's offset, and filters to the present keys |
| SearchHook.Answer | client/src/hooks/use-search.ts:13-18 | data only from a successful reply |
| SearchHook.ReadingTheAnswer | client/src/hooks/use-search.ts:33-43 | without data: no results, total 0, no next page; with the server's answer the total is the number shown |
| SearchHook.RequestPaginationValid | client/src/hooks/use-search.ts:13-18 | the limit and offset sent are never negative, so the server never rejects them |
| SearchHook.ClearingCategoryAsWritten | client/src/hooks/use-search.ts:20-24 | as written, a category followed by "all" sends `category=undefined`, which the server answers with 500 |
| SearchHook.ClearingCategoryRestores | client/src/hooks/use-search.ts:20-24 | with the corrected update, a category followed by "all" removes the filter and the request has no category |
| SearchHook.CorrectedRequestSucceeds | client/src/lib/api.ts:5-11 | a request whose category and type are enum labels is answered with success |
| FilterPanel.Displayed | client/src/components/content/filters.tsx:20 | the shown value is the filter's text or the default entry |
| FilterPanel.Reported | client/src/components/content/filters.tsx:21 | "all" is reported as the empty string |
| FilterPanel.Apply | client/src/components/content/filters.tsx:19-64 | a choice, passed to `updateFilter` as the home page wires it, keeps the query and returns to page 1 |
| FilterPanel.ApplyCorrected | client/src/components/content/filters.tsx:19-64 | with the corrected update, a choice keeps the query and returns to page 1 |
| FilterPanel.ApplyAll | client/src/components/content/filters.tsx:19-84 | as wired, a run of choices keeps the query and, when it holds at least one choice, ends on page 1; an empty run changes nothing |
| FilterPanel.ApplyAllCorrected | client/src/components/content/filters.tsx:19-84 | the same with the corrected update |
| FilterPanel.CategoryOptionsAreLabels | client/src/components/content/filters.tsx:27-36 | the entries after "all" are exactly the nine category labels |
| FilterPanel.TypeOptionsAreLabels | client/src/components/content/filters.tsx:51-55 | the entries after "all" are exactly the four content-type labels |
| FilterPanel.SortOptionsOrdering | client/src/components/content/filters.tsx:70-73 | relevance and date sort newest first, rating by rating, title by title |
| FilterPanel.ChoiceIsShown | client/src/components/content/filters.tsx:19-64 | after a choice the select shows the chosen entry |
| FilterPanel.ChoiceKeepsOtherSelects | client/src/components/content/filters.tsx:19-64 | a choice in one select changes nothing the other two show |
| FilterPanel.ClearShowsDefaults | client/src/components/content/filters.tsx:78-84 | after "Clear Filters" the selects show "all", "all" and "relevance" |
| FilterPanel.ApplyKeepsLabelsKnown | client/src/components/content/filters.tsx:19-64 | with the corrected update, an offered choice keeps every category and type filter an enum label |
| FilterPanel.ApplyAllKeepsLabelsKnown | client/src/components/content/filters.tsx:19-84 | with the corrected update, so does any run of choices |
| FilterPanel.PanelKeepsRequestValid | client/src/components/content/filters.tsx:19-84 | with the corrected update, after any run of choices the state has a valid page, known labels and a request |
| FilterPanel.PanelSearchesSucceed | client/src/components/content/filters.tsx:19-84 | with the corrected update, the search after any run of choices succeeds |
| FilterPanel.ApplyKeepsLabelsOrUndefined | client/src/components/content/filters.tsx:19-64 | as wired, an offered choice keeps every category and type filter an enum label or `undefined` |
| FilterPanel.ApplyAllKeepsLabelsOrUndefined | client/src/components/content/filters.tsx:19-84 | as wired, so does any run of choices |
| FilterPanel.CategoryParamValid | client/src/components/content/filters.tsx:21-36 | a category filter that is a label or `undefined` is sent as a valid label exactly when it is not `undefined` |
| FilterPanel.TypeParamValid | client/src/components/content/filters.tsx:45-55 | the same for the type filter |
| FilterPanel.UndefinedLabelRejected | client/src/components/content/filters.tsx:19-64 | the server accepts the request's labels exactly when no category or type filter is `undefined` |
| FilterPanel.StateSearchAsWritten | client/src/components/content/filters.tsx:19-64 | as wired, a search succeeds exactly when no category or type filter is `undefined` |
| FilterPanel.PanelSearchAsWritten | client/src/components/content/filters.tsx:19-84 | as wired, the search after any run of choices succeeds exactly when no category or type filter was left `undefined` |
| FilterPanel.AllAfterCategoryFails | client/src/components/content/filters.tsx:21-36 | as wired, a category followed by "All Categories" sends `category=undefined` and gets 500 |
| HomePage.NextPage | client/src/pages/home.tsx:46-50 | one page on exactly when there is a next page |
| HomePage.PrevPage | client/src/pages/home.tsx:52-56 | one page back exactly above page 1 |
| HomePage.PagingKeepsPageValid | client/src/pages/home.tsx:46-56 | neither handler leaves the pages from 1 up or touches the query and filters |
| HomePage.PagingMovesOffset | client/src/pages/home.tsx:46-56 | "Next" moves the offset 12 forward, "Previous" 12 back except on page 1 |
| HomePage.NextPreviousRoundTrip | client/src/pages/home.tsx:46-56 | "Previous" undoes "Next", and "Next" undoes "Previous" |
| HomePage.DisabledIffNoop | client/src/pages/home.tsx:137-158 | a button is disabled exactly when its handler would change nothing |
| HomePage.ShownRangeAsWritten | client/src/pages/home.tsx:131-132 | the upper end never exceeds the total |
| HomePage.ShownRangeAsWrittenExample | client/src/pages/home.tsx:131-132 | page 2 with ten entries reads "13 to 10" |
| HomePage.ShownRangeAsWrittenInverted | client/src/pages/home.tsx:131-132 | past page 1, with at most a page of entries, the range ends before it starts |
| HomePage.ShownRangeAsWrittenInvertedForSearch | client/src/pages/home.tsx:131-132 | for every search past page 1 without OpenLibrary rows, answered or failed, the range as written is inverted |
| HomePage.ShownRange | client/src/pages/home.tsx:131-132 | numbering starts after the offset and spans exactly the entries shown |
| HomePage.ShownRangesAdjoin | client/src/pages/home.tsx:131-132 | a full page's range ends just before the next page's range starts |

## Left out

- The database connection, the Express request and response objects, react-query caching and invalidation, toasts, and the 300 ms debounce of the query text are not modelled. They are I/O, time and effects.
- The OpenLibrary HTTP calls `searchBooks` and `getBookByKey` are not modelled. A search receives the parsed answer as a parameter, `None` when the fetch failed.
- `getUser` and `getContentProgress` in the storage layer are not modelled, because no handler calls them.
- Check-then-act races are not modelled; handlers run one at a time. Examples are the lookup before the insert in `updateProgress` and the saved check before `saveContent`.
- Ids are natural numbers from a counter, not UUID strings. Timestamps come from a clock that ticks on every write, and the clock also stands in for `new Date()` in the saved-listing defaults.
- `ILIKE` wildcards (`%`, `_`) inside the query, and case folding beyond ASCII, are not modelled.
- Title ordering is by code point, not by the database's collation. Rows that tie under an order keep the order the sort produces, and the database promises none.
- Floating point is not modelled. Ratings are whole hundredths, as `decimal(3,2)` stores them.
- OpenLibrary.RatingFor: takes `ratings_average` already in whole hundredths, so `toFixed(1)` is round-half-up of hundredths. Digits beyond the hundredths and binary rounding of halves are not modelled.
- ContentCard.RatingStars: the star arithmetic is exact on hundredths, where `parseFloat` and `%` in binary floating point could differ by one ulp.
- Routes.ValidateProgress: the percentage is an integer JSON number, so a fractional percentage (which the request schema accepts and the integer column then rejects) is not modelled. A field of the wrong JSON type is read as missing.
- Text.ParseInt: covers decimal input only. JavaScript `parseInt` also reads a `0x` prefix as hexadecimal and skips Unicode white space.
- SearchHook.NonBlank: uses the same ASCII white space, not all the white space `trim` removes.
- Routes.SearchQuery: `q` is `None` both when it is missing and when it is not a single string. The server answers both cases with 400.
- The category badge colours, images, the header, the sidebar, the view-mode switch and the other pages are presentational and not modelled.
- Saving is a plain insert, guarded in the route by the already-saved check. The progress write is a lookup, then an update or an insert. So the store alone allows duplicate saved pairs; only the save route keeps them unique.
- Store.SavedListingComplete: lists every saved row, but "each item once" is promised only by Store.SavedListingOnce, for stores whose saved pairs and progress pairs are unique, which the save and progress routes keep. The join itself repeats an item once per duplicate saved row and per progress row of the pair.
- Routes.GetSavedRoute: one item per saved row holds under the same unique-pairs invariants; in other stores the body repeats items as the join does.
- Routes.StatsRoute: the saved count equals the user's saved rows only under those invariants; otherwise it counts the joined items.
- Routes.RequestedOffset: the limit and offset are unbounded integers. JavaScript `parseInt` gives a double, so digits beyond 2^53 are rounded, and an offset beyond the 64-bit range is a database error answered with 500. The model answers such an offset with an empty page.

## Findings

| source | as written | input that shows it | evidently intended | confidence | as-written member | corrected member |
|---|---|---|---|---|---|---|
| client/src/hooks/use-search.ts:20-24 | `[key]: value \|\| undefined` keeps the key with the value `undefined`. `URLSearchParams` then sends the text "undefined". The server compares the enum column with "undefined", which the database rejects, and answers 500. | Pick "Programming" in the category select, then "All Categories", then search. The request carries `category=undefined` (`SearchHook.ClearingCategoryAsWritten`, `FilterPanel.AllAfterCategoryFails`); as wired, a search from the panel succeeds exactly when no filter was left `undefined` (`FilterPanel.PanelSearchAsWritten`). | An empty value removes the filter, so "All Categories" searches without a category (`SearchHook.ClearingCategoryRestores`, `FilterPanel.PanelSearchesSucceed`). | high, not executed | SearchHook.UpdateFilterAsWritten | SearchHook.UpdateFilter |
| client/src/pages/home.tsx:131-132 | The range line uses the server's `total`, which is the number of entries in this page's answer, not the number of matches. | On page 2 with ten entries the line reads "Showing 13 to 10 of 10 results" (`HomePage.ShownRangeAsWrittenExample`). Past page 1 this happens for every answer without OpenLibrary rows (`HomePage.ShownRangeAsWrittenInvertedForSearch`). | The entries shown are numbered from the offset plus one to the offset plus their count (`HomePage.ShownRangesAdjoin`). | medium, not executed | HomePage.ShownRangeAsWritten | HomePage.ShownRange |

=== FILE: content_card.dfy ===
/** One card of the result grid: the bookmark toggle, the action button,
    the progress panel (only for saved items), and the footer that shows
    either the progress status or the rating stars. Styling, images and the
    category badge colours are not modelled. */
module ContentCard {
  import opened Wrappers
  import opened Schema
  import opened Store
  import Routes
  import opened ProgressControls

  /** A request the card sends. */
  datatype CardRequest =
    | SaveRequest(contentId: Id)                   // POST /api/content/:id/save
    | UnsaveRequest(contentId: Id)                 // DELETE /api/content/:id/save
    | UpdateRequest(update: ProgressUpdate)        // POST /api/content/:id/progress

  /** `handleBookmarkToggle`: unsave a saved item, save any other. */
  function BookmarkToggle(item: ContentWithProgress): (req: CardRequest)
    ensures req.SaveRequest? <==> !item.isSaved
    ensures req.UnsaveRequest? <==> item.isSaved
    ensures !req.UpdateRequest? && req.contentId == item.content.id
  {
    if item.isSaved then UnsaveRequest(item.content.id) else SaveRequest(item.content.id)
  }

  /** The store after the server has handled a request of the card: a save
      leaves an existing item saved, an unsave leaves it unsaved, an update
      touches no saved row, and no request changes the content table. */
  function Dispatch(s: Store, req: CardRequest): (s': Store)
    ensures s'.contents == s.contents
    ensures req.SaveRequest? ==>
      s'.progress == s.progress
      && (GetContent(s, req.contentId).Some? ==> IsContentSaved(s', Routes.Session(s).0.id, req.contentId))
    ensures req.UnsaveRequest? ==>
      s'.progress == s.progress && !IsContentSaved(s', Routes.Session(s).0.id, req.contentId)
    ensures req.UpdateRequest? ==> s'.saved == s.saved
    ensures Valid(s) ==> Valid(s')
  {
    match req
    case SaveRequest(id) => Routes.SaveRoute(s, id).1
    case UnsaveRequest(id) => Routes.UnsaveRoute(s, id).1
    case UpdateRequest(u) => Routes.UpdateProgressRoute(s, u.contentId, BodyOf(u)).1
  }

  /** On a card whose saved flag agrees with the store, the bookmark flips
      whether the demo user has the item saved. */
  lemma BookmarkFlipsSaved(s: Store, item: ContentWithProgress)
    requires item.content in s.contents
    requires item.isSaved == IsContentSaved(s, Routes.Session(s).0.id, item.content.id)
    ensures var s' := Dispatch(s, BookmarkToggle(item));
      IsContentSaved(s', Routes.Session(s).0.id, item.content.id) == !item.isSaved
  {
    assert GetContent(s, item.content.id).Some?;
  }

  /** The button at the bottom right of the card. */
  datatype Action = CompletedDisabled | Continue | StartLearning

  /** `getActionButton`: a disabled button for completed items, "Continue"
      while in progress, "Start Learning" otherwise. */
  function ActionFor(item: ContentWithProgress): (a: Action)
    ensures a == CompletedDisabled <==> IsCompleted(item)
    ensures a == Continue <==> item.progress.Some? && item.progress.value.status == InProgress
  {
    if IsCompleted(item) then CompletedDisabled
    else if item.progress.Some? && item.progress.value.status == InProgress then Continue
    else StartLearning
  }

  /** The share of a learning session the first click records. */
  const StartPercentage: int := 5

  /** `handleStartLearning`: records "in progress, 5%" when there is no
      progress or the item was completed; the item is opened either way. */
  function HandleStartLearning(item: ContentWithProgress): (r: Option<CardRequest>)
    ensures r.Some? <==> item.progress.None? || item.progress.value.status == Completed
    ensures r.Some? ==> r.value == UpdateRequest(ProgressUpdate(item.content.id, InProgress, StartPercentage))
  {
    if item.progress.None? || item.progress.value.status == Completed then
      Some(UpdateRequest(ProgressUpdate(item.content.id, InProgress, StartPercentage)))
    else None
  }

  /** The "Start Learning" button sends an update only when there is no
      progress row: the completed branch of the handler is behind the
      disabled button, and a "not started" row is left as it is. */
  lemma StartButtonSendsOnlyWithoutProgress(item: ContentWithProgress)
    requires ActionFor(item) == StartLearning
    ensures HandleStartLearning(item).Some? <==> item.progress.None?
  {
  }

  /** The update a first click sends passes the server's schema. */
  lemma StartLearningValidates(item: ContentWithProgress)
    requires HandleStartLearning(item).Some?
    ensures var u := HandleStartLearning(item).value.update;
      Routes.ValidateProgress(BodyOf(u)) == Some((InProgress, StartPercentage))
  {
    Routes.ValidateProgressRoundTrip(InProgress, StartPercentage);
  }

  /** Where the progress controls go. */
  datatype Panel = Hidden | CompactControls | FullControls

  /** Progress can be edited only on saved items: compact controls while in
      progress, the full panel otherwise, a hint for unsaved items. */
  function PanelFor(item: ContentWithProgress): (p: Panel)
    ensures p == Hidden <==> !item.isSaved
    ensures p == CompactControls ==> item.progress.Some? && item.progress.value.status == InProgress
  {
    if !item.isSaved then Hidden
    else if item.progress.Some? && item.progress.value.status == InProgress then CompactControls
    else FullControls
  }

  /** The compact panel and the "Continue" button go together on saved items. */
  lemma CompactIffContinue(item: ContentWithProgress)
    requires item.isSaved
    ensures PanelFor(item) == CompactControls <==> ActionFor(item) == Continue
  {
  }

  // ---------------------------------------------------------------------
  // Footer: progress status or rating stars

  datatype Indicator = CompletedLine | InProgressLine(percentage: int)

  /** `getProgressStatus`: a line for completed and in-progress items only. */
  function StatusIndicator(item: ContentWithProgress): (r: Option<Indicator>)
    ensures r.Some? <==> item.progress.Some? && item.progress.value.status != NotStarted
    ensures r == Some(CompletedLine) <==> IsCompleted(item)
    ensures item.progress.Some? && item.progress.value.status == InProgress ==>
      r == Some(InProgressLine(item.progress.value.percentage))
  {
    if item.progress.None? then None
    else match item.progress.value.status
      case Completed => Some(CompletedLine)
      case InProgress => Some(InProgressLine(item.progress.value.percentage))
      case NotStarted => None
  }

  /** Division rounding toward zero. */
  function TruncatedQuotient(a: int, b: int): int
    requires b > 0
  {
    if a >= 0 then a / b else -((-a) / b)
  }

  /** JavaScript's `%`: what is left after the quotient rounded toward zero,
      so it takes the sign of the dividend. */
  function JsRemainder(a: int, b: int): (r: int)
    requires b > 0
    ensures a == b * TruncatedQuotient(a, b) + r
    ensures a >= 0 ==> 0 <= r < b
    ensures a < 0 ==> -b < r <= 0
  {
    if a >= 0 then a % b
    else
      var q := (-a) / b;
      assert -a == b * q + (-a) % b;
      assert b * TruncatedQuotient(a, b) == -(b * q);
      -((-a) % b)
  }

  /** `Math.floor(rating)` for a rating in hundredths. */
  function FullStars(hundredths: int): (f: int)
    ensures f * 100 <= hundredths < f * 100 + 100
  {
    hundredths / 100
  }

  /** `rating % 1 >= 0.5`: the fractional part, signed as in JavaScript,
      is at least one half. A negative rating never has a half star. */
  predicate HasHalfStar(hundredths: int) {
    JsRemainder(hundredths, 100) >= 50
  }

  /** Star `i` is drawn filled. */
  predicate StarFilled(i: int, full: int, half: bool) {
    i < full || (i == full && half)
  }

  function Stars(n: nat, full: int, half: bool): (r: seq<bool>)
    ensures |r| == n
    ensures forall i :: 0 <= i < n ==> r[i] == StarFilled(i, full, half)
  {
    seq(n, i requires 0 <= i < n => StarFilled(i, full, half))
  }

  /** `getRatingStars`: nothing without a rating, else five stars. A rating
      of 0.00 is a non-empty string, so it still shows five empty stars.
      Star `i` (from 0) is filled exactly when the rating reaches `i + 0.5`:
      the whole stars, then a half star drawn like a whole one. */
  function RatingStars(rating: Option<int>): (r: Option<seq<bool>>)
    ensures r.None? <==> rating.None?
    ensures r.Some? ==> |r.value| == 5
    ensures r.Some? ==> forall i :: 0 <= i < 5 ==> (r.value[i] <==> rating.value >= 100 * i + 50)
  {
    if rating.None? then None
    else
      var full := FullStars(rating.value);
      var half := HasHalfStar(rating.value);
      forall i | 0 <= i < 5 ensures StarFilled(i, full, half) <==> rating.value >= 100 * i + 50 {
        StarFilledIffReached(rating.value, i);
      }
      Some(Stars(5, full, half))
  }

  /** Whole stars plus a half star from a fractional part of at least one
      half fill star `i` exactly when the rating reaches `i + 0.5`. */
  lemma StarFilledIffReached(hundredths: int, i: nat)
    ensures StarFilled(i, FullStars(hundredths), HasHalfStar(hundredths)) <==> hundredths >= 100 * i + 50
  {
    var f := FullStars(hundredths);
    var rem := JsRemainder(hundredths, 100);
    if hundredths >= 0 {
      assert rem == hundredths - 100 * f;
    } else {
      assert rem <= 0;
      assert f < 0;
    }
  }

  function CountFilled(stars: seq<bool>): nat {
    if |stars| == 0 then 0
    else CountFilled(stars[..|stars| - 1]) + (if stars[|stars| - 1] then 1 else 0)
  }

  function Clamp(x: int, lo: int, hi: int): int
    requires lo <= hi
  {
    if x < lo then lo else if x > hi then hi else x
  }

  /** The number of filled stars is the whole stars plus a half, cut to 0..n. */
  lemma {:induction false} StarsCount(n: nat, full: int, half: bool)
    ensures CountFilled(Stars(n, full, half)) == Clamp(full + (if half then 1 else 0), 0, n)
  {
    if n > 0 {
      assert Stars(n, full, half)[..n - 1] == Stars(n - 1, full, half);
      StarsCount(n - 1, full, half);
    }
  }

  /** The filled stars come first. */
  lemma StarsFilledFirst(rating: int)
    ensures var stars := RatingStars(Some(rating)).value;
      forall i, j :: 0 <= i < j < |stars| && stars[j] ==> stars[i]
  {
  }

  /** A rating of 4.50 fills five stars, the half star being drawn like a
      whole one; 3.49 fills three; -1.50 and 0.00 fill none. */
  lemma RatingExamples()
    ensures CountFilled(RatingStars(Some(450)).value) == 5
    ensures CountFilled(RatingStars(Some(349)).value) == 3
    ensures CountFilled(RatingStars(Some(-150)).value) == 0
    ensures CountFilled(RatingStars(Some(0)).value) == 0
  {
    StarsCount(5, 4, true);
    StarsCount(5, 3, false);
    StarsCount(5, -2, false);
    StarsCount(5, 0, false);
  }

  /** What the footer shows at the left. */
  datatype Footer = StatusShown(indicator: Indicator) | StarsShown(stars: seq<bool>) | Blank

  /** `getProgressStatus() || getRatingStars(rating)`. */
  function FooterFor(item: ContentWithProgress): (f: Footer)
    ensures f.StatusShown? <==> StatusIndicator(item).Some?
    ensures f.StarsShown? <==> StatusIndicator(item).None? && item.content.rating.Some?
    ensures f.StatusShown? ==> f.indicator == StatusIndicator(item).value
    ensures f.StarsShown? ==> f.stars == RatingStars(item.content.rating).value
  {
    match StatusIndicator(item)
    case Some(line) => StatusShown(line)
    case None =>
      match RatingStars(item.content.rating)
      case Some(stars) => StarsShown(stars)
      case None => Blank
  }
}

=== FILE: filters.dfy ===
/** The filter panel above the result list: three selects (category, type,
    sort order) and a "Clear Filters" button. Each select shows the current
    filter or its default entry, and reports a choice to the search state;
    the "all" entries report the empty string. The home page hands the
    choices to `updateFilter` as written, which keeps the key with the value
    `undefined` (`Apply`); `ApplyCorrected` uses the corrected update, which
    removes the filter. */
module FilterPanel {
  import opened Wrappers
  import opened Schema
  import opened Store
  import opened SearchHook
  import Routes
  import OpenLibrary

  /** The entry that stands for "no filter" in the category and type selects. */
  const AllOption: string := "all"

  /** The entry the sort select shows when no order was chosen. */
  const DefaultSort: string := "relevance"

  const CategoryOptions: seq<string> :=
    ["all", "programming", "design", "business", "science", "data-science", "web-dev", "ux-design", "python", "react"]

  const TypeOptions: seq<string> := ["all", "book", "video", "article", "course"]

  const SortOptions: seq<string> := ["relevance", "date", "rating", "title"]

  /** `filters[key] || fallback`: the filter's text when it is a non-empty
      string, the fallback entry otherwise. */
  function Displayed(filters: FilterMap, key: FilterKey, fallback: string): (shown: string)
    ensures shown == fallback || (key in filters && filters[key] == SearchHook.Given(shown))
  {
    if key in filters && filters[key].Given? && filters[key].text != "" then filters[key].text else fallback
  }

  function ShownCategory(filters: FilterMap): string {
    Displayed(filters, CategoryKey, AllOption)
  }

  function ShownType(filters: FilterMap): string {
    Displayed(filters, ContentTypeKey, AllOption)
  }

  function ShownSort(filters: FilterMap): string {
    Displayed(filters, SortByKey, DefaultSort)
  }

  /** What a select reports for a chosen entry: "all" becomes the empty string. */
  function Reported(option: string): (v: string)
    ensures v == "" <==> option == AllOption || option == ""
  {
    if option == AllOption then "" else option
  }

  /** A choice in one of the three selects, or the clear button. */
  datatype PanelEvent =
    | PickCategory(option: string)
    | PickType(option: string)
    | PickSort(option: string)
    | ClearAll

  /** The select can only report one of its own entries. */
  predicate EventOffered(e: PanelEvent) {
    match e
    case PickCategory(o) => o in CategoryOptions
    case PickType(o) => o in TypeOptions
    case PickSort(o) => o in SortOptions
    case ClearAll => true
  }

  /** The search state after one event of the panel, as the home page
      wires it: the choice goes to `updateFilter` as written. */
  function Apply(st: SearchState, e: PanelEvent): (st': SearchState)
    ensures st'.query == st.query && st'.page == 1
  {
    match e
    case PickCategory(o) => UpdateFilterAsWritten(st, CategoryKey, Reported(o))
    case PickType(o) => UpdateFilterAsWritten(st, ContentTypeKey, Reported(o))
    case PickSort(o) => UpdateFilterAsWritten(st, SortByKey, o)
    case ClearAll => ClearFilters(st)
  }

  function ApplyAll(st: SearchState, events: seq<PanelEvent>): (st': SearchState)
    ensures st'.query == st.query
    ensures |events| > 0 ==> st'.page == 1
    ensures |events| == 0 ==> st' == st
    decreases |events|
  {
    if |events| == 0 then st else ApplyAll(Apply(st, events[0]), events[1..])
  }

  /** The search state after one event of the panel with the corrected
      filter update. */
  function ApplyCorrected(st: SearchState, e: PanelEvent): (st': SearchState)
    ensures st'.query == st.query && st'.page == 1
  {
    match e
    case PickCategory(o) => UpdateFilter(st, CategoryKey, Reported(o))
    case PickType(o) => UpdateFilter(st, ContentTypeKey, Reported(o))
    case PickSort(o) => UpdateFilter(st, SortByKey, o)
    case ClearAll => ClearFilters(st)
  }

  function ApplyAllCorrected(st: SearchState, events: seq<PanelEvent>): (st': SearchState)
    ensures st'.query == st.query
    ensures |events| > 0 ==> st'.page == 1
    ensures |events| == 0 ==> st' == st
    decreases |events|
  {
    if |events| == 0 then st else ApplyAllCorrected(ApplyCorrected(st, events[0]), events[1..])
  }

  /** The category entries other than "all" are exactly the category labels. */
  lemma CategoryOptionsAreLabels()
    ensures CategoryOptions[0] == AllOption && ParseCategory(AllOption).None?
    ensures forall i :: 1 <= i < |CategoryOptions| ==> ParseCategory(CategoryOptions[i]).Some?
    ensures forall c: Category :: CategoryLabel(c) in CategoryOptions[1..]
  {
    forall c: Category ensures CategoryLabel(c) in CategoryOptions[1..] {
      match c
      case Programming => assert CategoryOptions[1..][0] == CategoryLabel(c);
      case Design => assert CategoryOptions[1..][1] == CategoryLabel(c);
      case Business => assert CategoryOptions[1..][2] == CategoryLabel(c);
      case Science => assert CategoryOptions[1..][3] == CategoryLabel(c);
      case DataScience => assert CategoryOptions[1..][4] == CategoryLabel(c);
      case WebDev => assert CategoryOptions[1..][5] == CategoryLabel(c);
      case UxDesign => assert CategoryOptions[1..][6] == CategoryLabel(c);
      case PythonCategory => assert CategoryOptions[1..][7] == CategoryLabel(c);
      case ReactCategory => assert CategoryOptions[1..][8] == CategoryLabel(c);
    }
  }

  /** The type entries other than "all" are exactly the content-type labels. */
  lemma TypeOptionsAreLabels()
    ensures TypeOptions[0] == AllOption && ParseContentType(AllOption).None?
    ensures forall i :: 1 <= i < |TypeOptions| ==> ParseContentType(TypeOptions[i]).Some?
    ensures forall t: ContentType :: ContentTypeLabel(t) in TypeOptions[1..]
  {
    forall t: ContentType ensures ContentTypeLabel(t) in TypeOptions[1..] {
      match t
      case Book => assert TypeOptions[1..][0] == ContentTypeLabel(t);
      case Video => assert TypeOptions[1..][1] == ContentTypeLabel(t);
      case Article => assert TypeOptions[1..][2] == ContentTypeLabel(t);
      case Course => assert TypeOptions[1..][3] == ContentTypeLabel(t);
    }
  }

  /** Every entry the sort select offers orders the server's results as it
      names them; "relevance" and "date" both mean newest first. */
  lemma SortOptionsOrdering()
    ensures OrderingFor(Some(SortOptions[0])) == NewestFirst
    ensures OrderingFor(Some(SortOptions[1])) == NewestFirst
    ensures OrderingFor(Some(SortOptions[2])) == HighestRatedFirst
    ensures OrderingFor(Some(SortOptions[3])) == TitleAscending
  {
  }

  /** After choosing an entry, the select shows that entry. */
  lemma ChoiceIsShown(st: SearchState, e: PanelEvent)
    requires EventOffered(e) && !e.ClearAll?
    ensures e.PickCategory? ==> ShownCategory(Apply(st, e).filters) == e.option
    ensures e.PickType? ==> ShownType(Apply(st, e).filters) == e.option
    ensures e.PickSort? ==> ShownSort(Apply(st, e).filters) == e.option
  {
  }

  /** A choice in one select leaves the other selects showing what they showed. */
  lemma ChoiceKeepsOtherSelects(st: SearchState, e: PanelEvent)
    requires !e.ClearAll?
    ensures !e.PickCategory? ==> ShownCategory(Apply(st, e).filters) == ShownCategory(st.filters)
    ensures !e.PickType? ==> ShownType(Apply(st, e).filters) == ShownType(st.filters)
    ensures !e.PickSort? ==> ShownSort(Apply(st, e).filters) == ShownSort(st.filters)
  {
  }

  /** After "Clear Filters" every select shows its default entry. */
  lemma ClearShowsDefaults(st: SearchState)
    ensures var f := Apply(st, ClearAll).filters;
      ShownCategory(f) == AllOption && ShownType(f) == AllOption && ShownSort(f) == DefaultSort
  {
  }

  /** With the corrected update, one offered choice keeps every category
      and type filter a known label. */
  lemma ApplyKeepsLabelsKnown(st: SearchState, e: PanelEvent)
    requires LabelsKnown(st.filters) && EventOffered(e)
    ensures LabelsKnown(ApplyCorrected(st, e).filters)
  {
    CategoryOptionsAreLabels();
    TypeOptionsAreLabels();
  }

  /** So does any run of offered choices. */
  lemma {:induction false} ApplyAllKeepsLabelsKnown(st: SearchState, events: seq<PanelEvent>)
    requires LabelsKnown(st.filters)
    requires forall i :: 0 <= i < |events| ==> EventOffered(events[i])
    ensures LabelsKnown(ApplyAllCorrected(st, events).filters)
    decreases |events|
  {
    if |events| > 0 {
      ApplyKeepsLabelsKnown(st, events[0]);
      ApplyAllKeepsLabelsKnown(ApplyCorrected(st, events[0]), events[1..]);
    }
  }

  /** With the corrected update, whatever the user does in the panel,
      starting from no filters on page 1 with a non-blank query, the search
      state stays on a valid page with known labels and still produces a
      request. */
  lemma PanelKeepsRequestValid(query: string, events: seq<PanelEvent>)
    requires forall i :: 0 <= i < |events| ==> EventOffered(events[i])
    requires NonBlank(query)
    ensures var st := ApplyAllCorrected(SearchState(query, map[], 1), events);
      Request(st).Some? && LabelsKnown(st.filters) && PageValid(st)
  {
    ApplyAllKeepsLabelsKnown(SearchState(query, map[], 1), events);
  }

  /** With the corrected filter update, the search requested after any run
      of panel choices succeeds. */
  lemma PanelSearchesSucceed(s: Store, query: string, events: seq<PanelEvent>, fetched: Option<seq<OpenLibrary.Doc>>)
    requires forall i :: 0 <= i < |events| ==> EventOffered(events[i])
    requires NonBlank(query)
    ensures var st := ApplyAllCorrected(SearchState(query, map[], 1), events);
      Request(st).Some? && Routes.SearchRoute(s, Request(st).value, fetched).0.Ok?
  {
    var st := ApplyAllCorrected(SearchState(query, map[], 1), events);
    PanelKeepsRequestValid(query, events);
    CorrectedRequestSucceeds(s, st, fetched);
  }

  /** As written, every category or type filter present is a known label
      or `undefined`. */
  predicate LabelsKnownOrUndefined(filters: FilterMap) {
    && (CategoryKey in filters ==>
         filters[CategoryKey].Undefined? || ParseCategory(filters[CategoryKey].text).Some?)
    && (ContentTypeKey in filters ==>
         filters[ContentTypeKey].Undefined? || ParseContentType(filters[ContentTypeKey].text).Some?)
  }

  /** A category or type filter holds `undefined`. */
  predicate HasUndefinedLabel(filters: FilterMap) {
    || (CategoryKey in filters && filters[CategoryKey].Undefined?)
    || (ContentTypeKey in filters && filters[ContentTypeKey].Undefined?)
  }

  /** As written, an offered choice keeps every category and type filter a
      known label or `undefined`. */
  lemma ApplyKeepsLabelsOrUndefined(st: SearchState, e: PanelEvent)
    requires LabelsKnownOrUndefined(st.filters) && EventOffered(e)
    ensures LabelsKnownOrUndefined(Apply(st, e).filters)
  {
    CategoryOptionsAreLabels();
    TypeOptionsAreLabels();
  }

  /** So does any run of offered choices. */
  lemma {:induction false} ApplyAllKeepsLabelsOrUndefined(st: SearchState, events: seq<PanelEvent>)
    requires LabelsKnownOrUndefined(st.filters)
    requires forall i :: 0 <= i < |events| ==> EventOffered(events[i])
    ensures LabelsKnownOrUndefined(ApplyAll(st, events).filters)
    decreases |events|
  {
    if |events| > 0 {
      ApplyKeepsLabelsOrUndefined(st, events[0]);
      ApplyAllKeepsLabelsOrUndefined(Apply(st, events[0]), events[1..]);
    }
  }

  /** A category value that is a label or `undefined` is sent as a valid
      label exactly when it is not `undefined`. */
  lemma CategoryParamValid(v: FilterValue)
    requires v.Undefined? || ParseCategory(v.text).Some?
    ensures Supplied(Some(ParamText(v))) && (ParseCategory(ParamText(v)).Some? <==> v.Given?)
  {
    if v.Given? {
      var c := ParseCategory(v.text).value;
      assert v.text == CategoryLabel(c);
    } else {
      assert ParamText(v) == "undefined";
    }
  }

  /** The same for a content-type value. */
  lemma TypeParamValid(v: FilterValue)
    requires v.Undefined? || ParseContentType(v.text).Some?
    ensures Supplied(Some(ParamText(v))) && (ParseContentType(ParamText(v)).Some? <==> v.Given?)
  {
    if v.Given? {
      var t := ParseContentType(v.text).value;
      assert v.text == ContentTypeLabel(t);
    } else {
      assert ParamText(v) == "undefined";
    }
  }

  /** The server accepts the labels of a request whose filters are known
      labels or `undefined` exactly when none is `undefined`. */
  lemma UndefinedLabelRejected(st: SearchState)
    requires Enabled(st) && LabelsKnownOrUndefined(st.filters)
    ensures FilterLabelsValid(Routes.LocalFilters(Request(st).value)) <==> !HasUndefinedLabel(st.filters)
  {
    var q := Request(st).value;
    var f := Routes.LocalFilters(q);
    assert f.category == Param(st.filters, CategoryKey);
    assert f.contentType == Param(st.filters, ContentTypeKey);
    if CategoryKey in st.filters {
      CategoryParamValid(st.filters[CategoryKey]);
    }
    if ContentTypeKey in st.filters {
      TypeParamValid(st.filters[ContentTypeKey]);
    }
  }

  /** As written, a search from a state whose filters are known labels or
      `undefined` succeeds exactly when none is `undefined`. */
  lemma StateSearchAsWritten(s: Store, st: SearchState, fetched: Option<seq<OpenLibrary.Doc>>)
    requires Enabled(st) && PageValid(st) && LabelsKnownOrUndefined(st.filters)
    ensures Routes.SearchRoute(s, Request(st).value, fetched).0.Ok? <==> !HasUndefinedLabel(st.filters)
  {
    UndefinedLabelRejected(st);
    RequestPaginationValid(st);
  }

  /** As written, the search after a run of panel choices succeeds exactly
      when no category or type filter was left `undefined`, that is, unless
      an "all" entry was chosen after a category or type and no "Clear
      Filters" came after it. */
  lemma PanelSearchAsWritten(s: Store, query: string, events: seq<PanelEvent>, fetched: Option<seq<OpenLibrary.Doc>>)
    requires forall i :: 0 <= i < |events| ==> EventOffered(events[i])
    requires NonBlank(query)
    ensures var st := ApplyAll(SearchState(query, map[], 1), events);
      && Request(st).Some?
      && (Routes.SearchRoute(s, Request(st).value, fetched).0.Ok? <==> !HasUndefinedLabel(st.filters))
  {
    var st := ApplyAll(SearchState(query, map[], 1), events);
    ApplyAllKeepsLabelsOrUndefined(SearchState(query, map[], 1), events);
    assert Enabled(st) && PageValid(st);
    StateSearchAsWritten(s, st, fetched);
  }

  /** As written, choosing a category and then "All Categories" leaves a
      search the server answers with 500. */
  lemma AllAfterCategoryFails(s: Store, query: string, c: Category, fetched: Option<seq<OpenLibrary.Doc>>)
    requires NonBlank(query)
    ensures var st := ApplyAll(SearchState(query, map[], 1), [PickCategory(CategoryLabel(c)), PickCategory(AllOption)]);
      && Request(st).Some? && Request(st).value.category == Some("undefined")
      && Routes.SearchRoute(s, Request(st).value, fetched).0 == Routes.Error(500, Routes.InternalError)
  {
    var events := [PickCategory(CategoryLabel(c)), PickCategory(AllOption)];
    var st0 := SearchState(query, map[], 1);
    var st1 := Apply(st0, events[0]);
    assert ApplyAll(st0, events) == ApplyAll(st1, events[1..]);
    var st2 := Apply(st1, events[1..][0]);
    assert ApplyAll(st1, events[1..]) == ApplyAll(st2, events[1..][1..]);
    assert events[1..][1..] == [];
    ClearingCategoryAsWritten(s, st0, c, fetched);
  }
}

=== FILE: home.dfy ===
/** The pagination of the home page: the previous and next handlers, the
    buttons' disabled flags, and the "Showing a to b of n results" line.
    The header, the sidebar and the view-mode switch are not modelled. */
module HomePage {
  import opened Wrappers
  import opened Store
  import opened SearchHook
  import Routes

  /** `handleNextPage`: one page on, only when the server reported more. */
  function NextPage(page: int, hasNext: bool): (p: int)
    ensures hasNext ==> p == page + 1
    ensures !hasNext ==> p == page
  {
    if hasNext then page + 1 else page
  }

  /** `handlePreviousPage`: one page back, never below the first. */
  function PrevPage(page: int): (p: int)
    ensures page > 1 ==> p == page - 1
    ensures page <= 1 ==> p == page
  {
    if page > 1 then page - 1 else page
  }

  /** The search state after pressing "Next" with the current answer. */
  function GoNext(st: SearchState, data: Option<Routes.SearchBody>): SearchState {
    st.(page := NextPage(st.page, HasNextPage(data)))
  }

  /** The search state after pressing "Previous". */
  function GoPrevious(st: SearchState): SearchState {
    st.(page := PrevPage(st.page))
  }

  /** Neither handler leaves the valid pages, and neither touches the query
      or the filters. */
  lemma PagingKeepsPageValid(st: SearchState, data: Option<Routes.SearchBody>)
    requires PageValid(st)
    ensures PageValid(GoNext(st, data)) && PageValid(GoPrevious(st))
    ensures GoNext(st, data).query == st.query && GoNext(st, data).filters == st.filters
    ensures GoPrevious(st).query == st.query && GoPrevious(st).filters == st.filters
  {
  }

  /** "Next" moves the requested window one page forward; "Previous" moves
      it one page back, except on the first page. */
  lemma PagingMovesOffset(st: SearchState, data: Option<Routes.SearchBody>)
    requires PageValid(st)
    ensures HasNextPage(data) ==> Offset(GoNext(st, data)) == Offset(st) + ItemsPerPage
    ensures !HasNextPage(data) ==> Offset(GoNext(st, data)) == Offset(st)
    ensures st.page > 1 ==> Offset(GoPrevious(st)) == Offset(st) - ItemsPerPage
    ensures st.page == 1 ==> Offset(GoPrevious(st)) == 0
  {
  }

  /** "Previous" undoes "Next", and "Next" undoes "Previous" when the server
      reports more. */
  lemma NextPreviousRoundTrip(page: int, hasNext: bool)
    requires page >= 1
    ensures PrevPage(NextPage(page, true)) == page
    ensures page > 1 ==> NextPage(PrevPage(page), true) == page
    ensures !hasNext ==> PrevPage(NextPage(page, hasNext)) == PrevPage(page)
  {
  }

  /** The pagination bar appears only when there are results to show. */
  predicate PaginationShown(data: Option<Routes.SearchBody>) {
    |Results(data)| > 0
  }

  predicate PreviousDisabled(st: SearchState) {
    st.page == 1
  }

  predicate NextDisabled(data: Option<Routes.SearchBody>) {
    !HasNextPage(data)
  }

  /** A button is disabled exactly when its handler would do nothing. */
  lemma DisabledIffNoop(st: SearchState, data: Option<Routes.SearchBody>)
    requires PageValid(st)
    ensures PreviousDisabled(st) <==> GoPrevious(st) == st
    ensures NextDisabled(data) <==> GoNext(st, data) == st
  {
  }

  /** The range line as written: from `(page - 1) * perPage + 1` to
      `min(page * perPage, total)`. */
  function ShownRangeAsWritten(page: int, perPage: int, total: int): (r: (int, int))
    ensures page >= 1 && perPage >= 1 ==> r.0 >= 1
    ensures r.1 <= total
  {
    ((page - 1) * perPage + 1, if page * perPage < total then page * perPage else total)
  }

  /** The server's `total` is the number of entries in this page's answer,
      not the number of matches; on page 2 with ten entries the line reads
      "Showing 13 to 10 of 10 results". */
  lemma ShownRangeAsWrittenExample()
    ensures ShownRangeAsWritten(2, ItemsPerPage, 10) == (13, 10)
  {
  }

  /** Past the first page, whenever the answer holds at most a page of
      entries, the range as written ends before it starts. */
  lemma ShownRangeAsWrittenInverted(page: int, total: int)
    requires page >= 2 && 0 <= total <= ItemsPerPage
    ensures ShownRangeAsWritten(page, ItemsPerPage, total).0 > ShownRangeAsWritten(page, ItemsPerPage, total).1
  {
  }

  /** Without an OpenLibrary answer, a search requested from page 2 or later
      shows at most a page of entries (none when it fails), so its range line
      as written is inverted. */
  lemma ShownRangeAsWrittenInvertedForSearch(s: Store, st: SearchState)
    requires Enabled(st) && st.page >= 2
    ensures var data := Answer(Routes.SearchRoute(s, Request(st).value, None).0);
      var range := ShownRangeAsWritten(st.page, ItemsPerPage, TotalResults(data));
      range.0 > range.1
  {
    var q := Request(st).value;
    var reply := Routes.SearchRoute(s, q, None).0;
    if reply.Ok? {
      var f := Routes.LocalFilters(q);
      assert Applied(f.limit) == ItemsPerPage;
      var local := SearchContent(s, q.q.value, f);
      assert |local.value| <= ItemsPerPage;
      assert reply.body == Routes.Combine(local.value, [], Routes.RequestedLimit(q));
    }
    ShownRangeAsWrittenInverted(st.page, TotalResults(Answer(reply)));
  }

  /** The range line as evidently intended: the entries shown are numbered
      from the page's offset plus one, one number per entry. */
  function ShownRange(st: SearchState, shown: nat): (r: (int, int))
    requires PageValid(st)
    ensures r.0 == Offset(st) + 1 >= 1
    ensures r.1 - r.0 + 1 == shown
    ensures shown > 0 ==> r.0 <= r.1
  {
    (Offset(st) + 1, Offset(st) + shown)
  }

  /** Consecutive pages number their entries without gap or overlap: a full
      page ends just before the next page starts. */
  lemma ShownRangesAdjoin(st: SearchState, data: Option<Routes.SearchBody>)
    requires PageValid(st) && HasNextPage(data)
    ensures ShownRange(st, ItemsPerPage).1 + 1 == ShownRange(GoNext(st, data), 0).0
  {
  }
}

=== FILE: openlibrary.dfy ===
/** The pure half of the OpenLibrary client: the cover-image URL, the
    subject classifier and the mapping of a search document to a content row.
    The HTTP calls themselves are not part of this model; a search answer is
    given as a sequence of documents. */
module OpenLibrary {
  import opened Wrappers
  import opened Schema
  import opened Text

  /** One search document. Every field but the key may be missing. The
      average rating is in hundredths of a star. */
  datatype Doc = Doc(
    key: string,
    title: Option<string>,
    authorNames: Option<seq<string>>,
    subjects: Option<seq<string>>,
    coverId: Option<int>,
    ratingsAverage: Option<nat>)

  const Source: string := "openlibrary"
  const SiteUrl: string := "https://openlibrary.org"
  const CoverPrefix: string := "https://covers.openlibrary.org/b/id/"
  const DefaultDescription: string := "A book from OpenLibrary"
  const UnknownAuthor: string := "Unknown Author"

  datatype CoverSize = Small | Medium | Large

  /** The size used when the caller names none. */
  const DefaultCoverSize: CoverSize := Medium

  function SizeLetter(size: CoverSize): string {
    match size
    case Small => "S"
    case Medium => "M"
    case Large => "L"
  }

  /** `getCoverUrl`: the cover service address of an image id and size. */
  function CoverUrl(coverId: int, size: CoverSize): (r: string)
    ensures |r| > |CoverPrefix| && r[..|CoverPrefix|] == CoverPrefix
  {
    CoverPrefix + IntToString(coverId) + "-" + SizeLetter(size) + ".jpg"
  }

  /** The image id and the size can be read back from a cover URL: the id
      is the number after the prefix, the size letter sits before ".jpg". */
  lemma CoverUrlRoundTrip(coverId: int, size: CoverSize)
    ensures var r := CoverUrl(coverId, size);
      && ParseInt(r[|CoverPrefix|..]) == Some(coverId)
      && r[|r| - 5..|r| - 4] == SizeLetter(size)
  {
    var r := CoverUrl(coverId, size);
    var tail := "-" + SizeLetter(size) + ".jpg";
    assert r == CoverPrefix + (IntToString(coverId) + tail);
    assert r[|CoverPrefix|..] == IntToString(coverId) + tail;
    ParseIntPrefix(coverId, tail);
  }

  // ---------------------------------------------------------------------
  // Subject classification

  predicate HasAny(text: string, words: seq<string>) {
    exists i :: 0 <= i < |words| && Contains(text, words[i])
  }

  const ProgrammingWords: seq<string> := ["programming", "javascript", "python"]
  const DesignWords: seq<string> := ["design", "ux", "ui"]
  const BusinessWords: seq<string> := ["business", "management"]
  const ScienceWords: seq<string> := ["science", "data"]

  /** The four categories the classifier can produce. */
  predicate IsClassifierCategory(c: Category) {
    c == Programming || c == Design || c == Business || c == Science
  }

  /** `mapSubjectToCategory`: a missing or empty subject is programming;
      otherwise the lower-cased subject is tested against the keyword groups
      in order and the first group with a hit decides; no hit is programming. */
  function MapSubjectToCategory(subject: Option<string>): (c: Category)
    ensures IsClassifierCategory(c)
    ensures c in AllCategories
    ensures subject.None? || subject.value == "" ==> c == Programming
    ensures subject.Some? && subject.value != "" ==>
      var lower := ToLower(subject.value);
      var p, d, b, sc := HasAny(lower, ProgrammingWords), HasAny(lower, DesignWords),
                         HasAny(lower, BusinessWords), HasAny(lower, ScienceWords);
      && (p ==> c == Programming)
      && (!p && d ==> c == Design)
      && (!p && !d && b ==> c == Business)
      && (!p && !d && !b && sc ==> c == Science)
      && (!p && !d && !b && !sc ==> c == Programming)
  {
    EnumListsComplete();
    if subject.None? || subject.value == "" then Programming
    else
      var lower := ToLower(subject.value);
      if HasAny(lower, ProgrammingWords) then Programming
      else if HasAny(lower, DesignWords) then Design
      else if HasAny(lower, BusinessWords) then Business
      else if HasAny(lower, ScienceWords) then Science
      else Programming
  }

  /** The classifier ignores case. */
  lemma ClassifierIgnoresCase(subject: string)
    ensures MapSubjectToCategory(Some(subject)) == MapSubjectToCategory(Some(ToLower(subject)))
  {
    ToLowerNormalises(subject);
  }

  /** The decision: a missing or empty subject is programming; otherwise
      the first keyword group with a hit in the lower-cased subject decides,
      in the order programming, design, business, science, and a subject
      with no keyword at all is programming. */
  lemma ClassifierOrder(subject: Option<string>)
    ensures subject.None? || subject.value == "" ==> MapSubjectToCategory(subject) == Programming
    ensures subject.Some? && subject.value != "" ==>
      var lower := ToLower(subject.value);
      var c := MapSubjectToCategory(subject);
      var p, d, b, sc := HasAny(lower, ProgrammingWords), HasAny(lower, DesignWords),
                         HasAny(lower, BusinessWords), HasAny(lower, ScienceWords);
      && (p ==> c == Programming)
      && (!p && d ==> c == Design)
      && (!p && !d && b ==> c == Business)
      && (!p && !d && !b && sc ==> c == Science)
      && (!p && !d && !b && !sc ==> c == Programming)
  {
  }

  /** "Data Science" is science: none of the earlier keywords occurs. */
  lemma ClassifierDataScience()
    ensures MapSubjectToCategory(Some("Data Science")) == Science
  {
    var data := ToLower("Data Science");
    assert data == "data science";
    AbsentFrom(data, ProgrammingWords, ['p', 'j', 'p']);
    AbsentFrom(data, DesignWords, ['g', 'u', 'u']);
    AbsentFrom(data, BusinessWords, ['b', 'm']);
    assert OccursAt(data, ScienceWords[0], 5);
  }

  /** "Building" is design, because "ui" occurs inside it. */
  lemma ClassifierBuilding()
    ensures MapSubjectToCategory(Some("Building")) == Design
  {
    var building := ToLower("Building");
    assert building == "building";
    AbsentFrom(building, ProgrammingWords, ['p', 'j', 'p']);
    assert OccursAt(building, DesignWords[2], 1);
  }

  /** "Python for Data Analysis" is programming: the first group wins even
      though "data" occurs too. */
  lemma ClassifierFirstGroupWins()
    ensures MapSubjectToCategory(Some("Python for Data Analysis")) == Programming
  {
    var py := ToLower("Python for Data Analysis");
    assert py[..6] == "python";
    assert OccursAt(py, ProgrammingWords[2], 0);
  }

  /** Every subject with no keyword of any group falls back to programming. */
  lemma ClassifierFallback(subject: string)
    requires !HasAny(ToLower(subject), ProgrammingWords) && !HasAny(ToLower(subject), DesignWords)
    requires !HasAny(ToLower(subject), BusinessWords) && !HasAny(ToLower(subject), ScienceWords)
    ensures MapSubjectToCategory(Some(subject)) == Programming
  {
  }

  /** "History" has no keyword, so it is programming. */
  lemma ClassifierHistory()
    ensures MapSubjectToCategory(Some("History")) == Programming
  {
    var history := ToLower("History");
    assert history == "history";
    AbsentFrom(history, ProgrammingWords, ['p', 'j', 'p']);
    AbsentFrom(history, DesignWords, ['d', 'u', 'u']);
    AbsentFrom(history, BusinessWords, ['b', 'm']);
    AbsentFrom(history, ScienceWords, ['c', 'd']);
    ClassifierFallback("History");
  }

  /** No word of the group occurs when each word has a character, given
      position by position in `missing`, that the text lacks. */
  lemma AbsentFrom(text: string, words: seq<string>, missing: seq<char>)
    requires |missing| == |words|
    requires forall i :: 0 <= i < |words| ==> missing[i] in words[i] && missing[i] !in text
    ensures !HasAny(text, words)
  {
    forall i | 0 <= i < |words|
      ensures !Contains(text, words[i])
    {
      MissingCharNotContained(text, words[i], missing[i]);
    }
  }

  // ---------------------------------------------------------------------
  // Document to content row

  /** `subject?.[0]`: the first subject, if the list exists and is non-empty. */
  function FirstSubject(book: Doc): Option<string> {
    if book.subjects.Some? && |book.subjects.value| > 0 then Some(book.subjects.value[0]) else None
  }

  /** `subject?.slice(0, 3)`, with a missing list read as empty. */
  function FirstThree(subjects: Option<seq<string>>): (r: seq<string>)
    ensures |r| <= 3
    ensures subjects.Some? ==> |r| <= |subjects.value| && r == subjects.value[..|r|] && (|r| < 3 ==> |r| == |subjects.value|)
    ensures subjects.None? ==> r == []
  {
    if subjects.None? then []
    else if |subjects.value| < 3 then subjects.value
    else subjects.value[..3]
  }

  /** True when the joined subjects are the empty string: no subjects, or a
      single empty one. */
  predicate NoSubjectText(subjects: Option<seq<string>>) {
    subjects.None? || |subjects.value| == 0 || (|subjects.value| == 1 && subjects.value[0] == "")
  }

  /** `subject?.slice(0, 3).join(', ') || 'A book from OpenLibrary'`. */
  function DescriptionFor(subjects: Option<seq<string>>): (d: string)
    ensures d != ""
  {
    var joined := Join(FirstThree(subjects), ", ");
    if joined == "" then DefaultDescription else joined
  }

  /** The fixed description is used exactly when there is no subject text;
      otherwise the description lists the first three subjects. */
  lemma DescriptionFallback(subjects: Option<seq<string>>)
    ensures NoSubjectText(subjects) ==> DescriptionFor(subjects) == DefaultDescription
    ensures !NoSubjectText(subjects) ==> DescriptionFor(subjects) == Join(FirstThree(subjects), ", ")
  {
    JoinEmptyIff(FirstThree(subjects), ", ");
  }

  /** `author_name?.[0] || 'Unknown Author'`: the first author unless it
      is missing or empty. */
  function AuthorFor(authorNames: Option<seq<string>>): (a: string)
    ensures a != ""
    ensures a == UnknownAuthor <==>
      authorNames.None? || |authorNames.value| == 0 || authorNames.value[0] in {"", UnknownAuthor}
    ensures a != UnknownAuthor ==> authorNames.Some? && |authorNames.value| > 0 && a == authorNames.value[0]
    ensures authorNames.Some? && |authorNames.value| > 0 && authorNames.value[0] != "" ==> a == authorNames.value[0]
  {
    if authorNames.Some? && |authorNames.value| > 0 && authorNames.value[0] != "" then authorNames.value[0]
    else UnknownAuthor
  }

  /** `ratings_average ? parseFloat(ratings_average.toFixed(1)) : null`, in
      hundredths: a missing or zero average gives no rating, any other is
      rounded half up to a tenth of a star. */
  function RatingFor(average: Option<nat>): (r: Option<int>)
    ensures r.None? <==> average.None? || average.value == 0
    ensures r.Some? ==> r.value % 10 == 0 && average.value - 5 < r.value <= average.value + 5
  {
    if average.None? || average.value == 0 then None
    else Some((average.value + 5) / 10 * 10)
  }

  /** `cover_i ? getCoverUrl(cover_i) : null`: the id 0 counts as no cover. */
  function ImageFor(coverId: Option<int>): (r: Option<string>)
    ensures r.None? <==> coverId.None? || coverId.value == 0
    ensures r.Some? ==> r.value == CoverUrl(coverId.value, DefaultCoverSize)
  {
    if coverId.None? || coverId.value == 0 then None else Some(CoverUrl(coverId.value, DefaultCoverSize))
  }

  /** `mapToContent`: the content row a search document becomes. */
  function MapToContent(book: Doc): (nc: NewContent)
    ensures nc.source == Source && nc.externalId == Some(book.key) && nc.contentType == ContentType.Book
    ensures nc.url == Some(SiteUrl + book.key)
    ensures nc.title == book.title
    ensures nc.category == Some(MapSubjectToCategory(FirstSubject(book)))
    ensures nc.description == Some(DescriptionFor(book.subjects))
    ensures nc.author == Some(AuthorFor(book.authorNames))
    ensures nc.rating == RatingFor(book.ratingsAverage)
    ensures nc.imageUrl == ImageFor(book.coverId)
  {
    NewContent(
      book.title,
      Some(DescriptionFor(book.subjects)),
      Some(SiteUrl + book.key),
      ImageFor(book.coverId),
      Source,
      Some(book.key),
      ContentType.Book,
      Some(MapSubjectToCategory(FirstSubject(book))),
      RatingFor(book.ratingsAverage),
      Some(AuthorFor(book.authorNames)))
  }

  /** A document can be stored exactly when it has a title and its rounded
      rating fits the column (below 10 stars). */
  lemma MappedInsertable(book: Doc)
    ensures Insertable(MapToContent(book)) <==>
      book.title.Some? && (book.ratingsAverage.Some? ==> book.ratingsAverage.value < 995)
  {
  }
}

=== FILE: progress_controls.dfy ===
/** The progress widget shown on a saved item: four preset buttons and a
    dialog with a free-text percentage. Its state is whether the dialog is
    open and the text in the field; each handler returns the new state and
    the update request it sends. Whether a request is still pending (which
    only disables buttons) is not modelled. */
module ProgressControls {
  import opened Wrappers
  import opened Schema
  import opened Text
  import Routes

  /** `POST /api/content/:id/progress` with this status and percentage. */
  datatype ProgressUpdate = ProgressUpdate(contentId: Id, status: ProgressStatus, percentage: int)

  /** The dialog's open flag and the text of the custom-progress field. */
  datatype Widget = Widget(isOpen: bool, customProgress: string)

  /** The quick options, in display order. */
  const Presets: seq<int> := [25, 50, 75, 100]

  /** The percentage the bar shows: the recorded one, or 0 without a record. */
  function CurrentProgress(item: ContentWithProgress): int {
    if item.progress.Some? then item.progress.value.percentage else 0
  }

  /** The "Completed" badge is shown. */
  predicate IsCompleted(item: ContentWithProgress) {
    item.progress.Some? && item.progress.value.status == Completed
  }

  /** The widget as first rendered: dialog closed, the field holding the
      recorded percentage as text, or "0" without a record. The field reads
      back as the percentage the bar shows. */
  function InitialWidget(item: ContentWithProgress): (w: Widget)
    ensures !w.isOpen
    ensures ParseInt(w.customProgress) == Some(CurrentProgress(item))
  {
    ParseIntRoundTrip(CurrentProgress(item));
    Widget(false, IntToString(CurrentProgress(item)))
  }

  /** The status sent with a percentage: completed from 100 up, in progress
      below. The widget never sends "not started". */
  function StatusFor(percentage: int): (status: ProgressStatus)
    ensures status == Completed <==> percentage >= 100
    ensures status != NotStarted
  {
    if percentage >= 100 then Completed else InProgress
  }

  /** `handleProgressUpdate`: sends the percentage with its status; reaching
      100 closes the dialog, anything less leaves it as it was. */
  function HandleProgressUpdate(w: Widget, item: ContentWithProgress, percentage: int): (r: (Widget, ProgressUpdate))
    ensures r.1.contentId == item.content.id && r.1.percentage == percentage
    ensures r.1.status == StatusFor(percentage)
    ensures r.0.customProgress == w.customProgress
    ensures r.0.isOpen <==> w.isOpen && percentage < 100
  {
    var update := ProgressUpdate(item.content.id, StatusFor(percentage), percentage);
    if percentage >= 100 then (w.(isOpen := false), update) else (w, update)
  }

  /** `Math.min(100, Math.max(0, parseInt(text) || 0))`: the parsed number
      clamped to 0..100; text that does not parse counts as 0. */
  function SubmittedPercentage(text: string): (p: int)
    ensures 0 <= p <= 100
    ensures ParseInt(text).None? ==> p == 0
    ensures ParseInt(text).Some? ==>
      && (0 <= ParseInt(text).value <= 100 ==> p == ParseInt(text).value)
      && (ParseInt(text).value < 0 ==> p == 0)
      && (ParseInt(text).value > 100 ==> p == 100)
  {
    var n := ParseInt(text).GetOr(0);
    var atLeastZero := if n > 0 then n else 0;
    if atLeastZero < 100 then atLeastZero else 100
  }

  /** `handleCustomSubmit`: sends the clamped field value and always closes
      the dialog. */
  function HandleCustomSubmit(w: Widget, item: ContentWithProgress): (r: (Widget, ProgressUpdate))
    ensures !r.0.isOpen && r.0.customProgress == w.customProgress
    ensures r.1 == ProgressUpdate(item.content.id, StatusFor(SubmittedPercentage(w.customProgress)), SubmittedPercentage(w.customProgress))
    ensures 0 <= r.1.percentage <= 100
  {
    var (w', update) := HandleProgressUpdate(w, item, SubmittedPercentage(w.customProgress));
    (w'.(isOpen := false), update)
  }

  /** A quick option inside the dialog only fills the field. */
  function PickPreset(w: Widget, preset: int): (w': Widget)
    ensures w'.isOpen == w.isOpen
    ensures ParseInt(w'.customProgress) == Some(preset)
  {
    ParseIntRoundTrip(preset);
    w.(customProgress := IntToString(preset))
  }

  /** A preset button is highlighted when the progress has reached it. */
  predicate PresetHighlighted(item: ContentWithProgress, preset: int) {
    CurrentProgress(item) >= preset
  }

  /** Filling the field with a percentage in 0..100 and submitting sends
      exactly that percentage, completed only at 100. */
  lemma PickThenSubmit(w: Widget, item: ContentWithProgress, p: int)
    requires 0 <= p <= 100
    ensures var update := HandleCustomSubmit(PickPreset(w, p), item).1;
      update.percentage == p && (update.status == Completed <==> p == 100)
  {
  }

  /** Picking a quick option and submitting sends exactly that option, and
      the 100 option marks the item completed. */
  lemma PresetThenSubmit(w: Widget, item: ContentWithProgress, i: nat)
    requires i < |Presets|
    ensures var update := HandleCustomSubmit(PickPreset(w, Presets[i]), item).1;
      update.percentage == Presets[i] && (update.status == Completed <==> i == |Presets| - 1)
  {
    var p := Presets[i];
    assert 0 <= p <= 100 && (p == 100 <==> i == |Presets| - 1);
    PickThenSubmit(w, item, p);
  }

  /** Opening the dialog and submitting without typing re-sends the current
      percentage when it lies in 0..100. */
  lemma SubmitUntouchedKeepsProgress(item: ContentWithProgress)
    requires 0 <= CurrentProgress(item) <= 100
    ensures HandleCustomSubmit(InitialWidget(item), item).1.percentage == CurrentProgress(item)
  {
  }

  /** The request body of an update, as the server's schema receives it. */
  function BodyOf(update: ProgressUpdate): Routes.ProgressBody {
    Routes.ProgressBody(Some(StatusLabel(update.status)), Some(update.percentage))
  }

  /** Every custom submission passes the server's request schema, which
      reads back the status and percentage that were sent. */
  lemma CustomSubmitValidates(w: Widget, item: ContentWithProgress)
    ensures var update := HandleCustomSubmit(w, item).1;
      Routes.ValidateProgress(BodyOf(update)) == Some((update.status, update.percentage))
  {
    var update := HandleCustomSubmit(w, item).1;
    Routes.ValidateProgressRoundTrip(update.status, update.percentage);
  }

  /** So does every preset button. */
  lemma PresetUpdateValidates(w: Widget, item: ContentWithProgress, i: nat)
    requires i < |Presets|
    ensures var update := HandleProgressUpdate(w, item, Presets[i]).1;
      Routes.ValidateProgress(BodyOf(update)) == Some((update.status, Presets[i]))
  {
    var update := HandleProgressUpdate(w, item, Presets[i]).1;
    Routes.ValidateProgressRoundTrip(update.status, update.percentage);
  }

  /** The highlighted presets are a prefix of the list: if a preset is
      highlighted, so is every smaller one before it. */
  lemma HighlightedPrefix(item: ContentWithProgress)
    ensures forall i, j :: 0 <= i < j < |Presets| && PresetHighlighted(item, Presets[j]) ==>
      PresetHighlighted(item, Presets[i])
  {
  }
}

=== FILE: routes.dfy ===
/** The HTTP handlers of the API, each a function from the store (and the
    request) to a reply and the store afterwards. Every handler but search
    acts for one demo user, created on first use. The OpenLibrary answer a
    search receives is a parameter: `None` when the fetch failed. */
module Routes {
  import opened Wrappers
  import opened Schema
  import opened Text
  import opened Store
  import opened OpenLibrary

  /** What a handler sends back: a JSON body, or a status code and a message. */
  datatype Reply<T> = Ok(body: T) | Error(code: int, message: string)

  const DemoEmail: string := "demo@learnhub.com"
  const DemoName: string := "Demo User"

  const QueryRequired: string := "Query parameter 'q' is required"
  const NoSession: string := "Unable to create user session"
  const NotFound: string := "Content not found"
  const AlreadySaved: string := "Content already saved"
  const UnsavedMessage: string := "Content unsaved successfully"
  const InternalError: string := "Internal server error"

  // ---------------------------------------------------------------------
  // The demo user

  /** Looking a user up in a table with one more row finds the new row when
      no earlier row has its email. */
  lemma FindAppendedUser(s: Store, user: User, s1: Store)
    requires forall x :: x in s.users ==> x.email != user.email
    requires s1.users == s.users + [user]
    ensures GetUserByEmail(s1, user.email) == Some(user)
  {
    FindFirstAppended(s.users, EmailIs(user.email), user);
  }

  /** `createDefaultUser`: the user with the demo email, inserted first if
      there is none. The insert cannot fail, since the email is free. */
  function CreateDefaultUser(s: Store): (r: Option<(User, Store)>)
    ensures r.Some?
    ensures r.Some? ==>
      var (user, s') := r.value;
      && user.email == DemoEmail && user in s'.users
      && s.users <= s'.users && s'.contents == s.contents && s'.saved == s.saved && s'.progress == s.progress
    ensures GetUserByEmail(s, DemoEmail).Some? ==> r == Some((GetUserByEmail(s, DemoEmail).value, s))
    ensures GetUserByEmail(s, DemoEmail).None? ==>
      && r.value.1.users == s.users + [r.value.0]
      && |r.value.1.users| == |s.users| + 1
      && r.value.0.name == DemoName
    ensures r.Some? && Valid(s) ==> Valid(r.value.1) && Grows(s, r.value.1)
  {
    match GetUserByEmail(s, DemoEmail)
    case Some(user) => Some((user, s))
    case None =>
      match CreateUser(s, DemoName, DemoEmail)
      case Success(created) => Some(created)
      case Failure(_) => None
  }

  /** The user and store a request runs with: the demo user, found by email
      or freshly created, with nothing but the users table touched. */
  function Session(s: Store): (r: (User, Store))
    ensures r.0.email == DemoEmail && GetUserByEmail(r.1, DemoEmail).Some?
    ensures r.1.contents == s.contents && r.1.saved == s.saved && r.1.progress == s.progress
    ensures GetUserByEmail(s, DemoEmail).Some? ==> r == (GetUserByEmail(s, DemoEmail).value, s)
    ensures Valid(s) ==> Valid(r.1)
  {
    CreateDefaultUser(s).value
  }

  /** Once the demo user exists, the next request finds the same user and
      writes nothing. */
  lemma SessionStable(s: Store)
    ensures var (user, s1) := Session(s);
      CreateDefaultUser(s1) == Some((user, s1))
  {
    var (user, s1) := Session(s);
    if GetUserByEmail(s, DemoEmail).None? {
      FindAppendedUser(s, user, s1);
    }
  }

  // ---------------------------------------------------------------------
  // Search

  /** The query string of a search. `q` is `None` when it is missing or is
      not a single string; `limit` and `offset` are the texts given, if any. */
  datatype SearchQuery = SearchQuery(
    q: Option<string>,
    category: Option<string>,
    contentType: Option<string>,
    sortBy: Option<string>,
    limit: Option<string>,
    offset: Option<string>)

  const DefaultLimit: int := 20
  const LocalLimitCap: int := 50
  /** The number of books asked of OpenLibrary. */
  const ExternalLimit: int := 10

  /** `parseInt(limit)`, where a missing limit is the number 20: the number
      written in the text, and `NaN` for an empty text. */
  function RequestedLimit(q: SearchQuery): (r: Option<int>)
    ensures q.limit.None? ==> r == Some(DefaultLimit)
    ensures forall n :: q.limit == Some(IntToString(n)) ==> r == Some(n)
    ensures q.limit == Some("") ==> r.None?
  {
    forall n | q.limit == Some(IntToString(n)) ensures ParseInt(q.limit.value) == Some(n) {
      ParseIntRoundTrip(n);
    }
    if q.limit.None? then Some(DefaultLimit) else ParseInt(q.limit.value)
  }

  /** `parseInt(offset)`, where a missing offset is the number 0: the number
      written in the text, and `NaN` for an empty text. */
  function RequestedOffset(q: SearchQuery): (r: Option<int>)
    ensures q.offset.None? ==> r == Some(0)
    ensures forall n :: q.offset == Some(IntToString(n)) ==> r == Some(n)
    ensures q.offset == Some("") ==> r.None?
  {
    forall n | q.offset == Some(IntToString(n)) ensures ParseInt(q.offset.value) == Some(n) {
      ParseIntRoundTrip(n);
    }
    if q.offset.None? then Some(0) else ParseInt(q.offset.value)
  }

  /** `Math.min(n, 50)`; `NaN` stays `NaN`. */
  function CapLimit(n: Option<int>): (r: Option<int>)
    ensures r.None? <==> n.None?
    ensures r.Some? ==> r.value <= LocalLimitCap && r.value <= n.value
    ensures r.Some? ==> r.value == n.value || r.value == LocalLimitCap
  {
    if n.None? then None else if n.value < LocalLimitCap then n else Some(LocalLimitCap)
  }

  /** The filters the local search runs with: the query's category, type and
      order as given, 20 items unless a limit is written, never more than 50,
      and the written offset or 0. */
  function LocalFilters(q: SearchQuery): (f: SearchFilters)
    ensures f.category == q.category && f.contentType == q.contentType && f.sortBy == q.sortBy
    ensures q.limit.None? ==> f.limit == Some(DefaultLimit)
    ensures forall n :: q.limit == Some(IntToString(n)) ==> f.limit == Some(if n < LocalLimitCap then n else LocalLimitCap)
    ensures f.limit.Some? ==> f.limit.value <= LocalLimitCap
    ensures q.offset.None? ==> f.offset == Some(0)
    ensures forall n :: q.offset == Some(IntToString(n)) ==> f.offset == Some(n)
  {
    SearchFilters(q.category, q.contentType, q.sortBy, CapLimit(RequestedLimit(q)), RequestedOffset(q))
  }

  /** One entry of the combined list: a local hit, or a stored OpenLibrary row. */
  datatype SearchItem = Listed(entry: ContentWithProgress) | Fetched(row: Content)

  datatype SearchBody = SearchBody(content: seq<SearchItem>, total: nat, hasMore: bool)

  /** No two content rows share an external key and source. */
  ghost predicate ExternalKeysUnique(s: Store) {
    forall i, j :: 0 <= i < j < |s.contents| && s.contents[i].externalId.Some? ==>
      !IsExternal(s.contents[j], s.contents[i].externalId.value, s.contents[i].source)
  }

  /** The OpenLibrary documents in order: a document whose key is already
      stored yields the stored row; otherwise the mapped row is inserted, and
      a document the database rejects is skipped. */
  function Ingest(s: Store, docs: seq<Doc>): (r: (seq<Content>, Store))
    ensures |r.0| <= |docs|
    ensures s.contents <= r.1.contents
    ensures r.1.users == s.users && r.1.saved == s.saved && r.1.progress == s.progress
    ensures forall c :: c in r.0 ==> c in r.1.contents && c.source == Source && c.externalId.Some?
    ensures Valid(s) ==> Valid(r.1) && Grows(s, r.1)
    ensures ExternalKeysUnique(s) ==> ExternalKeysUnique(r.1)
    decreases |docs|
  {
    if |docs| == 0 then ([], s)
    else
      var (head, s1) := IngestHead(s, docs[0]);
      var (rest, s') := Ingest(s1, docs[1..]);
      assert forall c :: c in head ==> c in s'.contents by {
        forall c | c in head ensures c in s'.contents {
          PrefixMember(s1.contents, s'.contents, c);
        }
      }
      (head + rest, s')
  }

  /** One step of ingestion: the row listed for a document, if any, and the
      store the remaining documents run on. */
  function IngestHead(s: Store, doc: Doc): (r: (seq<Content>, Store))
    ensures |r.0| <= 1 && s.contents <= r.1.contents
    ensures r.1.users == s.users && r.1.saved == s.saved && r.1.progress == s.progress
    ensures forall c :: c in r.0 ==> c in r.1.contents && c.source == Source && c.externalId.Some?
    ensures Valid(s) ==> Valid(r.1) && Grows(s, r.1)
    ensures ExternalKeysUnique(s) ==> ExternalKeysUnique(r.1)
  {
    match GetContentByExternalId(s, doc.key, Source)
    case Some(existing) => ([existing], s)
    case None =>
      match CreateContent(s, MapToContent(doc))
      case Failure(_) => ([], s)
      case Success((row, s1)) =>
        FreshExternalKeepsUnique(s, row, s1);
        ([row], s1)
  }

  lemma PrefixMember<T>(xs: seq<T>, ys: seq<T>, x: T)
    requires xs <= ys && x in xs
    ensures x in ys
  {
    var i :| 0 <= i < |xs| && xs[i] == x;
    assert ys[i] == x;
  }

  /** Inserting a row whose key is not yet stored keeps keys unique. */
  lemma FreshExternalKeepsUnique(s: Store, row: Content, s1: Store)
    requires row.externalId.Some? && !HasExternal(s, row.externalId.value, row.source)
    requires s1.contents == s.contents + [row]
    ensures ExternalKeysUnique(s) ==> ExternalKeysUnique(s1)
  {
    if ExternalKeysUnique(s) {
      forall i, j | 0 <= i < j < |s1.contents| && s1.contents[i].externalId.Some?
        ensures !IsExternal(s1.contents[j], s1.contents[i].externalId.value, s1.contents[i].source)
      {
        if j == |s.contents| {
          assert s1.contents[i] in s.contents;
        }
      }
    }
  }

  lemma HasExternalGrows(s: Store, s': Store, key: string)
    requires s.contents <= s'.contents && HasExternal(s, key, Source)
    ensures HasExternal(s', key, Source)
  {
    var x :| x in s.contents && IsExternal(x, key, Source);
    PrefixMember(s.contents, s'.contents, x);
  }

  /** Row `c` is document `d` mapped and stored. */
  predicate IsMapped(c: Content, d: Doc) {
    Insertable(MapToContent(d)) && c == Materialise(MapToContent(d), c.id, c.createdAt)
  }

  /** Every row carries the key of some document. */
  ghost predicate RowsKeyed(rows: seq<Content>, docs: seq<Doc>) {
    forall c :: c in rows ==> exists d :: d in docs && IsExternal(c, d.key, Source)
  }

  /** Every row was stored before, or is a document mapped and inserted. */
  ghost predicate RowsFromStoreOrDocs(rows: seq<Content>, s: Store, docs: seq<Doc>) {
    forall c :: c in rows ==> c in s.contents || exists d :: d in docs && IsMapped(c, d)
  }

  /** Every document stored before, or accepted by the database, is listed
      with a row under its key. */
  ghost predicate DocsListed(rows: seq<Content>, s: Store, docs: seq<Doc>) {
    forall d :: d in docs && (HasExternal(s, d.key, Source) || Insertable(MapToContent(d))) ==>
      exists c :: c in rows && IsExternal(c, d.key, Source)
  }

  /** What ingestion lists: every row carries the key of some document and
      is either a row stored before or a document mapped and inserted; and
      every document that was stored before, or that the database accepts,
      is listed with a row under its key. */
  lemma IngestListsDocuments(s: Store, docs: seq<Doc>)
    ensures var rows := Ingest(s, docs).0;
      && RowsKeyed(rows, docs) && RowsFromStoreOrDocs(rows, s, docs) && DocsListed(rows, s, docs)
  {
    IngestRowsKeyed(s, docs);
    IngestRowsOrigin(s, docs);
    IngestDocsListed(s, docs);
  }

  /** The first document's row, if any, has its key; an inserted one is the
      document mapped and stored; a document stored before or accepted gets
      one. */
  lemma IngestHeadFacts(s: Store, doc: Doc)
    ensures var (head, s1) := IngestHead(s, doc);
      && (forall c :: c in head ==> IsExternal(c, doc.key, Source) && (c in s.contents || IsMapped(c, doc)))
      && (forall c :: c in s1.contents ==> c in s.contents || c in head)
      && (HasExternal(s, doc.key, Source) || Insertable(MapToContent(doc)) ==> |head| == 1)
  {
  }

  lemma {:induction false} IngestRowsKeyed(s: Store, docs: seq<Doc>)
    ensures RowsKeyed(Ingest(s, docs).0, docs)
    decreases |docs|
  {
    if |docs| > 0 {
      var (head, s1) := IngestHead(s, docs[0]);
      IngestHeadFacts(s, docs[0]);
      IngestRowsKeyed(s1, docs[1..]);
      assert forall d :: d in docs[1..] ==> d in docs;
    }
  }

  lemma {:induction false} IngestRowsOrigin(s: Store, docs: seq<Doc>)
    ensures RowsFromStoreOrDocs(Ingest(s, docs).0, s, docs)
    decreases |docs|
  {
    if |docs| > 0 {
      var (head, s1) := IngestHead(s, docs[0]);
      IngestHeadFacts(s, docs[0]);
      IngestRowsOrigin(s1, docs[1..]);
      assert forall d :: d in docs[1..] ==> d in docs;
    }
  }

  lemma {:induction false} IngestDocsListed(s: Store, docs: seq<Doc>)
    ensures DocsListed(Ingest(s, docs).0, s, docs)
    decreases |docs|
  {
    if |docs| > 0 {
      var (head, s1) := IngestHead(s, docs[0]);
      IngestHeadFacts(s, docs[0]);
      IngestDocsListed(s1, docs[1..]);
      var rows := Ingest(s, docs).0;
      forall d | d in docs && (HasExternal(s, d.key, Source) || Insertable(MapToContent(d)))
        ensures exists c :: c in rows && IsExternal(c, d.key, Source)
      {
        if d == docs[0] {
          assert head[0] in rows;
        } else {
          assert d in docs[1..];
          if HasExternal(s, d.key, Source) {
            HasExternalGrows(s, s1, d.key);
          }
        }
      }
    }
  }

  /** After ingestion every document the database accepts has a stored row
      with its key. */
  lemma {:induction false} IngestCovers(s: Store, docs: seq<Doc>)
    ensures forall d :: d in docs && Insertable(MapToContent(d)) ==> HasExternal(Ingest(s, docs).1, d.key, Source)
    decreases |docs|
  {
    if |docs| > 0 {
      var doc := docs[0];
      var s' := Ingest(s, docs).1;
      var next := IngestHead(s, doc).1;
      assert Ingest(next, docs[1..]).1 == s';
      IngestCovers(next, docs[1..]);
      if Insertable(MapToContent(doc)) {
        if GetContentByExternalId(s, doc.key, Source).Some? {
          HasExternalGrows(s, s', doc.key);
        } else {
          var row := CreateContent(s, MapToContent(doc)).value.0;
          assert row in next.contents && IsExternal(row, doc.key, Source);
          HasExternalGrows(next, s', doc.key);
        }
      }
      forall d | d in docs && Insertable(MapToContent(d)) ensures HasExternal(s', d.key, Source) {
        if d != doc {
          assert d in docs[1..];
        }
      }
    }
  }

  /** Ingestion writes nothing when every document the database would accept
      already has a stored row. */
  lemma {:induction false} IngestNoop(s: Store, docs: seq<Doc>)
    requires forall d :: d in docs && Insertable(MapToContent(d)) ==> HasExternal(s, d.key, Source)
    ensures Ingest(s, docs).1 == s
    decreases |docs|
  {
    if |docs| > 0 {
      assert forall d :: d in docs[1..] ==> d in docs;
      IngestNoop(s, docs[1..]);
    }
  }

  /** Ingesting the same answer twice stores nothing the first pass did not. */
  lemma IngestIdempotent(s: Store, docs: seq<Doc>)
    ensures var s1 := Ingest(s, docs).1; Ingest(s1, docs).1 == s1
  {
    IngestCovers(s, docs);
    IngestNoop(Ingest(s, docs).1, docs);
  }

  /** `[...localContent, ...externalContent]` with its count, and
      `hasMore` as the count compared with the requested limit. */
  function Combine(local: seq<ContentWithProgress>, external: seq<Content>, limit: Option<int>): (b: SearchBody)
    ensures b.total == |b.content| == |local| + |external|
    ensures b.hasMore <==> limit.Some? && b.total >= limit.value
    ensures forall i :: 0 <= i < |local| ==> b.content[i] == Listed(local[i])
    ensures forall i :: |local| <= i < |b.content| ==> b.content[i] == Fetched(external[i - |local|])
  {
    var all := seq(|local|, i requires 0 <= i < |local| => Listed(local[i]))
             + seq(|external|, i requires 0 <= i < |external| => Fetched(external[i]));
    SearchBody(all, |all|, limit.Some? && |all| >= limit.value)
  }

  /** `GET /api/content/search`: a missing query is a 400; a failing local
      search is a 500 before anything is stored; otherwise the local hits
      come first, then the OpenLibrary rows, and `hasMore` compares the
      count with the requested (uncapped) limit. A failed fetch contributes
      nothing. */
  function SearchRoute(s: Store, q: SearchQuery, fetched: Option<seq<Doc>>): (r: (Reply<SearchBody>, Store))
    ensures q.q.None? || q.q.value == "" ==> r == (Error(400, QueryRequired), s)
    ensures q.q.Some? && q.q.value != "" ==>
      && (r.0 == Error(500, InternalError) <==> SearchContent(s, q.q.value, LocalFilters(q)).Failure?)
      && (r.0.Ok? <==> SearchContent(s, q.q.value, LocalFilters(q)).Success?)
    ensures r.0.Error? ==> r.1 == s
    ensures r.0.Ok? ==>
      && q.q.Some?
      && r.0.body.total == |r.0.body.content|
      && (r.0.body.hasMore <==> RequestedLimit(q).Some? && r.0.body.total >= RequestedLimit(q).value)
    ensures r.0.Ok? ==>
      var local := SearchContent(s, q.q.value, LocalFilters(q)).value;
      && |local| <= |r.0.body.content|
      && (forall i :: 0 <= i < |local| ==> r.0.body.content[i] == Listed(local[i]))
      && (forall i :: |local| <= i < |r.0.body.content| ==> r.0.body.content[i].Fetched?)
    ensures fetched.None? ==> r.1 == s
    ensures r.1.users == s.users && r.1.saved == s.saved && r.1.progress == s.progress
    ensures Valid(s) ==> Valid(r.1)
    ensures ExternalKeysUnique(s) ==> ExternalKeysUnique(r.1)
  {
    if q.q.None? || q.q.value == "" then (Error(400, QueryRequired), s)
    else
      match SearchContent(s, q.q.value, LocalFilters(q))
      case Failure(_) => (Error(500, InternalError), s)
      case Success(local) =>
        var (external, s') := if fetched.None? then ([], s) else Ingest(s, fetched.value);
        (Ok(Combine(local, external, RequestedLimit(q))), s')
  }

  /** A local entry is a stored item matching the query and filters; a
      fetched entry is an OpenLibrary row stored after the search. */
  ghost predicate ItemSound(item: SearchItem, s: Store, s': Store, q: SearchQuery) {
    match item
    case Listed(entry) =>
      q.q.Some? && entry.content in s.contents && Matches(entry.content, q.q.value, LocalFilters(q))
    case Fetched(row) => row in s'.contents && row.source == Source
  }

  /** Every entry of a search answer is sound. */
  lemma SearchResultsSound(s: Store, q: SearchQuery, fetched: Option<seq<Doc>>)
    ensures var r := SearchRoute(s, q, fetched);
      r.0.Ok? ==> forall i :: 0 <= i < |r.0.body.content| ==> ItemSound(r.0.body.content[i], s, r.1, q)
  {
    if q.q.Some? && q.q.value != "" && SearchContent(s, q.q.value, LocalFilters(q)).Success? {
      var local := SearchContent(s, q.q.value, LocalFilters(q)).value;
      var ingested := if fetched.None? then ([], s) else Ingest(s, fetched.value);
      var external := ingested.0;
      var body := Combine(local, external, RequestedLimit(q));
      assert SearchRoute(s, q, fetched) == (Ok(body), ingested.1);
      forall i | 0 <= i < |body.content| ensures ItemSound(body.content[i], s, ingested.1, q) {
        if i >= |local| {
          assert external[i - |local|] in external;
        }
      }
    }
  }

  /** When OpenLibrary cannot be reached the answer is the local page alone. */
  lemma FailedFetchListsLocalOnly(s: Store, q: SearchQuery)
    requires q.q.Some? && q.q.value != ""
    requires SearchContent(s, q.q.value, LocalFilters(q)).Success?
    ensures var r := SearchRoute(s, q, None).0;
      var local := SearchContent(s, q.q.value, LocalFilters(q)).value;
      && r.Ok? && r.body.total == |local|
      && forall i :: 0 <= i < |r.body.content| ==> r.body.content[i] == Listed(local[i])
  {
    var local := SearchContent(s, q.q.value, LocalFilters(q)).value;
    assert SearchRoute(s, q, None).0 == Ok(Combine(local, [], RequestedLimit(q)));
  }

  /** Every entry from position `n` on is a fetched row carrying the key
      of one of the documents. */
  ghost predicate FetchedKeyed(items: seq<SearchItem>, n: nat, docs: seq<Doc>) {
    forall i :: n <= i < |items| ==>
      items[i].Fetched? && exists d :: d in docs && IsExternal(items[i].row, d.key, Source)
  }

  /** Every document stored before, or accepted by the database, appears
      from position `n` on as a fetched row under its key. */
  ghost predicate FetchedCoverDocs(items: seq<SearchItem>, n: nat, s: Store, docs: seq<Doc>) {
    forall d :: d in docs && (HasExternal(s, d.key, Source) || Insertable(MapToContent(d))) ==>
      exists i :: n <= i < |items| && items[i].Fetched? && IsExternal(items[i].row, d.key, Source)
  }

  /** The fetched part of a combined answer carries the rows' keys. */
  lemma CombineKeepsKeys(local: seq<ContentWithProgress>, rows: seq<Content>, limit: Option<int>, docs: seq<Doc>)
    requires RowsKeyed(rows, docs)
    ensures FetchedKeyed(Combine(local, rows, limit).content, |local|, docs)
  {
    var items := Combine(local, rows, limit).content;
    var n := |local|;
    forall i | n <= i < |items|
      ensures items[i].Fetched? && exists d :: d in docs && IsExternal(items[i].row, d.key, Source)
    {
      var c := rows[i - n];
      assert c in rows;
      assert items[i].row == c;
    }
  }

  /** The fetched part of a combined answer lists every row. */
  lemma CombineKeepsDocs(local: seq<ContentWithProgress>, rows: seq<Content>, limit: Option<int>, s: Store, docs: seq<Doc>)
    requires DocsListed(rows, s, docs)
    ensures FetchedCoverDocs(Combine(local, rows, limit).content, |local|, s, docs)
  {
    var items := Combine(local, rows, limit).content;
    var n := |local|;
    forall d | d in docs && (HasExternal(s, d.key, Source) || Insertable(MapToContent(d)))
      ensures exists i :: n <= i < |items| && items[i].Fetched? && IsExternal(items[i].row, d.key, Source)
    {
      var c :| c in rows && IsExternal(c, d.key, Source);
      var k :| 0 <= k < |rows| && rows[k] == c;
      assert items[n + k] == Fetched(c);
    }
  }

  /** With an OpenLibrary answer, the entries after the local page are
      the answer's books: each carries the key of a document, and every
      document that was stored before or that the database accepts is
      listed under its key. */
  lemma SearchListsFetchedBooks(s: Store, q: SearchQuery, docs: seq<Doc>)
    requires SearchRoute(s, q, Some(docs)).0.Ok?
    ensures var n := |SearchContent(s, q.q.value, LocalFilters(q)).value|;
      var items := SearchRoute(s, q, Some(docs)).0.body.content;
      FetchedKeyed(items, n, docs) && FetchedCoverDocs(items, n, s, docs)
  {
    var local := SearchContent(s, q.q.value, LocalFilters(q)).value;
    var rows := Ingest(s, docs).0;
    assert SearchRoute(s, q, Some(docs)).0.body == Combine(local, rows, RequestedLimit(q));
    IngestListsDocuments(s, docs);
    CombineKeepsKeys(local, rows, RequestedLimit(q), docs);
    CombineKeepsDocs(local, rows, RequestedLimit(q), s, docs);
  }

  /** Repeating a search with the same OpenLibrary answer stores nothing new. */
  lemma SearchIdempotent(s: Store, q: SearchQuery, fetched: Option<seq<Doc>>)
    ensures var s1 := SearchRoute(s, q, fetched).1; SearchRoute(s1, q, fetched).1 == s1
  {
    var s1 := SearchRoute(s, q, fetched).1;
    if q.q.Some? && q.q.value != "" && SearchContent(s, q.q.value, LocalFilters(q)).Success? && fetched.Some? {
      IngestIdempotent(s, fetched.value);
    }
  }

  /** A limit that parses to 0 (such as "0") takes no part in the query,
      yet `hasMore` compares the count with 0 and so is always true. */
  lemma HasMoreWithZeroLimit(s: Store, text: string, limit: string, fetched: Option<seq<Doc>>)
    requires text != "" && ParseInt(limit) == Some(0)
    ensures var r := SearchRoute(s, SearchQuery(Some(text), None, None, None, Some(limit), None), fetched).0;
      r.Ok? && r.body.hasMore
  {
    var q := SearchQuery(Some(text), None, None, None, Some(limit), None);
    assert RequestedLimit(q) == Some(0);
    assert LocalFilters(q) == SearchFilters(None, None, None, Some(0), Some(0));
    assert SearchContent(s, text, LocalFilters(q)).Success?;
  }

  /** An unparsable limit (such as "many") takes no part in the query
      either, and `hasMore` compares with `NaN`, so it is always false. */
  lemma HasMoreWithUnparsableLimit(s: Store, text: string, limit: string, fetched: Option<seq<Doc>>)
    requires text != "" && ParseInt(limit).None?
    ensures var r := SearchRoute(s, SearchQuery(Some(text), None, None, None, Some(limit), None), fetched).0;
      r.Ok? && !r.body.hasMore
  {
    var q := SearchQuery(Some(text), None, None, None, Some(limit), None);
    assert RequestedLimit(q) == None;
    assert LocalFilters(q) == SearchFilters(None, None, None, None, Some(0));
    assert SearchContent(s, text, LocalFilters(q)).Success?;
  }

  /** "0" parses to 0 and "many" does not parse. */
  lemma LimitTextExamples()
    ensures ParseInt("0") == Some(0)
    ensures ParseInt("many").None?
  {
    ParseIntRoundTrip(0);
    assert IntToString(0) == "0";
    ParseIntNaN("many");
  }

  // ---------------------------------------------------------------------
  // Saved content

  /** `GET /api/content/saved`: the demo user's saved items. */
  function GetSavedRoute(s: Store): (r: (Reply<seq<ContentWithProgress>>, Store))
    ensures r.0.Ok? && r.1 == Session(s).1
    ensures forall x :: x in r.0.body ==>
      x.isSaved && x.content in s.contents && IsContentSaved(s, Session(s).0.id, x.content.id)
    ensures Valid(s) ==> forall contentId :: IsContentSaved(s, Session(s).0.id, contentId) ==>
      exists x :: x in r.0.body && x.content.id == contentId
    ensures forall i, j :: 0 <= i < j < |r.0.body| ==> SavedNoLater(s, Session(s).0.id, r.0.body[i], r.0.body[j])
    ensures Valid(s) && NoDuplicateSaves(s) && ProgressUnique(s) ==>
      && |r.0.body| == |SavedRowsOf(s.saved, Session(s).0.id)|
      && forall i, j :: 0 <= i < j < |r.0.body| ==> r.0.body[i].content.id != r.0.body[j].content.id
    ensures Valid(s) ==> Valid(r.1)
  {
    match CreateDefaultUser(s)
    case None => (Error(500, NoSession), s)
    case Some((user, s1)) =>
      SessionListing(s);
      (Ok(GetSavedContent(s1, user.id)), s1)
  }

  /** The session adds at most a user, so the listing it reads agrees with
      the saves of the store the request came with. */
  lemma SessionListing(s: Store)
    ensures var (user, s1) := Session(s);
      var items := GetSavedContent(s1, user.id);
      && (Valid(s) ==> forall contentId :: IsContentSaved(s, user.id, contentId) ==>
            exists x :: x in items && x.content.id == contentId)
      && (forall i, j :: 0 <= i < j < |items| ==> SavedNoLater(s, user.id, items[i], items[j]))
      && (Valid(s) && NoDuplicateSaves(s) && ProgressUnique(s) ==>
            && |items| == |SavedRowsOf(s.saved, user.id)|
            && forall i, j :: 0 <= i < j < |items| ==> items[i].content.id != items[j].content.id)
  {
    var (user, s1) := Session(s);
    var items := GetSavedContent(s1, user.id);
    SavedListingNewestFirst(s1, user.id);
    SavedIffListed(s1, user.id);
    assert s1.saved == s.saved;
    assert forall contentId :: IsContentSaved(s, user.id, contentId) == IsContentSaved(s1, user.id, contentId);
    forall i, j | 0 <= i < j < |items| ensures SavedNoLater(s, user.id, items[i], items[j]) {
      assert SavedNoLater(s1, user.id, items[i], items[j]);
    }
    if Valid(s) && NoDuplicateSaves(s) && ProgressUnique(s) {
      assert NoDuplicateSaves(s1) && ProgressUnique(s1);
      SavedListingOnce(s1, user.id);
    }
  }

  /** Appending a row for a pair nobody saved yet keeps pairs unique. */
  lemma FreshSaveKeepsUnique(s: Store, row: SavedRow, s1: Store)
    requires !IsContentSaved(s, row.userId, row.contentId)
    requires s1.saved == s.saved + [row]
    ensures NoDuplicateSaves(s) ==> NoDuplicateSaves(s1)
  {
    if NoDuplicateSaves(s) {
      forall i, j | 0 <= i < j < |s1.saved|
        ensures !SavedFor(s1.saved[j], s1.saved[i].userId, s1.saved[i].contentId)
      {
        if j == |s.saved| && SavedFor(s1.saved[j], s1.saved[i].userId, s1.saved[i].contentId) {
          assert SavedFor(s.saved[i], row.userId, row.contentId);
        }
      }
    }
  }

  /** `POST /api/content/:id/save`: 404 for a missing item, 400 when the
      demo user saved it already, otherwise the new saved row. */
  function SaveRoute(s: Store, contentId: Id): (r: (Reply<SavedRow>, Store))
    ensures var (user, s1) := Session(s);
      && (r.0 == Error(404, NotFound) <==> GetContent(s, contentId).None?)
      && (r.0 == Error(400, AlreadySaved) <==> GetContent(s, contentId).Some? && IsContentSaved(s, user.id, contentId))
      && (r.0.Ok? <==> GetContent(s, contentId).Some? && !IsContentSaved(s, user.id, contentId))
      && (r.0.Ok? ==> SavedFor(r.0.body, user.id, contentId) && IsContentSaved(r.1, user.id, contentId)
                      && r.1.saved == s.saved + [r.0.body])
      && (r.0.Error? ==> r.1 == s1)
    ensures r.1.users == Session(s).1.users
    ensures r.1.contents == s.contents && r.1.progress == s.progress
    ensures Valid(s) ==> Valid(r.1)
    ensures NoDuplicateSaves(s) ==> NoDuplicateSaves(r.1)
  {
    match CreateDefaultUser(s)
    case None => (Error(500, NoSession), s)
    case Some((user, s1)) =>
      if GetContent(s1, contentId).None? then (Error(404, NotFound), s1)
      else if IsContentSaved(s1, user.id, contentId) then (Error(400, AlreadySaved), s1)
      else
        match SaveContent(s1, user.id, contentId)
        case Failure(_) => (Error(500, InternalError), s1)
        case Success((row, s2)) =>
          FreshSaveKeepsUnique(s1, row, s2);
          (Ok(row), s2)
  }

  /** `DELETE /api/content/:id/save`: removes the demo user's saves of the
      item, whether or not there were any. */
  function UnsaveRoute(s: Store, contentId: Id): (r: (Reply<string>, Store))
    ensures r.0 == Ok(UnsavedMessage)
    ensures var (user, s1) := Session(s);
      && !IsContentSaved(r.1, user.id, contentId)
      && (forall x :: x in r.1.saved <==> x in s.saved && !SavedFor(x, user.id, contentId))
    ensures r.1.contents == s.contents && r.1.progress == s.progress
    ensures Valid(s) ==> Valid(r.1)
    ensures NoDuplicateSaves(s) ==> NoDuplicateSaves(r.1)
  {
    match CreateDefaultUser(s)
    case None => (Error(500, NoSession), s)
    case Some((user, s1)) => (Ok(UnsavedMessage), UnsaveContent(s1, user.id, contentId))
  }

  lemma {:induction false} RemovePairIdempotent(rows: seq<SavedRow>, userId: Id, contentId: Id)
    ensures RemovePair(RemovePair(rows, userId, contentId), userId, contentId) == RemovePair(rows, userId, contentId)
  {
    if |rows| > 0 {
      RemovePairIdempotent(rows[1..], userId, contentId);
      if !SavedFor(rows[0], userId, contentId) {
        var r := [rows[0]] + RemovePair(rows[1..], userId, contentId);
        assert r[1..] == RemovePair(rows[1..], userId, contentId);
      }
    }
  }

  /** Unsaving twice is unsaving once. */
  lemma UnsaveIdempotent(s: Store, contentId: Id)
    ensures var s1 := UnsaveRoute(s, contentId).1; UnsaveRoute(s1, contentId).1 == s1
  {
    var (user, s0) := Session(s);
    SessionStable(s);
    RemovePairIdempotent(s0.saved, user.id, contentId);
  }

  /** Saving, then unsaving, leaves no save of the pair behind, and the
      saved rows are those before the save minus the pair. */
  lemma SaveThenUnsave(s: Store, contentId: Id)
    requires SaveRoute(s, contentId).0.Ok?
    ensures var s2 := UnsaveRoute(SaveRoute(s, contentId).1, contentId).1;
      var user := Session(s).0;
      && !IsContentSaved(s2, user.id, contentId)
      && forall x :: x in s2.saved <==> x in s.saved && !SavedFor(x, user.id, contentId)
  {
    SaveKeepsSession(s, contentId);
    UnsaveDropsAppended(s, SaveRoute(s, contentId).1, SaveRoute(s, contentId).0.body, contentId);
  }

  /** A save runs as the same demo user as the requests after it. */
  lemma SaveKeepsSession(s: Store, contentId: Id)
    ensures Session(SaveRoute(s, contentId).1).0 == Session(s).0
  {
    var (user, s1) := Session(s);
    var s2 := SaveRoute(s, contentId).1;
    assert GetUserByEmail(s1, DemoEmail) == Some(user) by {
      SessionStable(s);
    }
    assert GetUserByEmail(s2, DemoEmail) == Some(user) by {
      assert s2.users == s1.users;
    }
  }

  /** Unsaving a pair after a row of that pair was appended leaves the rows
      from before, minus the pair. */
  lemma UnsaveDropsAppended(s: Store, s2: Store, row: SavedRow, contentId: Id)
    requires s2.saved == s.saved + [row]
    requires SavedFor(row, Session(s2).0.id, contentId)
    ensures var user := Session(s2).0;
      forall x :: x in UnsaveRoute(s2, contentId).1.saved <==> x in s.saved && !SavedFor(x, user.id, contentId)
  {
  }

  // ---------------------------------------------------------------------
  // Progress

  /** The JSON body of a progress update; a field is `None` when it is
      missing or has the wrong JSON type. */
  datatype ProgressBody = ProgressBody(status: Option<string>, progressPercentage: Option<int>)

  /** The request schema: a status label of the enum and a number in 0..100. */
  function ValidateProgress(b: ProgressBody): (r: Option<(ProgressStatus, int)>)
    ensures r.Some? ==> 0 <= r.value.1 <= 100 && b.progressPercentage == Some(r.value.1)
    ensures r.Some? ==> b.status == Some(StatusLabel(r.value.0))
    ensures r.None? ==>
      || b.status.None? || ParseStatus(b.status.value).None? || b.progressPercentage.None?
      || b.progressPercentage.value < 0 || b.progressPercentage.value > 100
  {
    if b.status.None? || b.progressPercentage.None? then None
    else
      match ParseStatus(b.status.value)
      case None => None
      case Some(status) =>
        var p := b.progressPercentage.value;
        if 0 <= p <= 100 then Some((status, p)) else None
  }

  /** The schema accepts exactly the bodies built from a status and a
      percentage in range, and reads them back unchanged. */
  lemma ValidateProgressRoundTrip(status: ProgressStatus, p: int)
    ensures ValidateProgress(ProgressBody(Some(StatusLabel(status)), Some(p))) ==
      if 0 <= p <= 100 then Some((status, p)) else None
  {
    LabelsRoundTrip();
  }

  /** Every stored percentage lies in 0..100. */
  ghost predicate PercentagesInRange(s: Store) {
    forall i :: 0 <= i < |s.progress| ==> 0 <= s.progress[i].percentage <= 100
  }

  /** `POST /api/content/:id/progress`: a body the schema rejects throws and
      is answered 500 before anything is written; a missing item is a 404;
      otherwise the demo user's progress on the item is upserted. */
  function UpdateProgressRoute(s: Store, contentId: Id, body: ProgressBody): (r: (Reply<ProgressRow>, Store))
    ensures ValidateProgress(body).None? ==> r == (Error(500, InternalError), s)
    ensures ValidateProgress(body).Some? ==>
      var (status, p) := ValidateProgress(body).value;
      var (user, s1) := Session(s);
      && (r.0 == Error(404, NotFound) <==> GetContent(s, contentId).None?)
      && (r.0.Ok? <==> GetContent(s, contentId).Some?)
      && (r.0.Ok? ==> ProgressFor(r.0.body, user.id, contentId) && r.0.body.status == status
                      && r.0.body.percentage == p && r.0.body in r.1.progress)
    ensures r.1.contents == s.contents && r.1.saved == s.saved
    ensures Valid(s) ==> Valid(r.1)
    ensures ProgressUnique(s) ==> ProgressUnique(r.1)
    ensures PercentagesInRange(s) ==> PercentagesInRange(r.1)
  {
    match ValidateProgress(body)
    case None => (Error(500, InternalError), s)
    case Some((status, p)) =>
      match CreateDefaultUser(s)
      case None => (Error(500, NoSession), s)
      case Some((user, s1)) =>
        if GetContent(s1, contentId).None? then (Error(404, NotFound), s1)
        else
          match UpdateProgress(s1, user.id, contentId, status, p)
          case Failure(_) => (Error(500, InternalError), s1)
          case Success((row, s2)) =>
            UpsertKeepsRange(s1, user.id, contentId, status, p, row, s2);
            (Ok(row), s2)
  }

  lemma UpsertKeepsRange(s: Store, userId: Id, contentId: Id, status: ProgressStatus, p: int, row: ProgressRow, s': Store)
    requires 0 <= p <= 100
    requires UpdateProgress(s, userId, contentId, status, p) == Success((row, s'))
    ensures PercentagesInRange(s) ==> PercentagesInRange(s')
  {
    if PercentagesInRange(s) {
      forall i | 0 <= i < |s'.progress| ensures 0 <= s'.progress[i].percentage <= 100 {
        if i < |s.progress| && !ProgressFor(s.progress[i], userId, contentId) {
          assert s'.progress[i] == s.progress[i];
        } else if !HasProgress(s, userId, contentId) && i == |s.progress| {
          assert s'.progress[i] == row;
        }
      }
    }
  }

  /** Sending the same valid update twice leaves one row for the pair in
      place: the second request changes no row count. */
  lemma UpdateProgressRepeat(s: Store, contentId: Id, body: ProgressBody)
    requires UpdateProgressRoute(s, contentId, body).0.Ok?
    ensures var s1 := UpdateProgressRoute(s, contentId, body).1;
      var r2 := UpdateProgressRoute(s1, contentId, body);
      r2.0.Ok? && |r2.1.progress| == |s1.progress|
  {
    var (user, s0) := Session(s);
    SessionStable(s);
    var s1 := UpdateProgressRoute(s, contentId, body).1;
    var row := UpdateProgressRoute(s, contentId, body).0.body;
    assert Session(s1).0 == user by {
      assert GetUserByEmail(s1, DemoEmail) == GetUserByEmail(s0, DemoEmail);
    }
    var k :| 0 <= k < |s1.progress| && s1.progress[k] == row;
    assert HasProgress(s1, user.id, contentId);
  }

  /** `GET /api/progress`: the demo user's progress rows, latest first. */
  function GetProgressRoute(s: Store): (r: (Reply<seq<ProgressRow>>, Store))
    ensures r.0.Ok? && r.1 == Session(s).1
    ensures forall x :: x in r.0.body <==> x in s.progress && x.userId == Session(s).0.id
    ensures forall i, j :: 0 <= i < j < |r.0.body| ==> r.0.body[i].lastUpdated >= r.0.body[j].lastUpdated
    ensures forall x :: multiset(r.0.body)[x] == if x.userId == Session(s).0.id then multiset(s.progress)[x] else 0
  {
    match CreateDefaultUser(s)
    case None => (Error(500, NoSession), s)
    case Some((user, s1)) => (Ok(GetUserProgress(s1, user.id)), s1)
  }

  // ---------------------------------------------------------------------
  // Statistics

  datatype Stats = Stats(completed: nat, inProgress: nat, saved: nat, totalProgress: int)

  function CountStatus(ps: seq<ProgressRow>, status: ProgressStatus): (n: nat)
    ensures n <= |ps|
  {
    if |ps| == 0 then 0
    else (if ps[0].status == status then 1 else 0) + CountStatus(ps[1..], status)
  }

  /** The statuses of the rows, in order. */
  function Statuses(ps: seq<ProgressRow>): (r: seq<ProgressStatus>)
    ensures |r| == |ps| && forall i :: 0 <= i < |ps| ==> r[i] == ps[i].status
  {
    seq(|ps|, i requires 0 <= i < |ps| => ps[i].status)
  }

  /** A status count is the number of rows carrying that status. */
  lemma {:induction false} CountStatusCounts(ps: seq<ProgressRow>, status: ProgressStatus)
    ensures CountStatus(ps, status) == multiset(Statuses(ps))[status]
  {
    if |ps| > 0 {
      CountStatusCounts(ps[1..], status);
      assert Statuses(ps) == [ps[0].status] + Statuses(ps[1..]);
    }
  }

  /** Every row has exactly one status, so the three counts add up to the
      number of rows. */
  lemma {:induction false} CountsPartition(ps: seq<ProgressRow>)
    ensures CountStatus(ps, NotStarted) + CountStatus(ps, InProgress) + CountStatus(ps, Completed) == |ps|
  {
    if |ps| > 0 {
      CountsPartition(ps[1..]);
    }
  }

  function SumPercentages(ps: seq<ProgressRow>): int {
    if |ps| == 0 then 0 else ps[0].percentage + SumPercentages(ps[1..])
  }

  lemma {:induction false} SumBounds(ps: seq<ProgressRow>)
    requires forall i :: 0 <= i < |ps| ==> 0 <= ps[i].percentage <= 100
    ensures 0 <= SumPercentages(ps) <= 100 * |ps|
  {
    if |ps| > 0 {
      SumBounds(ps[1..]);
    }
  }

  /** `Math.round(sum / n)`: the integer nearest the mean, halves rounded
      up; 0 when there are no rows. */
  function RoundedMean(sum: int, n: nat): (r: int)
    ensures n > 0 ==> 2 * n * r - n <= 2 * sum < 2 * n * r + n
    ensures n == 0 ==> r == 0
  {
    if n == 0 then 0
    else
      var r := (2 * sum + n) / (2 * n);
      assert 2 * n * r <= 2 * sum + n < 2 * n * r + 2 * n;
      r
  }

  lemma CancelFactor(n: nat, a: int, b: int)
    requires n > 0 && n * a < n * b
    ensures a < b
  {
  }

  /** Only one integer lies within half a unit of the mean (halves up). */
  lemma RoundedMeanUnique(sum: int, n: nat, k: int)
    requires n > 0
    requires 2 * n * k - n <= 2 * sum < 2 * n * k + n
    ensures k == RoundedMean(sum, n)
  {
    var r := RoundedMean(sum, n);
    assert n * (2 * k - 1) < n * (2 * r + 1);
    assert n * (2 * r - 1) < n * (2 * k + 1);
    CancelFactor(n, 2 * k - 1, 2 * r + 1);
    CancelFactor(n, 2 * r - 1, 2 * k + 1);
  }

  /** The mean of percentages in 0..100, rounded, is in 0..100. */
  lemma RoundedMeanInRange(sum: int, n: nat)
    requires 0 <= sum <= 100 * n
    ensures 0 <= RoundedMean(sum, n) <= 100
  {
    if n > 0 {
      var r := RoundedMean(sum, n);
      assert n * (-1) < n * (2 * r + 1);
      assert n * (2 * r - 1) < n * 201;
      CancelFactor(n, -1, 2 * r + 1);
      CancelFactor(n, 2 * r - 1, 201);
    }
  }

  /** `GET /api/progress/stats`. */
  function StatsRoute(s: Store): (r: (Reply<Stats>, Store))
    ensures r.0.Ok? && r.1 == Session(s).1
    ensures var ps := GetUserProgress(r.1, Session(s).0.id);
      && r.0.body.completed == CountStatus(ps, Completed)
      && r.0.body.inProgress == CountStatus(ps, InProgress)
      && r.0.body.completed + r.0.body.inProgress <= |ps|
      && r.0.body.saved == |GetSavedContent(r.1, Session(s).0.id)|
      && (|ps| > 0 ==> 2 * |ps| * r.0.body.totalProgress - |ps| <= 2 * SumPercentages(ps)
                       < 2 * |ps| * r.0.body.totalProgress + |ps|)
      && (|ps| == 0 ==> r.0.body.totalProgress == 0)
    ensures PercentagesInRange(s) ==> 0 <= r.0.body.totalProgress <= 100
    ensures var u := Session(s).0.id;
      var n := SumOf(s.progress, OfUser(u, EachRow()));
      var total := SumOf(s.progress, OfUser(u, PercentageOf()));
      && r.0.body.completed == SumOf(s.progress, OfUser(u, WithStatus(Completed)))
      && r.0.body.inProgress == SumOf(s.progress, OfUser(u, WithStatus(InProgress)))
      && (n > 0 ==> 2 * n * r.0.body.totalProgress - n <= 2 * total < 2 * n * r.0.body.totalProgress + n)
      && (n == 0 ==> r.0.body.totalProgress == 0)
    ensures Valid(s) && NoDuplicateSaves(s) && ProgressUnique(s) ==>
      r.0.body.saved == |SavedRowsOf(s.saved, Session(s).0.id)|
  {
    match CreateDefaultUser(s)
    case None => (Error(500, NoSession), s)
    case Some((user, s1)) =>
      var ps := GetUserProgress(s1, user.id);
      CountsPartition(ps);
      StatsInRange(s, s1, ps, user.id);
      StatsFromStoredRows(s, s1, user.id);
      var stats := Stats(
        CountStatus(ps, Completed),
        CountStatus(ps, InProgress),
        |GetSavedContent(s1, user.id)|,
        RoundedMean(SumPercentages(ps), |ps|));
      (Ok(stats), s1)
  }

  /** The sum of `f` over the rows: a count or a total taken directly over
      a table. */
  function SumOf(ps: seq<ProgressRow>, f: ProgressRow -> int): int {
    if |ps| == 0 then 0 else f(ps[0]) + SumOf(ps[1..], f)
  }

  /** `f` on the user's rows, 0 on everyone else's. */
  function OfUser(userId: Id, f: ProgressRow -> int): ProgressRow -> int {
    (p: ProgressRow) => if p.userId == userId then f(p) else 0
  }

  /** 1 for a row with the status. */
  function WithStatus(status: ProgressStatus): ProgressRow -> int {
    (p: ProgressRow) => if p.status == status then 1 else 0
  }

  /** 1 for every row. */
  function EachRow(): ProgressRow -> int {
    (p: ProgressRow) => 1
  }

  /** The row's percentage. */
  function PercentageOf(): ProgressRow -> int {
    (p: ProgressRow) => p.percentage
  }

  lemma {:induction false} SumOfAppend(a: seq<ProgressRow>, b: seq<ProgressRow>, f: ProgressRow -> int)
    ensures SumOf(a + b, f) == SumOf(a, f) + SumOf(b, f)
  {
    if |a| > 0 {
      assert (a + b)[0] == a[0];
      assert (a + b)[1..] == a[1..] + b;
      SumOfAppend(a[1..], b, f);
    } else {
      assert a + b == b;
    }
  }

  /** A sum does not depend on the order of the rows. */
  lemma {:induction false} SumOfPermutation(a: seq<ProgressRow>, b: seq<ProgressRow>, f: ProgressRow -> int)
    requires multiset(a) == multiset(b)
    ensures SumOf(a, f) == SumOf(b, f)
    decreases |a|
  {
    if |a| > 0 {
      assert a[0] in multiset(b);
      var k :| 0 <= k < |b| && b[k] == a[0];
      var rest := b[..k] + b[k + 1..];
      SumOfRemove(b, k, f);
      assert a == [a[0]] + a[1..];
      assert multiset(a[1..]) == multiset(rest) by {
        assert multiset(a) == multiset{a[0]} + multiset(a[1..]);
        forall x ensures multiset(a[1..])[x] == multiset(rest)[x] {
          assert multiset(a)[x] == multiset{a[0]}[x] + multiset(a[1..])[x];
          assert multiset(b)[x] == multiset{b[k]}[x] + multiset(rest)[x];
        }
      }
      SumOfPermutation(a[1..], rest, f);
    }
  }

  /** Taking row `k` out of a table takes it out of the multiset and its
      value out of the sum. */
  lemma SumOfRemove(b: seq<ProgressRow>, k: nat, f: ProgressRow -> int)
    requires k < |b|
    ensures multiset(b) == multiset{b[k]} + multiset(b[..k] + b[k + 1..])
    ensures SumOf(b, f) == f(b[k]) + SumOf(b[..k] + b[k + 1..], f)
  {
    assert b == b[..k] + ([b[k]] + b[k + 1..]);
    SumOfAppend(b[..k], [b[k]] + b[k + 1..], f);
    SumOfAppend([b[k]], b[k + 1..], f);
    SumOfAppend(b[..k], b[k + 1..], f);
  }

  /** Summing over the user's rows is summing `OfUser` over the table. */
  lemma {:induction false} SumOfUserRows(rows: seq<ProgressRow>, userId: Id, f: ProgressRow -> int)
    ensures SumOf(ProgressRowsOf(rows, userId), f) == SumOf(rows, OfUser(userId, f))
  {
    if |rows| > 0 {
      SumOfUserRows(rows[1..], userId, f);
      if rows[0].userId == userId {
        assert ProgressRowsOf(rows, userId) == [rows[0]] + ProgressRowsOf(rows[1..], userId);
      }
    }
  }

  lemma {:induction false} CountStatusIsSum(ps: seq<ProgressRow>, status: ProgressStatus)
    ensures CountStatus(ps, status) == SumOf(ps, WithStatus(status))
  {
    if |ps| > 0 {
      CountStatusIsSum(ps[1..], status);
    }
  }

  lemma {:induction false} SumPercentagesIsSum(ps: seq<ProgressRow>)
    ensures SumPercentages(ps) == SumOf(ps, PercentageOf())
  {
    if |ps| > 0 {
      SumPercentagesIsSum(ps[1..]);
    }
  }

  lemma {:induction false} LengthIsSum(ps: seq<ProgressRow>)
    ensures |ps| == SumOf(ps, EachRow())
  {
    if |ps| > 0 {
      LengthIsSum(ps[1..]);
    }
  }

  /** Any sum over the user's listed progress is the same sum over the
      user's stored rows. */
  lemma UserProgressSum(s: Store, userId: Id, f: ProgressRow -> int)
    ensures SumOf(GetUserProgress(s, userId), f) == SumOf(s.progress, OfUser(userId, f))
  {
    var mine := ProgressRowsOf(s.progress, userId);
    assert multiset(GetUserProgress(s, userId)) == multiset(mine);
    SumOfPermutation(GetUserProgress(s, userId), mine, f);
    SumOfUserRows(s.progress, userId, f);
  }

  /** Counted over the listed progress or straight over the stored rows,
      the statistics agree; and with unique pairs the listing has one
      item per saved row. */
  lemma StatsFromStoredRows(s: Store, s1: Store, userId: Id)
    requires s1.progress == s.progress && s1.saved == s.saved && s1.contents == s.contents
    requires Valid(s) ==> Valid(s1)
    ensures var ps := GetUserProgress(s1, userId);
      && CountStatus(ps, Completed) == SumOf(s.progress, OfUser(userId, WithStatus(Completed)))
      && CountStatus(ps, InProgress) == SumOf(s.progress, OfUser(userId, WithStatus(InProgress)))
      && SumPercentages(ps) == SumOf(s.progress, OfUser(userId, PercentageOf()))
      && |ps| == SumOf(s.progress, OfUser(userId, EachRow()))
    ensures Valid(s) && NoDuplicateSaves(s) && ProgressUnique(s) ==>
      |GetSavedContent(s1, userId)| == |SavedRowsOf(s.saved, userId)|
  {
    var ps := GetUserProgress(s1, userId);
    CountStatusIsSum(ps, Completed);
    CountStatusIsSum(ps, InProgress);
    SumPercentagesIsSum(ps);
    LengthIsSum(ps);
    UserProgressSum(s1, userId, WithStatus(Completed));
    UserProgressSum(s1, userId, WithStatus(InProgress));
    UserProgressSum(s1, userId, PercentageOf());
    UserProgressSum(s1, userId, EachRow());
    if Valid(s) && NoDuplicateSaves(s) && ProgressUnique(s) {
      assert NoDuplicateSaves(s1) && ProgressUnique(s1);
      SavedListingOnce(s1, userId);
    }
  }

  lemma StatsInRange(s: Store, s1: Store, ps: seq<ProgressRow>, userId: Id)
    requires s1.progress == s.progress
    requires ps == GetUserProgress(s1, userId)
    ensures PercentagesInRange(s) ==> 0 <= RoundedMean(SumPercentages(ps), |ps|) <= 100
  {
    if PercentagesInRange(s) {
      forall i | 0 <= i < |ps| ensures 0 <= ps[i].percentage <= 100 {
        assert ps[i] in s.progress;
      }
      SumBounds(ps);
      RoundedMeanInRange(SumPercentages(ps), |ps|);
    }
  }
}

=== FILE: schema.dfy ===
/** The data model of the application: the three database enums with their
    labels, the rows of the four tables (users, content, saved content,
    progress), the insert shape of a content row, and the
    content-with-progress record the API returns. Ids are drawn from a
    counter and timestamps from a clock (both natural numbers); a rating is a
    `decimal(3,2)` held as an integer number of hundredths. */
module Schema {
  import opened Wrappers

  // ---------------------------------------------------------------------
  // Enums

  datatype ContentType = Book | Article | Video | Course

  datatype Category =
    | Programming | Design | Business | Science | DataScience
    | WebDev | UxDesign | PythonCategory | ReactCategory

  datatype ProgressStatus = NotStarted | InProgress | Completed

  /** The enum values in declaration order. */
  const AllContentTypes: seq<ContentType> := [Book, Article, Video, Course]
  const AllCategories: seq<Category> :=
    [Programming, Design, Business, Science, DataScience, WebDev, UxDesign, PythonCategory, ReactCategory]
  const AllStatuses: seq<ProgressStatus> := [NotStarted, InProgress, Completed]

  function ContentTypeLabel(t: ContentType): string {
    match t
    case Book => "book"
    case Article => "article"
    case Video => "video"
    case Course => "course"
  }

  function CategoryLabel(c: Category): string {
    match c
    case Programming => "programming"
    case Design => "design"
    case Business => "business"
    case Science => "science"
    case DataScience => "data-science"
    case WebDev => "web-dev"
    case UxDesign => "ux-design"
    case PythonCategory => "python"
    case ReactCategory => "react"
  }

  function StatusLabel(s: ProgressStatus): string {
    match s
    case NotStarted => "not_started"
    case InProgress => "in_progress"
    case Completed => "completed"
  }

  /** The enum value a label names; any other text is not a member. */
  function ParseContentType(s: string): (r: Option<ContentType>)
    ensures r.Some? ==> ContentTypeLabel(r.value) == s
  {
    if s == "book" then Some(Book)
    else if s == "article" then Some(Article)
    else if s == "video" then Some(Video)
    else if s == "course" then Some(Course)
    else None
  }

  function ParseCategory(s: string): (r: Option<Category>)
    ensures r.Some? ==> CategoryLabel(r.value) == s
  {
    if s == "programming" then Some(Programming)
    else if s == "design" then Some(Design)
    else if s == "business" then Some(Business)
    else if s == "science" then Some(Science)
    else if s == "data-science" then Some(DataScience)
    else if s == "web-dev" then Some(WebDev)
    else if s == "ux-design" then Some(UxDesign)
    else if s == "python" then Some(PythonCategory)
    else if s == "react" then Some(ReactCategory)
    else None
  }

  function ParseStatus(s: string): (r: Option<ProgressStatus>)
    ensures r.Some? ==> StatusLabel(r.value) == s
  {
    if s == "not_started" then Some(NotStarted)
    else if s == "in_progress" then Some(InProgress)
    else if s == "completed" then Some(Completed)
    else None
  }

  /** Each label parses back to its value, so the labels are pairwise distinct
      and parsing accepts exactly the enum's labels. */
  lemma LabelsRoundTrip()
    ensures forall t: ContentType :: ParseContentType(ContentTypeLabel(t)) == Some(t)
    ensures forall c: Category :: ParseCategory(CategoryLabel(c)) == Some(c)
    ensures forall s: ProgressStatus :: ParseStatus(StatusLabel(s)) == Some(s)
  {
  }

  /** The value lists are complete and free of repetition. */
  lemma EnumListsComplete()
    ensures |AllContentTypes| == 4 && forall t: ContentType :: t in AllContentTypes
    ensures |AllCategories| == 9 && forall c: Category :: c in AllCategories
    ensures |AllStatuses| == 3 && forall s: ProgressStatus :: s in AllStatuses
    ensures forall i, j :: 0 <= i < j < |AllCategories| ==> AllCategories[i] != AllCategories[j]
    ensures forall i, j :: 0 <= i < j < |AllContentTypes| ==> AllContentTypes[i] != AllContentTypes[j]
  {
    forall t: ContentType ensures t in AllContentTypes {
      match t
      case Book => assert AllContentTypes[0] == t;
      case Article => assert AllContentTypes[1] == t;
      case Video => assert AllContentTypes[2] == t;
      case Course => assert AllContentTypes[3] == t;
    }
    forall c: Category ensures c in AllCategories {
      match c
      case Programming => assert AllCategories[0] == c;
      case Design => assert AllCategories[1] == c;
      case Business => assert AllCategories[2] == c;
      case Science => assert AllCategories[3] == c;
      case DataScience => assert AllCategories[4] == c;
      case WebDev => assert AllCategories[5] == c;
      case UxDesign => assert AllCategories[6] == c;
      case PythonCategory => assert AllCategories[7] == c;
      case ReactCategory => assert AllCategories[8] == c;
    }
    forall s: ProgressStatus ensures s in AllStatuses {
      match s
      case NotStarted => assert AllStatuses[0] == s;
      case InProgress => assert AllStatuses[1] == s;
      case Completed => assert AllStatuses[2] == s;
    }
  }

  /** Status and percentage a progress row takes when an insert leaves them out. */
  const DefaultStatus: ProgressStatus := NotStarted
  const DefaultPercentage: int := 0

  /** A `decimal(3,2)` column holds -9.99 .. 9.99, in hundredths. */
  predicate FitsRating(hundredths: int) {
    -999 <= hundredths <= 999
  }

  // ---------------------------------------------------------------------
  // Rows

  type Id = nat
  type Timestamp = nat

  datatype User = User(id: Id, name: string, email: string, createdAt: Timestamp)

  datatype Content = Content(
    id: Id,
    title: string,
    description: Option<string>,
    url: Option<string>,
    imageUrl: Option<string>,
    source: string,
    externalId: Option<string>,
    contentType: ContentType,
    category: Option<Category>,
    rating: Option<int>,
    author: Option<string>,
    createdAt: Timestamp)

  /** A content row before insertion: no id and no creation time, which the
      store assigns. The title is optional here because an insert may omit
      it, and the NOT NULL constraint then rejects the row. */
  datatype NewContent = NewContent(
    title: Option<string>,
    description: Option<string>,
    url: Option<string>,
    imageUrl: Option<string>,
    source: string,
    externalId: Option<string>,
    contentType: ContentType,
    category: Option<Category>,
    rating: Option<int>,
    author: Option<string>)

  datatype SavedRow = SavedRow(id: Id, userId: Id, contentId: Id, savedAt: Timestamp)

  datatype ProgressRow = ProgressRow(
    id: Id, userId: Id, contentId: Id, status: ProgressStatus, percentage: int, lastUpdated: Timestamp)

  /** A content row as the API returns it, with the caller's progress on it
      (if any) and whether the caller saved it. */
  datatype ContentWithProgress = ContentWithProgress(content: Content, progress: Option<ProgressRow>, isSaved: bool)

  /** The constraints the database enforces on an insert into the content
      table: a title is present and the rating fits `decimal(3,2)`. */
  predicate Insertable(nc: NewContent) {
    nc.title.Some? && (nc.rating.Some? ==> FitsRating(nc.rating.value))
  }

  /** The row an insert creates: the given fields plus the assigned id and
      creation time. */
  function Materialise(nc: NewContent, id: Id, now: Timestamp): (c: Content)
    requires Insertable(nc)
    ensures c.id == id && c.createdAt == now
    ensures c.title == nc.title.value && c.source == nc.source && c.externalId == nc.externalId
    ensures c.contentType == nc.contentType && c.category == nc.category && c.rating == nc.rating
    ensures c.description == nc.description && c.url == nc.url && c.imageUrl == nc.imageUrl && c.author == nc.author
  {
    Content(id, nc.title.value, nc.description, nc.url, nc.imageUrl, nc.source, nc.externalId,
            nc.contentType, nc.category, nc.rating, nc.author, now)
  }
}

=== FILE: search_hook.dfy ===
/** The search state of the home page: the query text, the filter record
    and the page number, the request they produce, and how the answer is
    read. Filters are a map from filter name to value; a name can be present
    with the value `undefined`, as in a JavaScript object. The 300 ms
    debounce of the query text is not modelled. */
module SearchHook {
  import opened Wrappers
  import opened Schema
  import opened Text
  import opened Store
  import Routes
  import OpenLibrary

  datatype FilterKey = CategoryKey | ContentTypeKey | SortByKey

  /** A filter entry's value: a string, or `undefined`. */
  datatype FilterValue = Given(text: string) | Undefined

  type FilterMap = map<FilterKey, FilterValue>

  datatype SearchState = SearchState(query: string, filters: FilterMap, page: int)

  const ItemsPerPage: int := 12

  const Initial: SearchState := SearchState("", map[], 1)

  predicate PageValid(st: SearchState) {
    st.page >= 1
  }

  /** The offset requested for the current page. */
  function Offset(st: SearchState): (n: int)
    ensures PageValid(st) ==> n >= 0 && n % ItemsPerPage == 0
  {
    (st.page - 1) * ItemsPerPage
  }

  /** `updateFilter` as written: the key is set to the value, or to
      `undefined` for the empty string, and the page goes back to 1. */
  function UpdateFilterAsWritten(st: SearchState, key: FilterKey, value: string): (st': SearchState)
    ensures st'.query == st.query && st'.page == 1
    ensures key in st'.filters && (st'.filters[key] == Undefined <==> value == "")
    ensures forall k :: k != key ==> (k in st'.filters <==> k in st.filters)
    ensures forall k :: k != key && k in st.filters ==> st'.filters[k] == st.filters[k]
  {
    st.(filters := st.filters[key := if value == "" then Undefined else Given(value)], page := 1)
  }

  /** `updateFilter` with the evident intent: an empty value removes the
      filter instead of storing `undefined`. */
  function UpdateFilter(st: SearchState, key: FilterKey, value: string): (st': SearchState)
    ensures st'.query == st.query && st'.page == 1
    ensures key in st'.filters <==> value != ""
    ensures key in st'.filters ==> st'.filters[key] == Given(value)
    ensures forall k :: k != key ==> (k in st'.filters <==> k in st.filters)
    ensures forall k :: k != key && k in st.filters ==> st'.filters[k] == st.filters[k]
  {
    if value == "" then st.(filters := st.filters - {key}, page := 1)
    else st.(filters := st.filters[key := Given(value)], page := 1)
  }

  /** `clearFilters`: no filters, first page. */
  function ClearFilters(st: SearchState): (st': SearchState)
    ensures st'.query == st.query && st'.filters == map[] && st'.page == 1
  {
    st.(filters := map[], page := 1)
  }

  /** `!!query.trim()`: the text has a character other than white space. */
  predicate NonBlank(query: string) {
    exists i :: 0 <= i < |query| && !IsSpace(query[i])
  }

  /** The search runs only for a non-blank query. */
  predicate Enabled(st: SearchState) {
    NonBlank(st.query)
  }

  /** `String(value)`, which is how a URLSearchParams built from an object
      writes each value: `undefined` becomes the text "undefined". */
  function ParamText(v: FilterValue): string {
    match v
    case Given(t) => t
    case Undefined => "undefined"
  }

  /** The query-string parameter for a filter, if the key is present. */
  function Param(filters: FilterMap, key: FilterKey): Option<string> {
    if key in filters then Some(ParamText(filters[key])) else None
  }

  /** The search request as the server reads it: `q`, `limit` and `offset`
      as text, and every filter key present. None when the query is blank. */
  function Request(st: SearchState): (r: Option<Routes.SearchQuery>)
    ensures r.Some? <==> Enabled(st)
    ensures r.Some? ==> r.value.q == Some(st.query) && st.query != ""
    ensures r.Some? ==> Routes.RequestedLimit(r.value) == Some(ItemsPerPage)
    ensures r.Some? ==> Routes.RequestedOffset(r.value) == Some(Offset(st))
    ensures r.Some? ==>
      && r.value.category == Param(st.filters, CategoryKey)
      && r.value.contentType == Param(st.filters, ContentTypeKey) && r.value.sortBy == Param(st.filters, SortByKey)
  {
    if !Enabled(st) then None
    else
      ParseIntRoundTrip(ItemsPerPage);
      ParseIntRoundTrip(Offset(st));
      Some(Routes.SearchQuery(
        Some(st.query),
        Param(st.filters, CategoryKey),
        Param(st.filters, ContentTypeKey),
        Param(st.filters, SortByKey),
        Some(IntToString(ItemsPerPage)),
        Some(IntToString(Offset(st)))))
  }

  /** The list shown: the answer's entries, or none before an answer. */
  function Results(data: Option<Routes.SearchBody>): seq<Routes.SearchItem> {
    if data.Some? then data.value.content else []
  }

  function TotalResults(data: Option<Routes.SearchBody>): nat {
    if data.Some? then data.value.total else 0
  }

  function HasNextPage(data: Option<Routes.SearchBody>): bool {
    data.Some? && data.value.hasMore
  }

  /** The data the page holds after a reply: the body of a success; a
      failed request leaves no data. */
  function Answer(reply: Routes.Reply<Routes.SearchBody>): (data: Option<Routes.SearchBody>)
    ensures data.Some? <==> reply.Ok?
  {
    if reply.Ok? then Some(reply.body) else None
  }

  /** Without data the page shows nothing and offers no next page; with the
      server's answer it shows every entry sent, and the total it reports
      is the number of entries shown. */
  lemma ReadingTheAnswer(s: Store, q: Routes.SearchQuery, fetched: Option<seq<OpenLibrary.Doc>>)
    ensures Results(None) == [] && TotalResults(None) == 0 && !HasNextPage(None)
    ensures var data := Answer(Routes.SearchRoute(s, q, fetched).0);
      TotalResults(data) == |Results(data)|
  {
  }

  /** The request of a state whose page is valid always passes the
      server's limit and offset checks: neither can be negative. */
  lemma RequestPaginationValid(st: SearchState)
    requires PageValid(st) && Enabled(st)
    ensures var f := Routes.LocalFilters(Request(st).value);
      Applied(f.limit) == ItemsPerPage && Applied(f.offset) >= 0
  {
  }

  /** As written, picking a category and then "all categories" leaves
      `category=undefined` in the request, a text no category has, so the
      server answers 500 whatever is stored. */
  lemma ClearingCategoryAsWritten(s: Store, st: SearchState, category: Category, fetched: Option<seq<OpenLibrary.Doc>>)
    requires Enabled(st) && PageValid(st)
    ensures var st' := UpdateFilterAsWritten(UpdateFilterAsWritten(st, CategoryKey, CategoryLabel(category)), CategoryKey, "");
      && Request(st').value.category == Some("undefined")
      && Routes.SearchRoute(s, Request(st').value, fetched).0 == Routes.Error(500, Routes.InternalError)
  {
    var st' := UpdateFilterAsWritten(UpdateFilterAsWritten(st, CategoryKey, CategoryLabel(category)), CategoryKey, "");
    assert Enabled(st');
    assert ParseCategory("undefined").None?;
  }

  /** With the corrected update, picking a category and then "all
      categories" gives the filters back without a category, and the
      request carries none. */
  lemma ClearingCategoryRestores(st: SearchState, value: string)
    requires Enabled(st)
    ensures var st' := UpdateFilter(UpdateFilter(st, CategoryKey, value), CategoryKey, "");
      && st'.filters == st.filters - {CategoryKey}
      && Request(st').value.category == None
  {
    var st' := UpdateFilter(UpdateFilter(st, CategoryKey, value), CategoryKey, "");
    assert Enabled(st');
  }

  /** Every category or type filter present is a label of its enum. The
      empty map has this property, and the filter panel keeps it. */
  predicate LabelsKnown(filters: FilterMap) {
    && (CategoryKey in filters ==>
         filters[CategoryKey].Given? && ParseCategory(filters[CategoryKey].text).Some?)
    && (ContentTypeKey in filters ==>
         filters[ContentTypeKey].Given? && ParseContentType(filters[ContentTypeKey].text).Some?)
  }

  /** A state whose filters are known labels produces a request the server
      answers with a success, whatever is stored and whatever OpenLibrary
      returns. */
  lemma CorrectedRequestSucceeds(s: Store, st: SearchState, fetched: Option<seq<OpenLibrary.Doc>>)
    requires Enabled(st) && PageValid(st) && LabelsKnown(st.filters)
    ensures Routes.SearchRoute(s, Request(st).value, fetched).0.Ok?
  {
    var q := Request(st).value;
    assert Applied(Routes.LocalFilters(q).limit) == ItemsPerPage;
    assert FilterLabelsValid(Routes.LocalFilters(q));
  }
}

=== FILE: sorting.dfy ===
/** Ordering of query results. An `ORDER BY` clause is modelled by sorting
    with a "may come before" relation; when the relation is total and
    transitive the result is ordered by it, and it is always a permutation of
    the input. Rows that tie keep an order the model picks, which the database
    does not promise either way. */
module Sorting {

  ghost predicate Total<T(!new)>(before: (T, T) -> bool) {
    forall a, b :: before(a, b) || before(b, a)
  }

  ghost predicate Transitive<T(!new)>(before: (T, T) -> bool) {
    forall a, b, c :: before(a, b) && before(b, c) ==> before(a, c)
  }

  /** Every element may come before every later element. */
  predicate SortedBy<T>(xs: seq<T>, before: (T, T) -> bool) {
    forall i, j :: 0 <= i < j < |xs| ==> before(xs[i], xs[j])
  }

  /** Inserts `x` in front of the first element it may precede. */
  function Insert<T>(x: T, xs: seq<T>, before: (T, T) -> bool): (r: seq<T>)
    ensures |r| == |xs| + 1
    ensures multiset(r) == multiset(xs) + multiset{x}
  {
    if |xs| == 0 || before(x, xs[0]) then [x] + xs
    else
      assert xs == [xs[0]] + xs[1..];
      [xs[0]] + Insert(x, xs[1..], before)
  }

  /** Insertion sort. */
  function Sort<T>(xs: seq<T>, before: (T, T) -> bool): (r: seq<T>)
    ensures |r| == |xs|
    ensures multiset(r) == multiset(xs)
  {
    if |xs| == 0 then []
    else
      assert xs == [xs[0]] + xs[1..];
      Insert(xs[0], Sort(xs[1..], before), before)
  }

  lemma {:induction false} InsertKeepsOrder<T(!new)>(x: T, xs: seq<T>, before: (T, T) -> bool)
    requires Total(before) && Transitive(before)
    requires SortedBy(xs, before)
    ensures SortedBy(Insert(x, xs, before), before)
  {
    if |xs| == 0 || before(x, xs[0]) {
    } else {
      var tail := Insert(x, xs[1..], before);
      InsertKeepsOrder(x, xs[1..], before);
      assert before(xs[0], x);
      forall j | 0 <= j < |tail|
        ensures before(xs[0], tail[j])
      {
        assert tail[j] in multiset(tail);
        assert tail[j] == x || tail[j] in multiset(xs[1..]);
        if tail[j] != x {
          var k :| 0 <= k < |xs[1..]| && xs[1..][k] == tail[j];
          assert xs[k + 1] == tail[j];
        }
      }
    }
  }

  /** A sort under a total, transitive relation is ordered by it. */
  lemma {:induction false} SortIsOrdered<T(!new)>(xs: seq<T>, before: (T, T) -> bool)
    requires Total(before) && Transitive(before)
    ensures SortedBy(Sort(xs, before), before)
  {
    if |xs| > 0 {
      SortIsOrdered(xs[1..], before);
      InsertKeepsOrder(xs[0], Sort(xs[1..], before), before);
    }
  }
}

=== FILE: store.dfy ===
/** The storage layer with the database taken as a value: four tables held as
    row sequences in insertion order, an id counter and a clock. Every write
    returns a new store. The saved-content and progress tables declare no
    uniqueness on (user, content), so they are sequences of rows and a
    duplicate pair is representable; which operations keep pairs unique is
    proved, not assumed. Errors the database raises on a write or a query are
    `Failure` values. */
module Store {
  import opened Wrappers
  import opened Schema
  import opened Text
  import Sorting

  datatype DbError =
    | NotNullViolation      // a NOT NULL column left empty
    | NumericOverflow       // a rating that does not fit decimal(3,2)
    | UniqueViolation       // a second user with the same email
    | ForeignKeyViolation   // a row that names a missing user or content item
    | NegativeLimit         // LIMIT must not be negative
    | NegativeOffset        // OFFSET must not be negative
    | InvalidEnumValue      // a filter value that is not a label of its enum

  datatype Store = Store(
    users: seq<User>,
    contents: seq<Content>,
    saved: seq<SavedRow>,
    progress: seq<ProgressRow>,
    nextId: Id,
    clock: Timestamp)

  const Empty: Store := Store([], [], [], [], 0, 0)

  // ---------------------------------------------------------------------
  // Well-formedness

  ghost predicate UserExists(s: Store, id: Id) {
    exists x :: x in s.users && x.id == id
  }

  ghost predicate ContentExists(s: Store, id: Id) {
    exists x :: x in s.contents && x.id == id
  }

  /** Users: fresh, increasing ids, past creation times, unique emails. */
  ghost predicate UsersValid(s: Store) {
    && (forall i :: 0 <= i < |s.users| ==> s.users[i].id < s.nextId && s.users[i].createdAt < s.clock)
    && (forall i, j :: 0 <= i < j < |s.users| ==> s.users[i].id < s.users[j].id)
    && (forall i, j :: 0 <= i < j < |s.users| ==> s.users[i].email != s.users[j].email)
  }

  /** Content: fresh, increasing ids and creation times. */
  ghost predicate ContentsValid(s: Store) {
    && (forall i :: 0 <= i < |s.contents| ==> s.contents[i].id < s.nextId && s.contents[i].createdAt < s.clock)
    && (forall i, j :: 0 <= i < j < |s.contents| ==> s.contents[i].id < s.contents[j].id)
  }

  /** Saved rows: fresh, increasing ids and save times; references resolve. */
  ghost predicate SavedValid(s: Store) {
    && (forall i :: 0 <= i < |s.saved| ==> s.saved[i].id < s.nextId && s.saved[i].savedAt < s.clock)
    && (forall i :: 0 <= i < |s.saved| ==> UserExists(s, s.saved[i].userId) && ContentExists(s, s.saved[i].contentId))
    && (forall i, j :: 0 <= i < j < |s.saved| ==> s.saved[i].id < s.saved[j].id && s.saved[i].savedAt < s.saved[j].savedAt)
  }

  /** Progress rows: fresh, increasing ids, past update times; references resolve. */
  ghost predicate ProgressValid(s: Store) {
    && (forall i :: 0 <= i < |s.progress| ==> s.progress[i].id < s.nextId && s.progress[i].lastUpdated < s.clock)
    && (forall i :: 0 <= i < |s.progress| ==> UserExists(s, s.progress[i].userId) && ContentExists(s, s.progress[i].contentId))
    && (forall i, j :: 0 <= i < j < |s.progress| ==> s.progress[i].id < s.progress[j].id)
  }

  ghost predicate Valid(s: Store) {
    UsersValid(s) && ContentsValid(s) && SavedValid(s) && ProgressValid(s)
  }

  lemma EmptyValid()
    ensures Valid(Empty)
  {
  }

  /** Rows only ever get added to the user and content tables. */
  ghost predicate Grows(s: Store, s': Store) {
    && s.users <= s'.users && s.contents <= s'.contents
    && s.nextId <= s'.nextId && s.clock <= s'.clock
  }

  // ---------------------------------------------------------------------
  // Users

  /** The first element of `xs` that satisfies `p`, if there is one. */
  function FindFirst<T>(xs: seq<T>, p: T -> bool): (r: Option<T>)
    ensures r.Some? ==> r.value in xs && p(r.value)
    ensures r.None? <==> forall x :: x in xs ==> !p(x)
  {
    if |xs| == 0 then None
    else if p(xs[0]) then Some(xs[0])
    else FindFirst(xs[1..], p)
  }

  /** Appending an element that satisfies `p` to a sequence with none makes
      it the one found. */
  lemma {:induction false} FindFirstAppended<T>(xs: seq<T>, p: T -> bool, y: T)
    requires forall x :: x in xs ==> !p(x)
    requires p(y)
    ensures FindFirst(xs + [y], p) == Some(y)
  {
    if |xs| > 0 {
      assert (xs + [y])[1..] == xs[1..] + [y];
      FindFirstAppended(xs[1..], p, y);
    }
  }

  /** A lookup that finds something in a prefix finds the same element in
      any extension of it. */
  lemma {:induction false} FindFirstExtended<T>(xs: seq<T>, ys: seq<T>, p: T -> bool)
    requires xs <= ys && FindFirst(xs, p).Some?
    ensures FindFirst(ys, p) == FindFirst(xs, p)
  {
    if !p(xs[0]) {
      assert xs[1..] <= ys[1..];
      FindFirstExtended(xs[1..], ys[1..], p);
    }
  }

  function EmailIs(email: string): User -> bool {
    (u: User) => u.email == email
  }

  /** `getUserByEmail`: the user with that email, if there is one. */
  function GetUserByEmail(s: Store, email: string): (r: Option<User>)
    ensures r.Some? ==> r.value in s.users && r.value.email == email
    ensures r.None? <==> forall x :: x in s.users ==> x.email != email
  {
    FindFirst(s.users, EmailIs(email))
  }

  /** `createUser`: inserts a user with a fresh id; a second user with the
      same email violates the unique constraint. */
  function CreateUser(s: Store, name: string, email: string): (r: Result<(User, Store), DbError>)
    ensures r.Failure? <==> exists x :: x in s.users && x.email == email
    ensures r.Success? ==>
      var (user, s') := r.value;
      && user.name == name && user.email == email && user.id == s.nextId
      && s'.users == s.users + [user]
      && s'.contents == s.contents && s'.saved == s.saved && s'.progress == s.progress
    ensures r.Success? && Valid(s) ==> Valid(r.value.1) && Grows(s, r.value.1)
  {
    if GetUserByEmail(s, email).Some? then Failure(UniqueViolation)
    else
      var user := User(s.nextId, name, email, s.clock);
      var s' := s.(users := s.users + [user], nextId := s.nextId + 1, clock := s.clock + 1);
      AddUserKeepsValid(s, user);
      Success((user, s'))
  }

  lemma AddUserKeepsValid(s: Store, user: User)
    requires user.id == s.nextId && user.createdAt == s.clock
    requires forall x :: x in s.users ==> x.email != user.email
    ensures Valid(s) ==> Valid(s.(users := s.users + [user], nextId := s.nextId + 1, clock := s.clock + 1))
  {
    if !Valid(s) {
      return;
    }
    var s' := s.(users := s.users + [user], nextId := s.nextId + 1, clock := s.clock + 1);
    forall i, j | 0 <= i < j < |s'.users| ensures s'.users[i].email != s'.users[j].email {
      if j == |s.users| {
        assert s'.users[i] in s.users;
      }
    }
    forall id | UserExists(s, id) ensures UserExists(s', id) {
      var x :| x in s.users && x.id == id;
      assert x in s'.users;
    }
    assert forall id :: ContentExists(s, id) ==> ContentExists(s', id);
  }

  // ---------------------------------------------------------------------
  // Content

  function IdIs(id: Id): Content -> bool {
    (c: Content) => c.id == id
  }

  /** `getContent`: the content item with that id, if there is one. */
  function GetContent(s: Store, id: Id): (r: Option<Content>)
    ensures r.Some? ==> r.value in s.contents && r.value.id == id
    ensures r.None? <==> !ContentExists(s, id)
  {
    FindFirst(s.contents, IdIs(id))
  }

  /** The external record `key` of `source` is stored. */
  predicate IsExternal(c: Content, key: string, source: string) {
    c.externalId == Some(key) && c.source == source
  }

  function ExternalIs(key: string, source: string): Content -> bool {
    (c: Content) => IsExternal(c, key, source)
  }

  /** Content holds an item imported from `source` under `key`. */
  ghost predicate HasExternal(s: Store, key: string, source: string) {
    exists x :: x in s.contents && IsExternal(x, key, source)
  }

  /** `getContentByExternalId`: an item imported from `source` under `key`. */
  function GetContentByExternalId(s: Store, key: string, source: string): (r: Option<Content>)
    ensures r.Some? ==> r.value in s.contents && IsExternal(r.value, key, source)
    ensures r.None? <==> !HasExternal(s, key, source)
  {
    FindFirst(s.contents, ExternalIs(key, source))
  }

  /** `createContent`: inserts the item with a fresh id and creation time;
      the database rejects a missing title and a rating that overflows. */
  function CreateContent(s: Store, nc: NewContent): (r: Result<(Content, Store), DbError>)
    ensures r.Success? <==> Insertable(nc)
    ensures r.Success? ==>
      var (c, s') := r.value;
      && c == Materialise(nc, s.nextId, s.clock)
      && s'.contents == s.contents + [c]
      && s'.users == s.users && s'.saved == s.saved && s'.progress == s.progress
    ensures r.Success? && Valid(s) ==> Valid(r.value.1) && Grows(s, r.value.1)
  {
    if nc.title.None? then Failure(NotNullViolation)
    else if nc.rating.Some? && !FitsRating(nc.rating.value) then Failure(NumericOverflow)
    else
      var c := Materialise(nc, s.nextId, s.clock);
      var s' := s.(contents := s.contents + [c], nextId := s.nextId + 1, clock := s.clock + 1);
      AddContentKeepsValid(s, c);
      Success((c, s'))
  }

  lemma AddContentKeepsValid(s: Store, c: Content)
    requires c.id == s.nextId && c.createdAt == s.clock
    ensures Valid(s) ==> Valid(s.(contents := s.contents + [c], nextId := s.nextId + 1, clock := s.clock + 1))
  {
    if !Valid(s) {
      return;
    }
    var s' := s.(contents := s.contents + [c], nextId := s.nextId + 1, clock := s.clock + 1);
    forall id | ContentExists(s, id) ensures ContentExists(s', id) {
      var x :| x in s.contents && x.id == id;
      assert x in s'.contents;
    }
    assert forall id :: UserExists(s, id) ==> UserExists(s', id);
  }

  // ---------------------------------------------------------------------
  // Search

  /** The filters the search handler passes down. `limit` and `offset` are
      the parsed numbers, `None` standing for `NaN`. */
  datatype SearchFilters = SearchFilters(
    category: Option<string>,
    contentType: Option<string>,
    sortBy: Option<string>,
    limit: Option<int>,
    offset: Option<int>)

  /** A filter value takes part in the query only when it is a non-empty string. */
  predicate Supplied(f: Option<string>) {
    f.Some? && f.value != ""
  }

  /** The text condition: no condition for an empty query, otherwise the query
      occurs in the title, the description or the author, ignoring case. A
      NULL column matches nothing. */
  predicate TextMatches(c: Content, query: string) {
    || query == ""
    || ContainsIgnoringCase(c.title, query)
    || (c.description.Some? && ContainsIgnoringCase(c.description.value, query))
    || (c.author.Some? && ContainsIgnoringCase(c.author.value, query))
  }

  /** Every supplied equality filter names a label of its enum; the database
      rejects a comparison of an enum column with any other text. */
  predicate FilterLabelsValid(f: SearchFilters) {
    && (Supplied(f.category) ==> ParseCategory(f.category.value).Some?)
    && (Supplied(f.contentType) ==> ParseContentType(f.contentType.value).Some?)
  }

  /** Text condition AND the equality filters that were supplied. */
  predicate Matches(c: Content, query: string, f: SearchFilters) {
    && TextMatches(c, query)
    && (Supplied(f.category) ==> c.category.Some? && CategoryLabel(c.category.value) == f.category.value)
    && (Supplied(f.contentType) ==> ContentTypeLabel(c.contentType) == f.contentType.value)
  }

  /** The text condition keeps every row for an empty query and every row
      whose title holds the query; a hit needs a column at least as long as
      the query, and a NULL column gives none. */
  lemma TextMatchesBounds(c: Content, query: string)
    ensures query == "" ==> TextMatches(c, query)
    ensures ContainsIgnoringCase(c.title, query) ==> TextMatches(c, query)
    ensures TextMatches(c, query) && query != "" ==>
      || |query| <= |c.title|
      || (c.description.Some? && |query| <= |c.description.value|)
      || (c.author.Some? && |query| <= |c.author.value|)
  {
  }

  /** A matching row passes the text condition; without supplied filters
      that is all; a supplied filter keeps only rows whose column holds the
      value its label names, so an unknown label keeps nothing. */
  lemma MatchesFilters(c: Content, query: string, f: SearchFilters)
    ensures Matches(c, query, f) ==> TextMatches(c, query)
    ensures !Supplied(f.category) && !Supplied(f.contentType) ==> (Matches(c, query, f) <==> TextMatches(c, query))
    ensures Matches(c, query, f) && Supplied(f.category) ==> c.category == ParseCategory(f.category.value)
    ensures Matches(c, query, f) && Supplied(f.contentType) ==> Some(c.contentType) == ParseContentType(f.contentType.value)
  {
    LabelsRoundTrip();
  }

  function Matching(contents: seq<Content>, query: string, f: SearchFilters): (r: seq<Content>)
    ensures |r| <= |contents|
    ensures forall x :: x in r <==> x in contents && Matches(x, query, f)
    ensures forall x :: multiset(r)[x] == if Matches(x, query, f) then multiset(contents)[x] else 0
  {
    if |contents| == 0 then []
    else
      assert contents == [contents[0]] + contents[1..];
      if Matches(contents[0], query, f) then [contents[0]] + Matching(contents[1..], query, f)
      else Matching(contents[1..], query, f)
  }

  /** The three orderings the search offers. */
  datatype Ordering = NewestFirst | HighestRatedFirst | TitleAscending

  /** 'rating' and 'title' pick their orderings; 'date', 'relevance', an
      unknown key and no key all sort newest first. */
  function OrderingFor(sortBy: Option<string>): (o: Ordering)
    ensures o == HighestRatedFirst <==> sortBy == Some("rating")
    ensures o == TitleAscending <==> sortBy == Some("title")
  {
    if sortBy == Some("rating") then HighestRatedFirst
    else if sortBy == Some("title") then TitleAscending
    else NewestFirst
  }

  /** `ORDER BY created_at DESC`. */
  predicate NewerFirst(a: Content, b: Content) {
    a.createdAt >= b.createdAt
  }

  /** `ORDER BY rating DESC`: NULL sorts first in a descending PostgreSQL order. */
  predicate RatedFirst(a: Content, b: Content) {
    a.rating.None? || (b.rating.Some? && a.rating.value >= b.rating.value)
  }

  /** `ORDER BY title`. */
  predicate TitleFirst(a: Content, b: Content) {
    LexLe(a.title, b.title)
  }

  function Precedes(o: Ordering): (Content, Content) -> bool {
    match o
    case NewestFirst => NewerFirst
    case HighestRatedFirst => RatedFirst
    case TitleAscending => TitleFirst
  }

  /** What each order puts first: newer rows; rated rows by rating, with
      NULL ratings ahead of all; titles ascending, equal titles either way. */
  lemma PrecedesOrders(o: Ordering)
    ensures o == NewestFirst ==> forall a: Content, b: Content :: a.createdAt > b.createdAt ==> Precedes(o)(a, b) && !Precedes(o)(b, a)
    ensures o == HighestRatedFirst ==> forall a: Content, b: Content :: a.rating.None? ==> Precedes(o)(a, b)
    ensures o == HighestRatedFirst ==> forall a: Content, b: Content ::
      a.rating.Some? && b.rating.Some? && a.rating.value > b.rating.value ==> Precedes(o)(a, b) && !Precedes(o)(b, a)
    ensures o == TitleAscending ==> forall a: Content, b: Content :: a.title == b.title ==> Precedes(o)(a, b) && Precedes(o)(b, a)
  {
    forall a: Content, b: Content | a.title == b.title ensures TitleFirst(a, b) && TitleFirst(b, a) {
      LexLeTotal(a.title, a.title);
    }
  }

  lemma PrecedesIsPreorder(o: Ordering)
    ensures Sorting.Total(Precedes(o)) && Sorting.Transitive(Precedes(o))
  {
    match o
    case NewestFirst =>
    case HighestRatedFirst =>
    case TitleAscending =>
      forall a: Content, b: Content ensures TitleFirst(a, b) || TitleFirst(b, a) {
        LexLeTotal(a.title, b.title);
      }
      forall a: Content, b: Content, c: Content | TitleFirst(a, b) && TitleFirst(b, c)
        ensures TitleFirst(a, c)
      {
        LexLeTransitive(a.title, b.title, c.title);
      }
  }

  /** `OFFSET offset LIMIT limit`, where 0 means the clause is absent: skip
      `offset` items, then keep at most `limit`. */
  function Paginate<T>(xs: seq<T>, limit: nat, offset: nat): (r: seq<T>)
    ensures offset >= |xs| ==> |r| == 0
    ensures offset < |xs| ==> |r| == if limit == 0 || limit > |xs| - offset then |xs| - offset else limit
    ensures forall i :: 0 <= i < |r| ==> offset + i < |xs| && r[i] == xs[offset + i]
  {
    var rest := if offset < |xs| then xs[offset..] else [];
    if limit == 0 || limit >= |rest| then rest else rest[..limit]
  }

  /** The number of rows `OFFSET offset LIMIT limit` keeps of `n` rows, a
      0 limit meaning no limit. */
  function WindowLength(n: nat, limit: int, offset: int): nat {
    if offset >= n then 0
    else if limit <= 0 || limit > n - offset then n - offset
    else limit
  }

  /** A search result carries no saved flag and no progress. */
  function AsUnsaved(c: Content): ContentWithProgress {
    ContentWithProgress(c, None, false)
  }

  /** The search answer's rows: the contents in order, none marked saved and
      none carrying progress. */
  function AllUnsaved(cs: seq<Content>): (r: seq<ContentWithProgress>)
    ensures |r| == |cs|
    ensures forall i :: 0 <= i < |r| ==> r[i].content == cs[i] && !r[i].isSaved && r[i].progress.None?
  {
    seq(|cs|, i requires 0 <= i < |cs| => AsUnsaved(cs[i]))
  }

  /** A filter value the database receives as LIMIT or OFFSET: applied only
      when it is a number other than 0. */
  function Applied(v: Option<int>): int {
    if v.Some? then v.value else 0
  }

  /** The matching items in search order, before pagination. */
  function SearchOrder(s: Store, query: string, f: SearchFilters): (r: seq<Content>)
    ensures forall x :: x in r <==> x in s.contents && Matches(x, query, f)
    ensures multiset(r) == multiset(Matching(s.contents, query, f))
    ensures Sorting.SortedBy(r, Precedes(OrderingFor(f.sortBy)))
  {
    var sorted := Sorting.Sort(Matching(s.contents, query, f), Precedes(OrderingFor(f.sortBy)));
    PrecedesIsPreorder(OrderingFor(f.sortBy));
    Sorting.SortIsOrdered(Matching(s.contents, query, f), Precedes(OrderingFor(f.sortBy)));
    assert forall x :: x in sorted <==> x in multiset(sorted);
    sorted
  }

  /** `searchContent`: the matching items in the requested order, paginated,
      each marked unsaved and without progress. A filter value outside its
      enum and a negative limit or offset are errors from the database. */
  function SearchContent(s: Store, query: string, f: SearchFilters): (r: Result<seq<ContentWithProgress>, DbError>)
    ensures r.Failure? <==> !FilterLabelsValid(f) || Applied(f.limit) < 0 || Applied(f.offset) < 0
    ensures r.Success? ==> forall i :: 0 <= i < |r.value| ==>
      && r.value[i].content in s.contents
      && Matches(r.value[i].content, query, f)
      && !r.value[i].isSaved && r.value[i].progress.None?
    ensures r.Success? && Applied(f.limit) > 0 ==> |r.value| <= Applied(f.limit)
    ensures r.Success? ==> forall i, j :: 0 <= i < j < |r.value| ==>
      Precedes(OrderingFor(f.sortBy))(r.value[i].content, r.value[j].content)
    ensures r.Success? ==>
      var ordered := SearchOrder(s, query, f);
      && |r.value| == WindowLength(|ordered|, Applied(f.limit), Applied(f.offset))
      && forall i :: 0 <= i < |r.value| ==> r.value[i].content == ordered[Applied(f.offset) + i]
  {
    var limit := Applied(f.limit);
    var offset := Applied(f.offset);
    if !FilterLabelsValid(f) then Failure(InvalidEnumValue)
    else if limit < 0 then Failure(NegativeLimit)
    else if offset < 0 then Failure(NegativeOffset)
    else
      SearchPageSound(s, query, f, limit, offset);
      Success(SearchPage(s, query, f, limit, offset))
  }

  /** One page of the sorted matching rows, each marked unsaved and without
      progress. */
  function SearchPage(s: Store, query: string, f: SearchFilters, limit: int, offset: int): (r: seq<ContentWithProgress>)
    requires limit >= 0 && offset >= 0
    ensures forall i :: 0 <= i < |r| ==> !r[i].isSaved && r[i].progress.None?
    ensures var ordered := SearchOrder(s, query, f);
      && |r| == WindowLength(|ordered|, limit, offset)
      && forall i :: 0 <= i < |r| ==> r[i].content == ordered[offset + i]
  {
    AllUnsaved(Paginate(SearchOrder(s, query, f), limit, offset))
  }

  /** A page holds stored matching rows, in the requested order, and no more
      rows than a positive limit. */
  lemma SearchPageSound(s: Store, query: string, f: SearchFilters, limit: int, offset: int)
    requires limit >= 0 && offset >= 0
    ensures var r := SearchPage(s, query, f, limit, offset);
      && (forall i :: 0 <= i < |r| ==> r[i].content in s.contents && Matches(r[i].content, query, f))
      && (limit > 0 ==> |r| <= limit)
      && forall i, j :: 0 <= i < j < |r| ==> Precedes(OrderingFor(f.sortBy))(r[i].content, r[j].content)
  {
    var ordered := SearchOrder(s, query, f);
    var r := SearchPage(s, query, f, limit, offset);
    forall i | 0 <= i < |r| ensures r[i].content in s.contents && Matches(r[i].content, query, f) {
      assert ordered[offset + i] in ordered;
    }
    forall i, j | 0 <= i < j < |r| ensures Precedes(OrderingFor(f.sortBy))(r[i].content, r[j].content) {
      assert r[i].content == ordered[offset + i] && r[j].content == ordered[offset + j];
    }
  }

  /** Without pagination the search returns every matching item exactly once
      per row: its items are a permutation of the matching rows. */
  lemma SearchWithoutPaginationIsComplete(s: Store, query: string, f: SearchFilters)
    requires FilterLabelsValid(f)
    requires Applied(f.limit) == 0 && Applied(f.offset) == 0
    ensures SearchContent(s, query, f).Success?
    ensures var r := SearchContent(s, query, f).value;
      multiset(ContentsOf(r)) == multiset(Matching(s.contents, query, f))
    ensures Valid(s) ==>
      var r := SearchContent(s, query, f).value;
      forall x :: multiset(ContentsOf(r))[x] ==
        if x in s.contents && Matches(x, query, f) then 1 else 0
  {
    UnpaginatedIsOrder(s, query, f);
    if Valid(s) {
      MatchingOnce(s.contents, query, f);
    }
  }

  /** Without limit and offset the search lists the whole sorted order. */
  lemma UnpaginatedIsOrder(s: Store, query: string, f: SearchFilters)
    requires FilterLabelsValid(f)
    requires Applied(f.limit) == 0 && Applied(f.offset) == 0
    ensures SearchContent(s, query, f).Success?
    ensures ContentsOf(SearchContent(s, query, f).value) == SearchOrder(s, query, f)
  {
    var r := SearchPage(s, query, f, 0, 0);
    assert SearchContent(s, query, f) == Success(r);
  }

  /** The items' contents, in order. */
  function ContentsOf(items: seq<ContentWithProgress>): (cs: seq<Content>)
    ensures |cs| == |items| && forall i :: 0 <= i < |items| ==> cs[i] == items[i].content
  {
    seq(|items|, i requires 0 <= i < |items| => items[i].content)
  }

  /** Rows with increasing ids match each at most once: a stored matching
      row is kept exactly once. */
  lemma MatchingOnce(contents: seq<Content>, query: string, f: SearchFilters)
    requires forall i, j :: 0 <= i < j < |contents| ==> contents[i].id < contents[j].id
    ensures forall x :: multiset(Matching(contents, query, f))[x] == if x in contents && Matches(x, query, f) then 1 else 0
  {
    forall x ensures multiset(Matching(contents, query, f))[x] == if x in contents && Matches(x, query, f) then 1 else 0 {
      DistinctCountAtMostOne(contents, x);
    }
  }

  // ---------------------------------------------------------------------
  // Saved content

  predicate SavedFor(row: SavedRow, userId: Id, contentId: Id) {
    row.userId == userId && row.contentId == contentId
  }

  /** `isContentSaved`: some saved row holds the pair. */
  predicate IsContentSaved(s: Store, userId: Id, contentId: Id) {
    exists i :: 0 <= i < |s.saved| && SavedFor(s.saved[i], userId, contentId)
  }

  /** An item is saved exactly when it is among the contents of the user's
      saved rows. */
  lemma SavedAmongUserRows(s: Store, userId: Id, contentId: Id)
    ensures IsContentSaved(s, userId, contentId) <==>
      exists x :: x in SavedRowsOf(s.saved, userId) && x.contentId == contentId
  {
    if IsContentSaved(s, userId, contentId) {
      var i :| 0 <= i < |s.saved| && SavedFor(s.saved[i], userId, contentId);
      assert s.saved[i] in SavedRowsOf(s.saved, userId);
    }
  }

  /** No pair occurs in two saved rows. */
  ghost predicate NoDuplicateSaves(s: Store) {
    forall i, j :: 0 <= i < j < |s.saved| ==>
      !SavedFor(s.saved[j], s.saved[i].userId, s.saved[i].contentId)
  }

  /** `saveContent`: appends a row for the pair with a fresh id and save time,
      whether or not the pair is already saved. Both references must resolve. */
  function SaveContent(s: Store, userId: Id, contentId: Id): (r: Result<(SavedRow, Store), DbError>)
    ensures r.Failure? <==> GetContent(s, contentId).None? || !UserExists(s, userId)
    ensures r.Success? ==>
      var (row, s') := r.value;
      && SavedFor(row, userId, contentId) && row.id == s.nextId && row.savedAt == s.clock
      && s'.saved == s.saved + [row]
      && s'.users == s.users && s'.contents == s.contents && s'.progress == s.progress
      && IsContentSaved(s', userId, contentId)
    ensures r.Success? && Valid(s) ==> Valid(r.value.1) && Grows(s, r.value.1)
  {
    var userFound := exists x :: x in s.users && x.id == userId;
    if GetContent(s, contentId).None? || !userFound then Failure(ForeignKeyViolation)
    else
      var row := SavedRow(s.nextId, userId, contentId, s.clock);
      var s' := s.(saved := s.saved + [row], nextId := s.nextId + 1, clock := s.clock + 1);
      assert s'.saved[|s.saved|] == row;
      assert GetContent(s, contentId).value in s.contents;
      AddSavedKeepsValid(s, row);
      Success((row, s'))
  }

  lemma AddSavedKeepsValid(s: Store, row: SavedRow)
    requires row.id == s.nextId && row.savedAt == s.clock
    requires UserExists(s, row.userId) && ContentExists(s, row.contentId)
    ensures Valid(s) ==> Valid(s.(saved := s.saved + [row], nextId := s.nextId + 1, clock := s.clock + 1))
  {
  }

  /** The saved rows that do not hold the pair, in their original order. */
  function RemovePair(rows: seq<SavedRow>, userId: Id, contentId: Id): (r: seq<SavedRow>)
    ensures |r| <= |rows|
    ensures forall x :: x in r <==> x in rows && !SavedFor(x, userId, contentId)
  {
    if |rows| == 0 then []
    else if SavedFor(rows[0], userId, contentId) then RemovePair(rows[1..], userId, contentId)
    else [rows[0]] + RemovePair(rows[1..], userId, contentId)
  }

  /** Ids and save times increase along the rows. */
  predicate Chronological(rows: seq<SavedRow>) {
    forall i, j :: 0 <= i < j < |rows| ==> rows[i].id < rows[j].id && rows[i].savedAt < rows[j].savedAt
  }

  /** No later row repeats the pair of an earlier one. */
  predicate PairsDistinct(rows: seq<SavedRow>) {
    forall i, j :: 0 <= i < j < |rows| ==> !SavedFor(rows[j], rows[i].userId, rows[i].contentId)
  }

  lemma {:induction false} RemovePairKeepsOrder(rows: seq<SavedRow>, userId: Id, contentId: Id)
    ensures Chronological(rows) ==> Chronological(RemovePair(rows, userId, contentId))
    ensures PairsDistinct(rows) ==> PairsDistinct(RemovePair(rows, userId, contentId))
  {
    if |rows| > 0 {
      var rest := RemovePair(rows[1..], userId, contentId);
      RemovePairKeepsOrder(rows[1..], userId, contentId);
      SplitHead(rows);
      if !SavedFor(rows[0], userId, contentId) {
        JoinHead(rows[0], rest);
      }
    }
  }

  /** Both orders of a table hold of its tail, and its head comes before
      every row of the tail. */
  lemma SplitHead(rows: seq<SavedRow>)
    requires |rows| > 0
    ensures Chronological(rows) ==>
      && Chronological(rows[1..])
      && forall x :: x in rows[1..] ==> rows[0].id < x.id && rows[0].savedAt < x.savedAt
    ensures PairsDistinct(rows) ==>
      && PairsDistinct(rows[1..])
      && forall x :: x in rows[1..] ==> !SavedFor(x, rows[0].userId, rows[0].contentId)
  {
    forall x | x in rows[1..] ensures exists k :: 0 < k < |rows| && rows[k] == x {
      var k :| 0 <= k < |rows[1..]| && rows[1..][k] == x;
      assert rows[k + 1] == x;
    }
  }

  /** A row that comes before every row of an ordered tail keeps the table
      ordered in front of it. */
  lemma JoinHead(h: SavedRow, t: seq<SavedRow>)
    ensures Chronological(t) && (forall x :: x in t ==> h.id < x.id && h.savedAt < x.savedAt) ==>
      Chronological([h] + t)
    ensures PairsDistinct(t) && (forall x :: x in t ==> !SavedFor(x, h.userId, h.contentId)) ==>
      PairsDistinct([h] + t)
  {
    var r := [h] + t;
    assert forall j :: 0 < j < |r| ==> r[j] == t[j - 1] && r[j] in t;
  }

  /** `unsaveContent`: deletes every saved row of the pair. */
  function UnsaveContent(s: Store, userId: Id, contentId: Id): (s': Store)
    ensures !IsContentSaved(s', userId, contentId)
    ensures forall x :: x in s'.saved <==> x in s.saved && !SavedFor(x, userId, contentId)
    ensures s'.users == s.users && s'.contents == s.contents && s'.progress == s.progress
    ensures Valid(s) ==> Valid(s') && Grows(s, s')
    ensures NoDuplicateSaves(s) ==> NoDuplicateSaves(s')
  {
    var s' := s.(saved := RemovePair(s.saved, userId, contentId));
    RemovePairKeepsOrder(s.saved, userId, contentId);
    RemovePairKeepsValid(s, userId, contentId);
    assert NoDuplicateSaves(s) <==> PairsDistinct(s.saved);
    assert NoDuplicateSaves(s') <==> PairsDistinct(s'.saved);
    s'
  }

  lemma RemovePairKeepsValid(s: Store, userId: Id, contentId: Id)
    ensures Valid(s) ==> Valid(s.(saved := RemovePair(s.saved, userId, contentId)))
  {
    var s' := s.(saved := RemovePair(s.saved, userId, contentId));
    if Valid(s) {
      RemovedRowsValid(s, userId, contentId);
      assert UsersValid(s') && ContentsValid(s') && ProgressValid(s') by {
        assert s'.users == s.users && s'.contents == s.contents && s'.progress == s.progress;
        assert forall id :: UserExists(s', id) == UserExists(s, id) && ContentExists(s', id) == ContentExists(s, id);
      }
    }
  }

  /** The saved rows that remain after a deletion still satisfy the saved
      table's invariant. */
  lemma RemovedRowsValid(s: Store, userId: Id, contentId: Id)
    requires Valid(s)
    ensures SavedValid(s.(saved := RemovePair(s.saved, userId, contentId)))
  {
    var s' := s.(saved := RemovePair(s.saved, userId, contentId));
    RemovePairKeepsOrder(s.saved, userId, contentId);
    assert Chronological(s.saved);
    forall k | 0 <= k < |s'.saved|
      ensures s'.saved[k].id < s'.nextId && s'.saved[k].savedAt < s'.clock
      ensures UserExists(s', s'.saved[k].userId) && ContentExists(s', s'.saved[k].contentId)
    {
      assert s'.saved[k] in s.saved;
      var i :| 0 <= i < |s.saved| && s.saved[i] == s'.saved[k];
    }
  }

  // ---------------------------------------------------------------------
  // Saved listing

  /** The progress columns of the left join: all NULL when the item has no
      progress row for the user. */
  datatype JoinedProgress = JoinedProgress(
    id: Option<Id>, status: Option<ProgressStatus>, percentage: Option<int>, lastUpdated: Option<Timestamp>)

  function ColumnsOf(p: ProgressRow): JoinedProgress {
    JoinedProgress(Some(p.id), Some(p.status), Some(p.percentage), Some(p.lastUpdated))
  }

  const NullColumns: JoinedProgress := JoinedProgress(None, None, None, None)

  /** The mapping `getSavedContent` applies to the joined progress columns:
      no progress without an id; otherwise the row, with a missing status read
      as not started, a missing percentage as 0 and a missing time as `now`. */
  function ProgressFromColumns(cols: JoinedProgress, userId: Id, contentId: Id, now: Timestamp): (r: Option<ProgressRow>)
    ensures r.None? <==> cols.id.None?
    ensures r.Some? ==> r.value.userId == userId && r.value.contentId == contentId
    ensures r.Some? && cols.status.None? ==> r.value.status == DefaultStatus
    ensures r.Some? && cols.percentage.None? ==> r.value.percentage == DefaultPercentage
  {
    if cols.id.None? then None
    else Some(ProgressRow(cols.id.value, userId, contentId,
                          cols.status.GetOr(DefaultStatus), cols.percentage.GetOr(DefaultPercentage),
                          cols.lastUpdated.GetOr(now)))
  }

  /** A joined progress row comes back unchanged: the defaults apply only to
      NULL columns, which a real progress row never has. */
  lemma JoinedRowRoundTrip(p: ProgressRow, now: Timestamp)
    ensures ProgressFromColumns(ColumnsOf(p), p.userId, p.contentId, now) == Some(p)
  {
  }

  predicate ProgressFor(p: ProgressRow, userId: Id, contentId: Id) {
    p.userId == userId && p.contentId == contentId
  }

  function ProgressRowsFor(rows: seq<ProgressRow>, userId: Id, contentId: Id): (r: seq<ProgressRow>)
    ensures forall x :: x in r <==> x in rows && ProgressFor(x, userId, contentId)
    ensures forall x :: multiset(r)[x] == if ProgressFor(x, userId, contentId) then multiset(rows)[x] else 0
  {
    if |rows| == 0 then []
    else
      assert rows == [rows[0]] + rows[1..];
      if ProgressFor(rows[0], userId, contentId) then [rows[0]] + ProgressRowsFor(rows[1..], userId, contentId)
      else ProgressRowsFor(rows[1..], userId, contentId)
  }

  /** The user's saved rows. */
  function SavedRowsOf(rows: seq<SavedRow>, userId: Id): (r: seq<SavedRow>)
    ensures forall x :: x in r <==> x in rows && x.userId == userId
    ensures forall x :: multiset(r)[x] == if x.userId == userId then multiset(rows)[x] else 0
  {
    if |rows| == 0 then []
    else
      assert rows == [rows[0]] + rows[1..];
      if rows[0].userId == userId then [rows[0]] + SavedRowsOf(rows[1..], userId)
      else SavedRowsOf(rows[1..], userId)
  }

  /** `ORDER BY saved_at DESC`. */
  predicate SavedLater(a: SavedRow, b: SavedRow) {
    a.savedAt >= b.savedAt
  }

  /** The user's saved rows, most recently saved first. */
  function SavedNewestFirst(s: Store, userId: Id): (r: seq<SavedRow>)
    ensures forall x :: x in r <==> x in s.saved && x.userId == userId
    ensures forall i, j :: 0 <= i < j < |r| ==> r[i].savedAt >= r[j].savedAt
    ensures forall x :: multiset(r)[x] == if x.userId == userId then multiset(s.saved)[x] else 0
    ensures |r| == |SavedRowsOf(s.saved, userId)|
  {
    var mine := SavedRowsOf(s.saved, userId);
    var r := Sorting.Sort(mine, SavedLater);
    Sorting.SortIsOrdered(mine, SavedLater);
    assert forall x :: x in r <==> x in multiset(r);
    r
  }

  /** The items the left join gives for content `c`: one per progress row
      of the pair, each with the row's columns mapped back. */
  function ItemsWithProgress(c: Content, ps: seq<ProgressRow>, userId: Id, now: Timestamp): (r: seq<ContentWithProgress>)
    ensures |r| == |ps|
    ensures forall i :: 0 <= i < |r| ==> r[i] == ContentWithProgress(c, ProgressFromColumns(ColumnsOf(ps[i]), userId, c.id, now), true)
  {
    if |ps| == 0 then []
    else [ContentWithProgress(c, ProgressFromColumns(ColumnsOf(ps[0]), userId, c.id, now), true)]
         + ItemsWithProgress(c, ps[1..], userId, now)
  }

  /** The listing items one saved row produces: the inner join drops a row
      whose content is gone; the left join gives one item per matching
      progress row, or a single item without progress. */
  function ItemsForSavedRow(s: Store, row: SavedRow): (r: seq<ContentWithProgress>)
    ensures forall x :: x in r ==>
      && x.isSaved && x.content in s.contents && x.content.id == row.contentId
      && (x.progress.Some? ==> x.progress.value in s.progress && ProgressFor(x.progress.value, row.userId, row.contentId))
    ensures GetContent(s, row.contentId).None? ==> r == []
    ensures GetContent(s, row.contentId).Some? && ProgressRowsFor(s.progress, row.userId, row.contentId) == [] ==>
      r == [ContentWithProgress(GetContent(s, row.contentId).value, None, true)]
    ensures GetContent(s, row.contentId).Some? && ProgressRowsFor(s.progress, row.userId, row.contentId) != [] ==>
      var c := GetContent(s, row.contentId).value;
      var ps := ProgressRowsFor(s.progress, row.userId, row.contentId);
      && |r| == |ps|
      && forall i :: 0 <= i < |r| ==> r[i] == ContentWithProgress(c, Some(ps[i]), true)
  {
    match GetContent(s, row.contentId)
    case None => []
    case Some(c) => ItemsForContent(s, c, row.userId)
  }

  /** The left join of one stored item with the user's progress rows on it. */
  function ItemsForContent(s: Store, c: Content, userId: Id): (r: seq<ContentWithProgress>)
    ensures var ps := ProgressRowsFor(s.progress, userId, c.id);
      && (ps == [] ==> r == [ContentWithProgress(c, None, true)])
      && (ps != [] ==> |r| == |ps| && forall i :: 0 <= i < |r| ==> r[i] == ContentWithProgress(c, Some(ps[i]), true))
      && forall x :: x in r ==>
        && x.isSaved && x.content == c
        && (x.progress.Some? ==> x.progress.value in s.progress && ProgressFor(x.progress.value, userId, c.id))
  {
    var ps := ProgressRowsFor(s.progress, userId, c.id);
    if |ps| == 0 then
      [ContentWithProgress(c, ProgressFromColumns(NullColumns, userId, c.id, s.clock), true)]
    else
      ItemsWithStoredProgress(s, c, userId);
      ItemsWithProgress(c, ps, userId, s.clock)
  }

  /** The left join reads back each of the user's stored progress rows on
      the item unchanged. */
  lemma ItemsWithStoredProgress(s: Store, c: Content, userId: Id)
    ensures var ps := ProgressRowsFor(s.progress, userId, c.id);
      var r := ItemsWithProgress(c, ps, userId, s.clock);
      && |r| == |ps|
      && (forall i :: 0 <= i < |r| ==> r[i] == ContentWithProgress(c, Some(ps[i]), true))
      && forall x :: x in r ==>
        && x.isSaved && x.content == c
        && x.progress.Some? && x.progress.value in s.progress && ProgressFor(x.progress.value, userId, c.id)
  {
    var ps := ProgressRowsFor(s.progress, userId, c.id);
    var r := ItemsWithProgress(c, ps, userId, s.clock);
    assert forall i :: 0 <= i < |ps| ==> ps[i] in s.progress && ProgressFor(ps[i], userId, c.id);
    forall i | 0 <= i < |ps| ensures ProgressFromColumns(ColumnsOf(ps[i]), userId, c.id, s.clock) == Some(ps[i]) {
      JoinedRowRoundTrip(ps[i], s.clock);
    }
    forall x | x in r
      ensures x.isSaved && x.content == c
      ensures x.progress.Some? && x.progress.value in s.progress && ProgressFor(x.progress.value, userId, c.id)
    {
      var i :| 0 <= i < |r| && r[i] == x;
    }
  }

  /** The listing items of several saved rows of one user, in row order. */
  function ItemsForSavedRows(s: Store, rows: seq<SavedRow>, userId: Id): (r: seq<ContentWithProgress>)
    requires forall k :: 0 <= k < |rows| ==> rows[k] in s.saved && rows[k].userId == userId
    ensures forall x :: x in r ==>
      && x.isSaved && x.content in s.contents && IsContentSaved(s, userId, x.content.id)
      && (x.progress.Some? ==> x.progress.value in s.progress && ProgressFor(x.progress.value, userId, x.content.id))
  {
    if |rows| == 0 then []
    else
      var head := ItemsForSavedRow(s, rows[0]);
      var i :| 0 <= i < |s.saved| && s.saved[i] == rows[0];
      assert SavedFor(s.saved[i], userId, rows[0].contentId);
      head + ItemsForSavedRows(s, rows[1..], userId)
  }

  /** `getSavedContent`: the user's saved items, most recently saved first,
      each marked saved, carrying the user's progress on it when there is any. */
  function GetSavedContent(s: Store, userId: Id): (r: seq<ContentWithProgress>)
    ensures forall x :: x in r ==>
      && x.isSaved && x.content in s.contents
      && IsContentSaved(s, userId, x.content.id)
      && (x.progress.Some? ==> x.progress.value in s.progress && ProgressFor(x.progress.value, userId, x.content.id))
  {
    ItemsForSavedRows(s, SavedNewestFirst(s, userId), userId)
  }

  lemma {:induction false} ItemsForSavedRowsContains(s: Store, rows: seq<SavedRow>, userId: Id, k: nat)
    requires forall j :: 0 <= j < |rows| ==> rows[j] in s.saved && rows[j].userId == userId
    requires k < |rows|
    ensures forall x :: x in ItemsForSavedRow(s, rows[k]) ==> x in ItemsForSavedRows(s, rows, userId)
  {
    var all := ItemsForSavedRows(s, rows, userId);
    var head := ItemsForSavedRow(s, rows[0]);
    var tail := ItemsForSavedRows(s, rows[1..], userId);
    assert all == head + tail;
    if k > 0 {
      ItemsForSavedRowsContains(s, rows[1..], userId, k - 1);
      assert rows[1..][k - 1] == rows[k];
    }
  }

  /** A saved row whose content exists gives an item for each progress row
      of the pair, or one item without progress when there is none. */
  lemma ItemsForSavedRowComplete(s: Store, row: SavedRow)
    requires GetContent(s, row.contentId).Some?
    ensures var c := GetContent(s, row.contentId).value;
      && (ProgressRowsFor(s.progress, row.userId, row.contentId) == [] ==>
            ContentWithProgress(c, None, true) in ItemsForSavedRow(s, row))
      && (forall p :: p in s.progress && ProgressFor(p, row.userId, row.contentId) ==>
            ContentWithProgress(c, Some(p), true) in ItemsForSavedRow(s, row))
    ensures var ps := ProgressRowsFor(s.progress, row.userId, row.contentId);
      && |ItemsForSavedRow(s, row)| == (if ps == [] then 1 else |ps|)
      && (ps != [] ==> forall x :: x in ItemsForSavedRow(s, row) ==> x.progress.Some?)
  {
    var c := GetContent(s, row.contentId).value;
    var ps := ProgressRowsFor(s.progress, row.userId, row.contentId);
    var items := ItemsForSavedRow(s, row);
    forall p | p in s.progress && ProgressFor(p, row.userId, row.contentId)
      ensures ContentWithProgress(c, Some(p), true) in items
    {
      assert p in ps;
      var i :| 0 <= i < |ps| && ps[i] == p;
      assert items == ItemsWithProgress(c, ps, row.userId, s.clock);
      JoinedRowRoundTrip(p, s.clock);
      assert items[i] == ContentWithProgress(c, Some(p), true);
    }
  }

  /** With one progress row per pair, a pair has at most one row. */
  lemma {:induction false} ProgressRowsForAtMostOne(rows: seq<ProgressRow>, userId: Id, contentId: Id)
    requires forall i, j :: 0 <= i < j < |rows| ==> !ProgressFor(rows[j], rows[i].userId, rows[i].contentId)
    ensures |ProgressRowsFor(rows, userId, contentId)| <= 1
  {
    if |rows| > 0 {
      var rest := rows[1..];
      if ProgressFor(rows[0], userId, contentId) {
        forall x | x in rest ensures !ProgressFor(x, userId, contentId) {
          var j :| 0 <= j < |rest| && rest[j] == x;
          assert rows[j + 1] == x;
        }
        assert ProgressRowsFor(rest, userId, contentId) == [];
      } else {
        assert forall i, j :: 0 <= i < j < |rest| ==> rows[i + 1] == rest[i] && rows[j + 1] == rest[j];
        ProgressRowsForAtMostOne(rest, userId, contentId);
      }
    }
  }

  /** A sequence whose positions hold different values holds each value at
      most once. */
  lemma {:induction false} DistinctCountAtMostOne<T>(xs: seq<T>, x: T)
    requires forall i, j :: 0 <= i < j < |xs| ==> xs[i] != xs[j]
    ensures multiset(xs)[x] <= 1
  {
    if |xs| > 0 {
      var rest := xs[1..];
      assert xs == [xs[0]] + rest;
      assert forall i, j :: 0 <= i < j < |rest| ==> xs[i + 1] == rest[i] && xs[j + 1] == rest[j];
      DistinctCountAtMostOne(rest, x);
      if xs[0] == x {
        forall j | 0 <= j < |rest| ensures rest[j] != x {
          assert xs[j + 1] != xs[0];
        }
      }
    }
  }

  /** A sequence holding each value at most once has different values at
      different positions. */
  lemma CountAtMostOneDistinct<T>(xs: seq<T>, i: int, j: int)
    requires forall x :: multiset(xs)[x] <= 1
    requires 0 <= i < j < |xs|
    ensures xs[i] != xs[j]
  {
    assert xs == xs[..i] + [xs[i]] + xs[i + 1..j] + [xs[j]] + xs[j + 1..];
    assert multiset(xs) == multiset(xs[..i]) + multiset{xs[i]} + multiset(xs[i + 1..j]) + multiset{xs[j]} + multiset(xs[j + 1..]);
    assert multiset(xs)[xs[i]] >= 1 + multiset{xs[j]}[xs[i]];
  }

  /** In a valid store without duplicate saves, the user's saved rows, in
      listing order, name different items. */
  lemma SavedRowsDistinctItems(s: Store, userId: Id)
    requires Valid(s) && NoDuplicateSaves(s)
    ensures var rows := SavedNewestFirst(s, userId);
      forall a, b :: 0 <= a < b < |rows| ==> rows[a].contentId != rows[b].contentId
  {
    var rows := SavedNewestFirst(s, userId);
    NewestRowsOnce(s, userId);
    forall a, b | 0 <= a < b < |rows| ensures rows[a].contentId != rows[b].contentId {
      CountAtMostOneDistinct(rows, a, b);
      DifferentSavedRowsDifferentItems(s, rows[a], rows[b]);
    }
  }

  /** In a valid store each saved row occurs once, and so it does among a
      user's rows in listing order. */
  lemma NewestRowsOnce(s: Store, userId: Id)
    requires Valid(s)
    ensures forall x :: multiset(SavedNewestFirst(s, userId))[x] <= 1
  {
    forall x ensures multiset(s.saved)[x] <= 1 {
      assert forall i, j :: 0 <= i < j < |s.saved| ==> s.saved[i].id < s.saved[j].id;
      DistinctCountAtMostOne(s.saved, x);
    }
  }

  /** Two different saved rows of one user name different items when no
      pair is saved twice. */
  lemma DifferentSavedRowsDifferentItems(s: Store, x: SavedRow, y: SavedRow)
    requires NoDuplicateSaves(s)
    requires x in s.saved && y in s.saved && x != y && x.userId == y.userId
    ensures x.contentId != y.contentId
  {
    var p :| 0 <= p < |s.saved| && s.saved[p] == x;
    var q :| 0 <= q < |s.saved| && s.saved[q] == y;
    if p < q {
      assert !SavedFor(s.saved[q], s.saved[p].userId, s.saved[p].contentId);
    } else {
      assert !SavedFor(s.saved[p], s.saved[q].userId, s.saved[q].contentId);
    }
  }

  /** With one progress row per pair, every saved row whose content exists
      gives exactly one item, carrying that row's item. */
  lemma {:induction false} ItemsOnePerRow(s: Store, rows: seq<SavedRow>, userId: Id)
    requires forall k :: 0 <= k < |rows| ==> rows[k] in s.saved && rows[k].userId == userId
    requires forall k :: 0 <= k < |rows| ==> GetContent(s, rows[k].contentId).Some?
    requires ProgressUnique(s)
    ensures var items := ItemsForSavedRows(s, rows, userId);
      |items| == |rows| && forall k :: 0 <= k < |rows| ==> items[k].content.id == rows[k].contentId
  {
    if |rows| > 0 {
      var head := ItemsForSavedRow(s, rows[0]);
      var rest := rows[1..];
      var tail := ItemsForSavedRows(s, rest, userId);
      assert ItemsForSavedRows(s, rows, userId) == head + tail;
      OneItemForRow(s, rows[0]);
      ItemsOnePerRow(s, rest, userId);
      assert forall k :: 1 <= k < |rows| ==> rest[k - 1] == rows[k];
    }
  }

  /** With one progress row per pair, a saved row whose content exists
      gives one item, for its own content. */
  lemma OneItemForRow(s: Store, row: SavedRow)
    requires GetContent(s, row.contentId).Some?
    requires ProgressUnique(s)
    ensures var head := ItemsForSavedRow(s, row); |head| == 1 && head[0].content.id == row.contentId
  {
    ProgressRowsForAtMostOne(s.progress, row.userId, row.contentId);
  }

  /** In a store whose saved pairs and progress pairs are unique (the
      invariants the routes keep), the listing has one item per saved row
      of the user, and no item twice: with the completeness and soundness
      lemmas, every saved item is listed exactly once. */
  lemma SavedListingOnce(s: Store, userId: Id)
    requires Valid(s) && NoDuplicateSaves(s) && ProgressUnique(s)
    ensures var items := GetSavedContent(s, userId);
      && |items| == |SavedRowsOf(s.saved, userId)|
      && forall i, j :: 0 <= i < j < |items| ==> items[i].content.id != items[j].content.id
  {
    var rows := SavedNewestFirst(s, userId);
    SavedRowsHaveContent(s, userId);
    ItemsOnePerRow(s, rows, userId);
    SavedRowsDistinctItems(s, userId);
  }

  /** In a valid store every saved row's item exists. */
  lemma SavedRowsHaveContent(s: Store, userId: Id)
    requires Valid(s)
    ensures var rows := SavedNewestFirst(s, userId);
      forall k :: 0 <= k < |rows| ==> GetContent(s, rows[k].contentId).Some?
  {
    var rows := SavedNewestFirst(s, userId);
    forall k | 0 <= k < |rows| ensures GetContent(s, rows[k].contentId).Some? {
      assert rows[k] in s.saved;
      var p :| 0 <= p < |s.saved| && s.saved[p] == rows[k];
      assert ContentExists(s, s.saved[p].contentId);
    }
  }

  /** Every saved item whose content exists shows up in the listing: once
      with each of the user's progress rows on it, or once without progress
      when the user has none. */
  lemma SavedListingComplete(s: Store, row: SavedRow)
    requires row in s.saved && GetContent(s, row.contentId).Some?
    ensures var c := GetContent(s, row.contentId).value;
      && (ProgressRowsFor(s.progress, row.userId, row.contentId) == [] ==>
            ContentWithProgress(c, None, true) in GetSavedContent(s, row.userId))
      && (forall p :: p in s.progress && ProgressFor(p, row.userId, row.contentId) ==>
            ContentWithProgress(c, Some(p), true) in GetSavedContent(s, row.userId))
  {
    var rows := SavedNewestFirst(s, row.userId);
    assert row in rows;
    var k :| 0 <= k < |rows| && rows[k] == row;
    assert forall x :: x in ItemsForSavedRow(s, row) ==> x in GetSavedContent(s, row.userId) by {
      ItemsForSavedRowsContains(s, rows, row.userId, k);
    }
    ItemsForSavedRowComplete(s, row);
  }

  /** Items `i` and `j` of a listing were produced by rows `a <= b`. */
  ghost predicate ProducedInOrder(items: seq<ContentWithProgress>, rows: seq<SavedRow>, i: int, j: int)
    requires 0 <= i < |items| && 0 <= j < |items|
  {
    exists a, b :: 0 <= a <= b < |rows| && items[i].content.id == rows[a].contentId && items[j].content.id == rows[b].contentId
  }

  /** The items of several saved rows come in the order of the rows: for
      any two positions of the listing there are rows, the first no later
      than the second, that produced them. */
  lemma {:induction false} ItemsKeepRowOrder(s: Store, rows: seq<SavedRow>, userId: Id)
    requires forall k :: 0 <= k < |rows| ==> rows[k] in s.saved && rows[k].userId == userId
    ensures var items := ItemsForSavedRows(s, rows, userId);
      forall i, j :: 0 <= i <= j < |items| ==> ProducedInOrder(items, rows, i, j)
  {
    if |rows| > 0 {
      var items := ItemsForSavedRows(s, rows, userId);
      var head := ItemsForSavedRow(s, rows[0]);
      var tail := ItemsForSavedRows(s, rows[1..], userId);
      assert items == head + tail;
      var rest := rows[1..];
      ItemsKeepRowOrder(s, rest, userId);
      assert forall i', j' :: 0 <= i' <= j' < |ItemsForSavedRows(s, rest, userId)| ==> ProducedInOrder(ItemsForSavedRows(s, rest, userId), rest, i', j');
      assert tail == ItemsForSavedRows(s, rest, userId);
      assert forall i', j' :: 0 <= i' <= j' < |tail| ==> ProducedInOrder(tail, rest, i', j');
      forall i, j | 0 <= i <= j < |items| ensures ProducedInOrder(items, rows, i, j) {
        ItemsKeepRowOrderStep(rows, head, tail, i, j);
      }
    }
  }

  lemma ItemsKeepRowOrderStep(rows: seq<SavedRow>, head: seq<ContentWithProgress>, tail: seq<ContentWithProgress>, i: int, j: int)
    requires |rows| > 0 && 0 <= i <= j < |head| + |tail|
    requires forall x :: x in head ==> x.content.id == rows[0].contentId
    requires forall i', j' :: 0 <= i' <= j' < |tail| ==> ProducedInOrder(tail, rows[1..], i', j')
    ensures ProducedInOrder(head + tail, rows, i, j)
  {
    var items := head + tail;
    if j < |head| {
      assert head[i] in head && head[j] in head;
      assert items[i].content.id == rows[0].contentId && items[j].content.id == rows[0].contentId;
    } else {
      var j' := j - |head|;
      assert items[j] == tail[j'];
      if i < |head| {
        assert head[i] in head;
        assert ProducedInOrder(tail, rows[1..], j', j');
        var a', b' :| 0 <= a' <= b' < |rows[1..]| && tail[j'].content.id == rows[1..][a'].contentId && tail[j'].content.id == rows[1..][b'].contentId;
        assert items[i].content.id == rows[0].contentId && items[j].content.id == rows[b' + 1].contentId;
      } else {
        var i' := i - |head|;
        assert items[i] == tail[i'];
        assert ProducedInOrder(tail, rows[1..], i', j');
        var a', b' :| 0 <= a' <= b' < |rows[1..]| && tail[i'].content.id == rows[1..][a'].contentId && tail[j'].content.id == rows[1..][b'].contentId;
        assert items[i].content.id == rows[a' + 1].contentId && items[j].content.id == rows[b' + 1].contentId;
      }
    }
  }

  /** The listing is most recently saved first: an item comes before
      another only when the user saved it no earlier. With one saved row
      per pair these are the save times of the two items. */
  lemma SavedListingNewestFirst(s: Store, userId: Id)
    ensures var items := GetSavedContent(s, userId);
      forall i, j :: 0 <= i < j < |items| ==> SavedNoLater(s, userId, items[i], items[j])
  {
    var rows := SavedNewestFirst(s, userId);
    var items := GetSavedContent(s, userId);
    assert forall k :: 0 <= k < |rows| ==> rows[k] in rows;
    ItemsKeepRowOrder(s, rows, userId);
    assert items == ItemsForSavedRows(s, rows, userId);
    forall i, j | 0 <= i < j < |items| ensures SavedNoLater(s, userId, items[i], items[j]) {
      assert ProducedInOrder(items, rows, i, j);
      var a, b :| 0 <= a <= b < |rows| && items[i].content.id == rows[a].contentId && items[j].content.id == rows[b].contentId;
      RowsGiveOrder(s, userId, rows, a, b, items[i], items[j]);
    }
  }

  /** The user saved `x` no earlier than `y`: some saved row of `x` is at
      least as recent as some saved row of `y`. */
  ghost predicate SavedNoLater(s: Store, userId: Id, x: ContentWithProgress, y: ContentWithProgress) {
    exists ra, rb :: ra in s.saved && rb in s.saved
      && SavedFor(ra, userId, x.content.id) && SavedFor(rb, userId, y.content.id)
      && ra.savedAt >= rb.savedAt
  }

  lemma RowsGiveOrder(s: Store, userId: Id, rows: seq<SavedRow>, a: int, b: int, x: ContentWithProgress, y: ContentWithProgress)
    requires forall r :: r in rows ==> r in s.saved && r.userId == userId
    requires forall i, j :: 0 <= i < j < |rows| ==> rows[i].savedAt >= rows[j].savedAt
    requires 0 <= a <= b < |rows| && x.content.id == rows[a].contentId && y.content.id == rows[b].contentId
    ensures SavedNoLater(s, userId, x, y)
  {
    assert rows[a] in rows && rows[b] in rows;
    assert SavedFor(rows[a], userId, x.content.id) && SavedFor(rows[b], userId, y.content.id);
    assert rows[a].savedAt >= rows[b].savedAt;
  }

  /** `isContentSaved` and the listing agree: a listed item is saved, and on
      a valid store every saved item is listed. */
  lemma SavedIffListed(s: Store, userId: Id)
    ensures forall contentId :: (exists x :: x in GetSavedContent(s, userId) && x.content.id == contentId) ==>
      IsContentSaved(s, userId, contentId)
    ensures Valid(s) ==> forall contentId :: IsContentSaved(s, userId, contentId) ==>
      exists x :: x in GetSavedContent(s, userId) && x.content.id == contentId
  {
    forall contentId | Valid(s) && IsContentSaved(s, userId, contentId)
      ensures exists x :: x in GetSavedContent(s, userId) && x.content.id == contentId
    {
      var i :| 0 <= i < |s.saved| && SavedFor(s.saved[i], userId, contentId);
      var row := s.saved[i];
      assert ContentExists(s, contentId);
      var c := GetContent(s, contentId).value;
      SavedListingComplete(s, row);
      var ps := ProgressRowsFor(s.progress, userId, contentId);
      if ps == [] {
        assert ContentWithProgress(c, None, true) in GetSavedContent(s, userId);
      } else {
        assert ps[0] in ps;
        assert ContentWithProgress(c, Some(ps[0]), true) in GetSavedContent(s, userId);
      }
    }
  }

  // ---------------------------------------------------------------------
  // Progress

  /** Overwrites status, percentage and update time of every row of the pair. */
  function OverwritePair(rows: seq<ProgressRow>, userId: Id, contentId: Id, status: ProgressStatus, percentage: int, now: Timestamp)
    : (r: seq<ProgressRow>)
    ensures |r| == |rows|
    ensures forall i :: 0 <= i < |rows| ==>
      && r[i].id == rows[i].id && r[i].userId == rows[i].userId && r[i].contentId == rows[i].contentId
      && (ProgressFor(rows[i], userId, contentId) ==>
            r[i].status == status && r[i].percentage == percentage && r[i].lastUpdated == now)
    ensures forall i :: 0 <= i < |rows| ==>
      if ProgressFor(rows[i], userId, contentId)
      then r[i] == rows[i].(status := status, percentage := percentage, lastUpdated := now)
      else r[i] == rows[i]
  {
    seq(|rows|, i requires 0 <= i < |rows| =>
      if ProgressFor(rows[i], userId, contentId)
      then rows[i].(status := status, percentage := percentage, lastUpdated := now)
      else rows[i])
  }

  function FirstProgressIndex(rows: seq<ProgressRow>, userId: Id, contentId: Id): (k: nat)
    requires exists i :: 0 <= i < |rows| && ProgressFor(rows[i], userId, contentId)
    ensures k < |rows| && ProgressFor(rows[k], userId, contentId)
  {
    if ProgressFor(rows[0], userId, contentId) then 0
    else 1 + FirstProgressIndex(rows[1..], userId, contentId)
  }

  predicate HasProgress(s: Store, userId: Id, contentId: Id) {
    exists i :: 0 <= i < |s.progress| && ProgressFor(s.progress[i], userId, contentId)
  }

  /** At most one progress row per pair. */
  ghost predicate ProgressUnique(s: Store) {
    forall i, j :: 0 <= i < j < |s.progress| ==>
      !ProgressFor(s.progress[j], s.progress[i].userId, s.progress[i].contentId)
  }

  /** `updateProgress`: an upsert on the pair. Existing rows of the pair get
      the new status and percentage; otherwise one row is inserted, which
      needs both references to resolve. The returned row carries the given
      values, and the rows of every other pair are untouched. */
  function UpdateProgress(s: Store, userId: Id, contentId: Id, status: ProgressStatus, percentage: int)
    : (r: Result<(ProgressRow, Store), DbError>)
    ensures r.Failure? <==> !HasProgress(s, userId, contentId) && (GetContent(s, contentId).None? || !UserExists(s, userId))
    ensures r.Success? ==>
      var (row, s') := r.value;
      && ProgressFor(row, userId, contentId) && row.status == status && row.percentage == percentage
      && row in s'.progress
      && s'.users == s.users && s'.contents == s.contents && s'.saved == s.saved
      && (HasProgress(s, userId, contentId) ==> |s'.progress| == |s.progress|)
      && (!HasProgress(s, userId, contentId) ==> s'.progress == s.progress + [row])
      && (forall i :: 0 <= i < |s.progress| && !ProgressFor(s.progress[i], userId, contentId) ==> s'.progress[i] == s.progress[i])
      && (forall i :: 0 <= i < |s.progress| && ProgressFor(s.progress[i], userId, contentId) ==>
            ProgressFor(s'.progress[i], userId, contentId)
            && s'.progress[i].status == status && s'.progress[i].percentage == percentage)
    ensures r.Success? && Valid(s) ==> Valid(r.value.1) && Grows(s, r.value.1)
    ensures r.Success? && ProgressUnique(s) ==> ProgressUnique(r.value.1)
  {
    if HasProgress(s, userId, contentId) then
      var rows := OverwritePair(s.progress, userId, contentId, status, percentage, s.clock);
      var s' := s.(progress := rows, clock := s.clock + 1);
      var k := FirstProgressIndex(s.progress, userId, contentId);
      OverwriteOutcome(s, userId, contentId, status, percentage);
      Success((rows[k], s'))
    else
      var userFound := exists x :: x in s.users && x.id == userId;
      if GetContent(s, contentId).None? || !userFound then Failure(ForeignKeyViolation)
      else
        var row := ProgressRow(s.nextId, userId, contentId, status, percentage, s.clock);
        var s' := s.(progress := s.progress + [row], nextId := s.nextId + 1, clock := s.clock + 1);
        InsertOutcome(s, row);
        Success((row, s'))
  }

  /** The update branch of `UpdateProgress`: the pair's rows are rewritten
      in place and every other row, table and invariant is kept. */
  lemma OverwriteOutcome(s: Store, userId: Id, contentId: Id, status: ProgressStatus, percentage: int)
    requires HasProgress(s, userId, contentId)
    ensures var s' := s.(progress := OverwritePair(s.progress, userId, contentId, status, percentage, s.clock), clock := s.clock + 1);
      var row := s'.progress[FirstProgressIndex(s.progress, userId, contentId)];
      && ProgressFor(row, userId, contentId) && row.status == status && row.percentage == percentage
      && row in s'.progress
      && |s'.progress| == |s.progress|
      && (forall i :: 0 <= i < |s.progress| && !ProgressFor(s.progress[i], userId, contentId) ==> s'.progress[i] == s.progress[i])
      && (forall i :: 0 <= i < |s.progress| && ProgressFor(s.progress[i], userId, contentId) ==>
            ProgressFor(s'.progress[i], userId, contentId)
            && s'.progress[i].status == status && s'.progress[i].percentage == percentage)
      && (Valid(s) ==> Valid(s') && Grows(s, s'))
      && (ProgressUnique(s) ==> ProgressUnique(s'))
  {
    OverwriteKeepsValid(s, userId, contentId, status, percentage);
    OverwriteKeepsUnique(s, userId, contentId, status, percentage);
  }

  /** The insert branch of `UpdateProgress`: one row appended, and the
      invariants kept when it is new for its pair and its references resolve. */
  lemma InsertOutcome(s: Store, row: ProgressRow)
    requires row.id == s.nextId && row.lastUpdated == s.clock
    requires UserExists(s, row.userId) && ContentExists(s, row.contentId)
    requires !HasProgress(s, row.userId, row.contentId)
    ensures var s' := s.(progress := s.progress + [row], nextId := s.nextId + 1, clock := s.clock + 1);
      && row in s'.progress
      && (forall i :: 0 <= i < |s.progress| ==> s'.progress[i] == s.progress[i])
      && (Valid(s) ==> Valid(s') && Grows(s, s'))
      && (ProgressUnique(s) ==> ProgressUnique(s'))
  {
    var s' := s.(progress := s.progress + [row], nextId := s.nextId + 1, clock := s.clock + 1);
    assert s'.progress[|s.progress|] == row;
    AddProgressKeepsValid(s, row);
  }

  lemma OverwriteKeepsValid(s: Store, userId: Id, contentId: Id, status: ProgressStatus, percentage: int)
    ensures var s' := s.(progress := OverwritePair(s.progress, userId, contentId, status, percentage, s.clock), clock := s.clock + 1);
      Valid(s) ==> Valid(s')
  {
    var rows := OverwritePair(s.progress, userId, contentId, status, percentage, s.clock);
    var s' := s.(progress := rows, clock := s.clock + 1);
    if Valid(s) {
      forall i | 0 <= i < |rows| ensures UserExists(s', rows[i].userId) && ContentExists(s', rows[i].contentId) {
        assert rows[i].userId == s.progress[i].userId && rows[i].contentId == s.progress[i].contentId;
      }
    }
  }

  lemma OverwriteKeepsUnique(s: Store, userId: Id, contentId: Id, status: ProgressStatus, percentage: int)
    ensures var s' := s.(progress := OverwritePair(s.progress, userId, contentId, status, percentage, s.clock), clock := s.clock + 1);
      ProgressUnique(s) ==> ProgressUnique(s')
  {
  }

  lemma AddProgressKeepsValid(s: Store, row: ProgressRow)
    requires row.id == s.nextId && row.lastUpdated == s.clock
    requires UserExists(s, row.userId) && ContentExists(s, row.contentId)
    ensures Valid(s) ==> Valid(s.(progress := s.progress + [row], nextId := s.nextId + 1, clock := s.clock + 1))
  {
  }

  /** `ORDER BY last_updated DESC`. */
  predicate UpdatedLater(a: ProgressRow, b: ProgressRow) {
    a.lastUpdated >= b.lastUpdated
  }

  function ProgressRowsOf(rows: seq<ProgressRow>, userId: Id): (r: seq<ProgressRow>)
    ensures |r| <= |rows|
    ensures forall x :: x in r <==> x in rows && x.userId == userId
    ensures forall x :: multiset(r)[x] == if x.userId == userId then multiset(rows)[x] else 0
  {
    if |rows| == 0 then []
    else
      assert rows == [rows[0]] + rows[1..];
      if rows[0].userId == userId then [rows[0]] + ProgressRowsOf(rows[1..], userId)
      else ProgressRowsOf(rows[1..], userId)
  }

  /** `getUserProgress`: the user's progress rows, most recently updated first. */
  function GetUserProgress(s: Store, userId: Id): (r: seq<ProgressRow>)
    ensures forall x :: x in r <==> x in s.progress && x.userId == userId
    ensures forall i, j :: 0 <= i < j < |r| ==> r[i].lastUpdated >= r[j].lastUpdated
    ensures forall x :: multiset(r)[x] == if x.userId == userId then multiset(s.progress)[x] else 0
  {
    var mine := ProgressRowsOf(s.progress, userId);
    var r := Sorting.Sort(mine, UpdatedLater);
    Sorting.SortIsOrdered(mine, UpdatedLater);
    assert forall x :: x in r <==> x in multiset(r);
    r
  }
}

=== FILE: text.dfy ===
/** String helpers the rest of the model is built on: ASCII case folding and
    case-insensitive substring search (the `ILIKE '%q%'` of the store and the
    `toLowerCase().includes` of the subject classifier), `Array.join`, decimal
    rendering of integers (template literals, `toString`), JavaScript's
    `parseInt` in base 10, and code-point ordering of titles. */
module Text {
  import opened Wrappers

  // ---------------------------------------------------------------------
  // Case folding and substring search

  /** ASCII lower-casing of one character; every other character is kept. */
  function LowerChar(c: char): char {
    if 'A' <= c <= 'Z' then (c as int + 32) as char else c
  }

  predicate IsUpper(c: char) {
    'A' <= c <= 'Z'
  }

  function ToLower(s: string): (r: string)
    ensures |r| == |s|
    ensures forall i :: 0 <= i < |s| ==> r[i] == LowerChar(s[i])
  {
    seq(|s|, i requires 0 <= i < |s| => LowerChar(s[i]))
  }

  /** Lower-casing leaves no upper-case letter behind and is idempotent. */
  lemma ToLowerNormalises(s: string)
    ensures forall i :: 0 <= i < |s| ==> !IsUpper(ToLower(s)[i])
    ensures ToLower(ToLower(s)) == ToLower(s)
  {
  }

  /** `sub` occurs in `s` starting at index `i`. */
  predicate OccursAt(s: string, sub: string, i: int) {
    0 <= i && i + |sub| <= |s| && s[i..i + |sub|] == sub
  }

  /** Substring search by scanning `s` from the left; its contract ties it to
      the positional definition. */
  function Contains(s: string, sub: string): (b: bool)
    ensures b <==> exists i :: OccursAt(s, sub, i)
    decreases |s|
  {
    if |sub| > |s| then
      assert forall i :: !OccursAt(s, sub, i);
      false
    else if s[..|sub|] == sub then
      assert OccursAt(s, sub, 0);
      true
    else
      OccursShift(s, sub);
      Contains(s[1..], sub)
  }

  /** Occurrences in the tail of `s` are the occurrences in `s` after index 0. */
  lemma OccursShift(s: string, sub: string)
    requires |s| > 0 && !OccursAt(s, sub, 0)
    ensures (exists j :: OccursAt(s[1..], sub, j)) <==> (exists i :: OccursAt(s, sub, i))
  {
    if j :| OccursAt(s[1..], sub, j) {
      assert s[1..][j..j + |sub|] == s[j + 1..j + 1 + |sub|];
      assert OccursAt(s, sub, j + 1);
    }
    if i :| OccursAt(s, sub, i) {
      assert i >= 1;
      assert s[i..i + |sub|] == s[1..][i - 1..i - 1 + |sub|];
      assert OccursAt(s[1..], sub, i - 1);
    }
  }

  /** A string that lacks one of `sub`'s characters does not contain `sub`. */
  lemma MissingCharNotContained(s: string, sub: string, c: char)
    requires c in sub && c !in s
    ensures !Contains(s, sub)
  {
  }

  /** ASCII case-insensitive substring test. */
  predicate ContainsIgnoringCase(s: string, sub: string) {
    Contains(ToLower(s), ToLower(sub))
  }

  /** Every string contains the empty string. */
  lemma ContainsEmpty(s: string)
    ensures Contains(s, "")
  {
    assert OccursAt(s, "", 0);
  }

  /** A string contains itself, whatever the case of its letters. */
  lemma ContainsIgnoringCaseSelf(s: string)
    ensures ContainsIgnoringCase(s, s)
  {
    assert OccursAt(ToLower(s), ToLower(s), 0);
  }

  // ---------------------------------------------------------------------
  // Joining

  function SumLengths(parts: seq<string>): nat {
    if |parts| == 0 then 0 else |parts[0]| + SumLengths(parts[1..])
  }

  /** `parts.join(sep)`: the parts in order with `sep` between neighbours. */
  function Join(parts: seq<string>, sep: string): (r: string)
    ensures |parts| == 0 ==> |r| == 0
    ensures |parts| > 0 ==> |r| == SumLengths(parts) + (|parts| - 1) * |sep|
  {
    if |parts| == 0 then ""
    else if |parts| == 1 then parts[0]
    else parts[0] + sep + Join(parts[1..], sep)
  }

  /** With a non-empty separator, a join is empty exactly when there is no
      part at all or a single empty part. */
  lemma JoinEmptyIff(parts: seq<string>, sep: string)
    requires sep != ""
    ensures Join(parts, sep) == "" <==> |parts| == 0 || (|parts| == 1 && parts[0] == "")
  {
    if |parts| >= 2 {
      assert |Join(parts, sep)| >= |sep|;
    }
  }

  // ---------------------------------------------------------------------
  // Decimal digits

  predicate IsDigit(c: char) {
    '0' <= c <= '9'
  }

  predicate AllDigits(s: string) {
    forall i :: 0 <= i < |s| ==> IsDigit(s[i])
  }

  function DigitChar(d: nat): (c: char)
    requires d < 10
    ensures IsDigit(c)
  {
    ('0' as int + d) as char
  }

  function DigitValue(c: char): (d: nat)
    requires IsDigit(c)
    ensures d < 10
  {
    c as int - '0' as int
  }

  /** The value of a run of decimal digits, most significant first. */
  function DigitsValue(ds: string): nat
    requires AllDigits(ds)
  {
    if |ds| == 0 then 0 else DigitsValue(ds[..|ds| - 1]) * 10 + DigitValue(ds[|ds| - 1])
  }

  /** Decimal rendering of a natural number without leading zeros. */
  function NatToString(n: nat): (r: string)
    ensures |r| > 0 && AllDigits(r)
    ensures r[0] != '0' || n == 0
  {
    if n < 10 then [DigitChar(n)] else NatToString(n / 10) + [DigitChar(n % 10)]
  }

  /** Decimal rendering of an integer, as `String(n)` writes it. */
  function IntToString(n: int): string {
    if n < 0 then "-" + NatToString(-n) else NatToString(n)
  }

  /** Reading back the digits of a rendered natural number gives the number. */
  lemma {:induction false} NatToStringValue(n: nat)
    ensures DigitsValue(NatToString(n)) == n
  {
    if n >= 10 {
      var r := NatToString(n);
      assert r[..|r| - 1] == NatToString(n / 10);
      NatToStringValue(n / 10);
      assert DigitValue(DigitChar(n % 10)) == n % 10;
    } else {
      assert DigitValue(DigitChar(n)) == n;
    }
  }

  // ---------------------------------------------------------------------
  // parseInt

  /** The ASCII white space `parseInt` skips: space, tab, line feed, vertical
      tab, form feed, carriage return. */
  predicate IsSpace(c: char) {
    c == ' ' || 9 <= c as int <= 13
  }

  function TrimStart(s: string): (r: string)
    ensures |r| <= |s| && r == s[|s| - |r|..]
    ensures |r| > 0 ==> !IsSpace(r[0])
  {
    if |s| > 0 && IsSpace(s[0]) then TrimStart(s[1..]) else s
  }

  /** The longest prefix of `s` made of decimal digits. */
  function LeadingDigits(s: string): (r: string)
    ensures |r| <= |s| && r == s[..|r|] && AllDigits(r)
    ensures |r| < |s| ==> !IsDigit(s[|r|])
  {
    if |s| > 0 && IsDigit(s[0]) then [s[0]] + LeadingDigits(s[1..]) else ""
  }

  /** `parseInt(s)` with the default radix on decimal input: leading white
      space is skipped, one optional sign is read, then the longest run of
      digits; `None` stands for `NaN`, which is what `parseInt` returns when
      no digit follows. */
  function ParseInt(s: string): Option<int> {
    var t := TrimStart(s);
    var u := Unsigned(t);
    var ds := LeadingDigits(u);
    var v: int := if |ds| == 0 then 0 else DigitsValue(ds);
    if |ds| == 0 then None
    else if |t| > 0 && t[0] == '-' then Some(-v)
    else Some(v)
  }

  /** `parseInt` gives a number exactly when, after the blanks and one
      sign, a digit comes. */
  lemma ParseIntNumberIff(s: string)
    ensures ParseInt(s).Some? <==> |Unsigned(TrimStart(s))| > 0 && IsDigit(Unsigned(TrimStart(s))[0])
  {
  }

  /** The text after one optional leading sign. */
  function Unsigned(t: string): (u: string)
    ensures |u| <= |t|
  {
    if |t| > 0 && (t[0] == '-' || t[0] == '+') then t[1..] else t
  }

  lemma LeadingDigitsOfDigits(s: string)
    requires AllDigits(s)
    ensures LeadingDigits(s) == s
  {
  }

  /** The leading digits of `digits + rest` are `digits` when `rest` does
      not start with a digit. */
  lemma LeadingDigitsStop(digits: string, rest: string)
    requires AllDigits(digits)
    requires |rest| == 0 || !IsDigit(rest[0])
    ensures LeadingDigits(digits + rest) == digits
  {
    if |digits| > 0 {
      assert (digits + rest)[1..] == digits[1..] + rest;
      LeadingDigitsStop(digits[1..], rest);
    }
  }

  /** How `parseInt` reads a text that starts with its digits or with one
      minus sign and its digits. */
  lemma ParseUnsignedDigits(t: string, digits: string, negative: bool)
    requires |digits| > 0 && AllDigits(digits)
    requires |t| > 0 && (if negative then t[0] == '-' else IsDigit(t[0]))
    requires LeadingDigits(if negative then t[1..] else t) == digits
    ensures ParseInt(t) == Some(if negative then 0 - DigitsValue(digits) else DigitsValue(digits) as int)
  {
    assert TrimStart(t) == t;
    assert Unsigned(t) == if negative then t[1..] else t;
  }

  /** Reading back a run of digits followed by text that is not a digit. */
  lemma ParseDigits(digits: string, rest: string)
    requires |digits| > 0 && AllDigits(digits)
    requires |rest| == 0 || !IsDigit(rest[0])
    ensures ParseInt(digits + rest) == Some(DigitsValue(digits) as int)
  {
    LeadingDigitsStop(digits, rest);
    assert (digits + rest)[0] == digits[0];
    ParseUnsignedDigits(digits + rest, digits, false);
  }

  /** Reading back a minus sign, a run of digits and text that is not a digit. */
  lemma ParseNegativeDigits(digits: string, rest: string)
    requires |digits| > 0 && AllDigits(digits)
    requires |rest| == 0 || !IsDigit(rest[0])
    ensures ParseInt("-" + (digits + rest)) == Some(0 - DigitsValue(digits))
  {
    var u := digits + rest;
    var t := "-" + u;
    LeadingDigitsStop(digits, rest);
    assert t[1..] == u;
    ParseUnsignedDigits(t, digits, true);
  }

  /** `parseInt` reads back a rendered integer, also when text that does not
      start with a digit follows it. */
  lemma ParseIntPrefix(n: int, rest: string)
    requires |rest| == 0 || !IsDigit(rest[0])
    ensures ParseInt(IntToString(n) + rest) == Some(n)
  {
    if n < 0 {
      ParseIntPrefixNegative(n, rest);
    } else {
      var digits := NatToString(n);
      NatToStringValue(n);
      ParseDigits(digits, rest);
    }
  }

  lemma ParseIntPrefixNegative(n: int, rest: string)
    requires n < 0
    requires |rest| == 0 || !IsDigit(rest[0])
    ensures ParseInt(IntToString(n) + rest) == Some(n)
  {
    var m: nat := -n;
    var digits := NatToString(m);
    NatToStringValue(m);
    assert DigitsValue(digits) == m;
    ParseNegativeDigits(digits, rest);
    assert ParseInt("-" + (digits + rest)) == Some(n);
    assert IntToString(n) == "-" + digits;
    Associate("-", digits, rest);
    assert IntToString(n) + rest == "-" + (digits + rest);
  }

  lemma Associate(a: string, b: string, c: string)
    ensures (a + b) + c == a + (b + c)
  {
  }

  /** `parseInt(String(n)) == n` for every integer. */
  lemma ParseIntRoundTrip(n: int)
    ensures ParseInt(IntToString(n)) == Some(n)
  {
    ParseIntPrefix(n, "");
    assert IntToString(n) + "" == IntToString(n);
  }

  /** Text that starts with something other than white space, a sign or a
      digit parses to `NaN`. */
  lemma ParseIntNaN(s: string)
    requires |s| > 0 && !IsSpace(s[0]) && !IsDigit(s[0]) && s[0] != '-' && s[0] != '+'
    ensures ParseInt(s) == None
  {
  }

  // ---------------------------------------------------------------------
  // Ordering of titles

  /** Lexicographic order on code points (`ORDER BY title` under the "C"
      collation). */
  predicate LexLe(a: string, b: string) {
    |a| == 0 || (|b| > 0 && (a[0] < b[0] || (a[0] == b[0] && LexLe(a[1..], b[1..]))))
  }

  lemma {:induction false} LexLeTotal(a: string, b: string)
    ensures LexLe(a, b) || LexLe(b, a)
  {
    if |a| > 0 && |b| > 0 && a[0] == b[0] {
      LexLeTotal(a[1..], b[1..]);
    }
  }

  lemma {:induction false} LexLeTransitive(a: string, b: string, c: string)
    requires LexLe(a, b) && LexLe(b, c)
    ensures LexLe(a, c)
  {
    if |a| > 0 && |b| > 0 && |c| > 0 && a[0] == b[0] && b[0] == c[0] {
      LexLeTransitive(a[1..], b[1..], c[1..]);
    }
  }

  /** Two titles that precede each other are the same title. */
  lemma {:induction false} LexLeAntisymmetric(a: string, b: string)
    requires LexLe(a, b) && LexLe(b, a)
    ensures a == b
  {
    if |a| > 0 && |b| > 0 {
      LexLeAntisymmetric(a[1..], b[1..]);
      assert a == [a[0]] + a[1..];
      assert b == [b[0]] + b[1..];
    }
  }
}

=== FILE: wrappers.dfy ===
/** Failure-compatible wrappers shared by every module of the model: an
    optional value (a nullable column, an absent query parameter, `NaN`) and a
    result that is either a value or a database error. */
module Wrappers {

  datatype Option<+T> = None | Some(value: T) {

    /** The value, or `default` when absent (the `??` and `||` fallbacks of the source). */
    function GetOr(default: T): T {
      match this
      case Some(v) => v
      case None => default
    }
  }

  datatype Result<+R, +E> = Success(value: R) | Failure(error: E) {

    predicate IsFailure() {
      Failure?
    }

    function PropagateFailure<U>(): Result<U, E>
      requires Failure?
    {
      Failure(this.error)
    }

    function Extract(): R
      requires Success?
    {
      value
    }
  }
}
